=== FILE: README.md ===
# Wallet ledger core, modelled in Dafny

This project models the money path of a PHP wallet service:

- **Money.** The fixed-point helpers of the `HasMoney` trait and the transfer fee rule.
- **Ledger writer.** It appends one entry per balance change and clamps the balance at zero.
- **Idempotency guard.** It checks the key, takes the key's lock and checks the key again under the lock.
- **Deposits and withdrawals.** Each runs under one wallet lock, with three attempts.
- **Transfers.** A transfer runs under both wallets' locks, taken in id order. It writes a debit, a fee entry and a credit.
- **Repair command.** It re-chains ledger balances, rebuilds a ledger from history, and recalculates wallet balances.
- **Audit command.** It runs the ledger-consistency, wallet-balance, completeness and system-balance checks, then sets the exit code.
- **String rules.** The `X-Idempotency-Key` header shape check, and the CamelCase to snake_case entity name.

## Modelling choices

- Money is an integer number of cents. bcmath at scale 2 makes `add` and `subtract` exact. `multiply` and `divide` truncate toward zero, written out as `Money.TruncDiv`, because Dafny's own `/` is Euclidean.
- The database is an immutable `Store.Store` value. A PHP method that throws becomes a `Result`.
  - On failure, a service returns the store as it was before its callback ran, plus the transaction row marked `failed`. This is the database transaction's rollback.
- `Cache::lock` is a provider that maps each held lock name to an owner token. An oracle `seq<bool>` decides whether each non-blocking `get()` succeeds. An empty oracle means no contention.
  - Releasing a lock frees it only when the handle's owner holds it. So the stale second release on the retry paths does nothing, as it does in Laravel.
- The callbacks handed to the lock helpers are data: `TransactionService.WalletOperation` and `TransferService.TransferCall`.
- The generated UUID and `now()` are parameters.
- The default run of the repair command is modelled one wallet at a time. The modelled parts are the re-chain pass, the balance rule, and the replay that rebuilds a ledger.

## Model

| member | source | states |
|---|---|---|
| Money.TruncDiv | app/Traits/HasMoney.php:45-60 | bcmath's truncation: the quotient's magnitude is the floor of the magnitudes' quotient, and its sign is the quotient's sign |
| Money.CalculateWithPrecision | app/Traits/HasMoney.php:25-65 | add gives the exact sum and never fails, nor does multiply; subtract gives the first operand minus the sum of the rest, and fails exactly when there are no operands; with no operands subtract and divide fail with the "Undefined array key 0" error of reading `$amounts[0]`; an unknown operation fails with "Invalid operation: …" |
| Money.DivideAll | app/Traits/HasMoney.php:52-60 | with no operands divide fails on the missing `$amounts[0]`; otherwise it fails with "Division by zero" exactly when some later operand is zero, and one operand comes back as it is |
| Money.Mul | app/Traits/HasMoney.php:45-50 | one bcmul step is the exact product truncated to cents, and is non-negative when the product is |
| Money.Div | app/Traits/HasMoney.php:52-60 | one bcdiv step is the exact quotient truncated to cents |
| Money.AddAllIsSum | app/Traits/HasMoney.php:31-36 | folding bcadd from "0" gives the exact sum of the operands |
| Money.SubtractAllLeftToRight | app/Traits/HasMoney.php:38-43 | subtracting left to right equals the first operand minus the sum of all later ones |
| Money.PairIsExact | app/Traits/HasMoney.php:31-43 | adding or subtracting two amounts is exact |
| Money.MultiplyAllTruncates | app/Traits/HasMoney.php:45-50 | for non-negative operands the truncating fold is non-negative and never exceeds the exact product; a single operand comes back unchanged |
| Money.CompareAmounts | app/Traits/HasMoney.php:70-74 | bccomp returns -1, 0 or 1; at precision 2 or more it is exactly less, equal or greater |
| Money.CompareAntisymmetric | app/Traits/HasMoney.php:70-74 | comparing the other way round negates the result |
| Money.ExplodeNoSeparator | app/Traits/HasMoney.php:86 | explode with no separator in the string gives the string alone |
| Money.ExplodeOneSeparator | app/Traits/HasMoney.php:86-87 | with a single separator, the second piece is the text after it |
| Money.IsValidAmount | app/Traits/HasMoney.php:79-92 | valid iff the string is numeric as `is_numeric` reads it (white space around, a sign, a decimal mantissa, an optional exponent), its value is not below zero, and at most maxDecimals characters follow its point |
| Money.DotsInMantissa | app/Traits/HasMoney.php:81-86 | in a numeric string every '.' lies in the mantissa, so there is at most one |
| Money.FractionIsSecondPart | app/Traits/HasMoney.php:86-87 | in a numeral, explode's second piece is exactly the text after the point; there is one piece iff there is no point |
| Money.ExponentAndSpacesAccepted | app/Traits/HasMoney.php:79-92 | "1e5", " 5" and "5\n" are valid amounts |
| Money.SignedAmountsExamples | app/Traits/HasMoney.php:79-92 | ".5" and "-0" are valid; "-1e5" and "" are not |
| Money.MalformedAmountsRejected | app/Traits/HasMoney.php:79-92 | "1.5e5" has too many decimals once its exponent follows the point; "1e" and "- 5" are not numeric |
| FeeCalculator.PercentageFee | app/Services/FeeCalculatorService.php:23-27 | bcmul(amount, 0.10) at scale 2 is the amount's cents divided by ten, truncated |
| FeeCalculator.TenPercentTruncates | app/Services/FeeCalculatorService.php:23-27 | the multiply fold over amount and 0.10 is amount / 10 in cents |
| FeeCalculator.CalculateTransferFee | app/Services/FeeCalculatorService.php:17-34 | no fee at or below 25.00; above it 2.50 plus 10% truncated, which is at least 5.00; never negative |
| FeeCalculator.GetFeeBreakdown | app/Services/FeeCalculatorService.php:39-68 | all zeros at or below the threshold; above it, base plus percentage equals the total, the total equals the calculated fee, and the rate is total/amount×100 |
| FeeCalculator.FeeExamples | app/Services/FeeCalculatorService.php:17-68 | 100.00 costs 12.50 at a 12.5% rate, 50.00 costs 7.50, 25.00 and 10.00 cost nothing |
| Ledger.BalanceAfter | app/Services/LedgerService.php:22-25 | a credit adds and a debit or fee subtracts, floored at zero; never negative |
| Ledger.LegerEntryLog | app/Services/LedgerService.php:16-38 | fails iff the type is not credit, debit or fee; otherwise appends one entry to that wallet only, starting at the last entry's balance after (or 0), ending at the floored result, and carrying the given fields |
| Ledger.WrittenLedgerNonNegative | app/Services/LedgerService.php:33 | a written ledger never ends below zero |
| Ledger.ExtendWritten | app/Services/LedgerService.php:18-33 | an entry that continues the chain and follows the rule keeps a ledger written |
| Ledger.AppendKeepsChain | app/Services/LedgerService.php:18-38 | appending keeps the wallet's ledger chained, and the new entry starts where the previous one ended |
| Ledger.WriterOnlyLedgersAreChained | app/Services/LedgerService.php:16-38 | any sequence of writer calls from written ledgers leaves every ledger chained and following the rule |
| Ledger.RunningBalanceExample | app/Services/LedgerService.php:16-38 | deposits of 100 and 50, a withdrawal of 30 and a deposit of 20 chain 0→100→150→120→140 |
| Locks.TryAcquire | app/Services/TransactionService.php:181-186 | one non-blocking get: obtained iff the lock is free and the oracle allows it; a fresh owner token each time; a held lock does not consume the oracle |
| Locks.Release | app/Services/TransactionService.php:210-213 | release frees the lock only when this handle's owner holds it, and is a no-op otherwise |
| Locks.ReleaseUnownedIsNoOp | app/Services/TransferService.php:175-180 | releasing handles whose owners hold nothing changes nothing |
| Locks.ReleaseOwned | app/Services/TransferService.php:144-147 | releasing handles that own their locks frees exactly those locks |
| Idempotency.CheckIdempotent | app/Services/IdempotencyService.php:22-53 | a used key fails as Duplicate before any lock is taken; a busy key lock fails as ConcurrentRequest; a key used by the time the lock is held fails as Duplicate; success iff the key is unused under the lock and the lock was obtained; the key lock is always released |
| Idempotency.FreshKeyPasses | app/Services/IdempotencyService.php:22-48 | an unused key with a free lock passes |
| Store.InsertTransaction | app/Services/TransactionService.php:51-58 | inserting a row adds its key to the used keys and changes nothing else |
| Store.FailInserted | app/Services/TransactionService.php:99-103 | marking a just-inserted row failed equals inserting it failed |
| Store.FindByNumber | app/Services/TransferService.php:59 | finds a wallet iff one carries the number, and the one found carries it |
| Store.SameAccountsKeepUnique | app/Services/TransferService.php:59 | changing balances keeps wallet numbers unique |
| TransactionService.DepositBody | app/Services/TransactionService.php:60-97 | fails iff the wallet is not active; otherwise credits the amount, appends one credit entry, adds one deposit record with the default method "bank_transfer", and completes the row at now |
| TransactionService.WithdrawBody | app/Services/TransactionService.php:123-163 | fails iff the wallet is not active or its balance is below the amount, with inactivity checked first; otherwise debits, appends one debit entry, adds one withdrawal record and completes the row |
| TransactionService.ExecuteWithWalletLock | app/Services/TransactionService.php:179-214 | WalletLocked unless one of three attempts obtains the lock; a missing wallet row fails; otherwise it is the callback's result; any failure leaves the store unchanged; all locks are released |
| TransactionService.Deposit | app/Services/TransactionService.php:48-105 | a used key returns Duplicate with nothing written; once admitted, any failure leaves only a failed row; success iff admitted, locked, and the wallet exists and is active; the result is the stored row |
| TransactionService.DepositEffects | app/Services/TransactionService.php:60-97 | a successful deposit credits exactly the wallet's balance, appends one chained credit entry and one deposit record, and marks the key used |
| TransactionService.Withdraw | app/Services/TransactionService.php:110-173 | as for deposits, plus InsufficientBalance when the balance is below the amount; a failed row has no completion time |
| TransactionService.WithdrawEffects | app/Services/TransactionService.php:123-163 | a successful withdrawal debits the wallet without going below zero, appends one chained debit entry and one withdrawal record |
| TransactionService.DepositRowStored | app/Services/TransactionService.php:51-96 | a successful deposit adds exactly one transaction row, the one it returns |
| TransactionService.WithdrawRowStored | app/Services/TransactionService.php:113-162 | a successful withdrawal adds exactly one transaction row, the one it returns |
| TransferService.AcquireInOrder | app/Services/TransferService.php:135-156 | one pass obtains every lock iff the ids are distinct, none is held and the oracle grants each attempt; the handles own exactly the locks obtained |
| TransferService.LockOrder | app/Services/TransferService.php:65-66 | the two ids sorted ascending, as a permutation of sender and receiver |
| TransferService.OppositeTransfersLockAlike | app/Services/TransferService.php:64-66 | transfers in opposite directions lock in the same order |
| TransferService.CreateTransferLedgerEntries | app/Services/TransferService.php:183-217 | the sender gets a debit of the amount and then a fee entry of the fee; the receiver gets a credit of the amount; each continues its chain, is a transfer entry of the transfer's id and carries its description ("Transfer to wallet …", "Transfer fee", "Transfer from wallet …"); no other ledger changes |
| TransferService.TransferBody | app/Services/TransferService.php:67-116 | fails with InsufficientBalance iff the sender's balance is below amount plus fee; otherwise moves the money, writes the record and three entries, and completes the row with its fee |
| TransferService.ExecuteWithMultipleWalletLocks | app/Services/TransferService.php:128-181 | WalletLocked unless one of three passes obtains both locks; a pass that does succeed implies distinct wallets; a missing row fails; any failure leaves the store unchanged |
| TransferService.ActiveReceiver | app/Services/TransferService.php:59-62 | finds a receiver iff an active wallet carries the number |
| TransferService.ExecuteTransfer | app/Services/TransferService.php:48-126 | used keys stay the same; a used key is Duplicate; once admitted, any failure leaves only a failed row; a missing or inactive receiver is WalletNotFound; success iff admitted, receiver active, both locks obtained, sender present and balance covering amount plus fee |
| TransferService.TransferEffects | app/Services/TransferService.php:67-116 | a successful transfer is between distinct wallets and returns the completed row with its fee |
| TransferService.TransferConservesMoney | app/Services/TransferService.php:85-95 | the two balances together drop by exactly the fee, the sender stays non-negative, and other wallets are untouched |
| TransferService.ZeroFeeEntryWritten | app/Services/TransferService.php:196-205 | a transfer of at most 25.00 still writes a fee entry of 0.00 that leaves the balance unchanged |
| TransferService.RepeatedWalletNeverLocks | app/Services/TransferService.php:135-156 | a list naming a wallet twice never obtains all its locks |
| TransferService.HeldWalletNeverLocks | app/Services/TransferService.php:135-156 | a lock held throughout is never obtained |
| TransferService.SelfTransferIsLocked | app/Services/TransferService.php:65-67 | a transfer to the sender's own number always ends in WalletLocked with balances and ledgers untouched |
| TransferService.SuspendedSenderCanTransfer | app/Services/TransferService.php:59-62 | only the receiver's status is checked: a suspended sender's otherwise valid transfer succeeds |
| TransferService.TransferKeyStaysUnused | app/Services/TransferService.php:50-56 | the transfer row carries no key, so the key is not used afterwards |
| TransferService.TransferRowStored | app/Services/TransferService.php:51-113 | a successful transfer adds exactly one transaction row, the one it returns |
| Consistency.DepositKeepsConsistent | app/Services/TransactionService.php:48-105 | a deposit of a non-negative amount keeps every ledger chained and every balance equal to its ledger's last balance |
| Consistency.WithdrawKeepsConsistent | app/Services/TransactionService.php:110-173 | a withdrawal keeps the books consistent |
| Consistency.TransferKeepsConsistent | app/Services/TransferService.php:48-126 | a transfer of a non-negative amount keeps the books consistent |
| Consistency.OperationsKeepAccounts | app/Services/TransferService.php:89-95 | the operations change balances only, not wallet numbers or statuses |
| Consistency.RunKeepsConsistent | app/Services/TransactionService.php:48-214 | any sequence of deposits, withdrawals and transfers under any lock contention keeps the books consistent |
| Conservation.DepositKeepsBalanced | app/Console/Commands/WalletFinancialAudit.php:439-453 | a deposit keeps the wallet total equal to completed deposits minus completed withdrawals minus completed transfer fees |
| Conservation.WithdrawKeepsBalanced | app/Console/Commands/WalletFinancialAudit.php:439-453 | a withdrawal keeps that equation |
| Conservation.TransferKeepsBalanced | app/Console/Commands/WalletFinancialAudit.php:439-453 | a transfer keeps that equation: the wallets lose the fee the completed row carries |
| Conservation.TransferStepBalanced | app/Services/TransferService.php:78-113 | a completed transfer's store change keeps the equation |
| Conservation.RunKeepsBalanced | app/Console/Commands/WalletFinancialAudit.php:423-470 | from a balanced start, any run keeps the equation, so the system-balance check never fires |
| Conservation.FreshSystemIsBalanced | app/Console/Commands/WalletFinancialAudit.php:428-453 | a system with zero-balance wallets and no transactions is balanced |
| Completeness.CompletenessAuditPassesIff | app/Console/Commands/WalletFinancialAudit.php:185-251 | the completeness check reports nothing iff no completed row lacks its record or entries |
| Completeness.DepositKeepsComplete | app/Services/TransactionService.php:74-94 | a deposit never leaves a completed row without its record and credit entry |
| Completeness.WithdrawKeepsComplete | app/Services/TransactionService.php:141-160 | a withdrawal never leaves a completed row without its record and debit entry |
| Completeness.TransferKeepsComplete | app/Services/TransferService.php:98-113 | a transfer never leaves a completed row without its record and its debit, credit and fee entries |
| Completeness.RunKeepsComplete | app/Console/Commands/WalletFinancialAudit.php:185-251 | from complete books, any run keeps them complete, so the completeness check stays silent |
| Audit.ExpectedBalance | app/Console/Commands/WalletFinancialAudit.php:475-486 | the audit's expected balance is the writer's result before the floor: flooring it at zero gives the writer's balance after; CalculationErrorIffDeepClamp builds on this |
| Audit.AuditLedgerConsistency | app/Console/Commands/WalletFinancialAudit.php:116-180 | reports only discontinuities and calculation errors, each for a wallet that has a ledger; it is silent iff no ledger has an error (see ConsistentLedgersPass) |
| Audit.AuditWalletLedger | app/Console/Commands/WalletFinancialAudit.php:129-176 | the loop over one wallet's entries records exactly the discontinuities and calculation errors of the reference definition, and warns about a non-zero first balance |
| Audit.AuditEntry | app/Console/Commands/WalletFinancialAudit.php:147-173 | given the previous entry's balance after, one step records exactly the entry's reference errors: a discontinuity iff it starts more than 0.10 away from where the previous entry ended, then a calculation error iff it ends more than 0.10 away from its expected balance |
| Audit.NoLedgerErrorsIff | app/Console/Commands/WalletFinancialAudit.php:148-173 | a prefix has no errors iff no entry in it is discontinuous or miscalculated |
| Audit.CalculationErrorIffDeepClamp | app/Console/Commands/WalletFinancialAudit.php:161-173 | for a written entry, a calculation error means the writer floored a result below -0.10 |
| Audit.WrittenLedgerIsContinuous | app/Console/Commands/WalletFinancialAudit.php:138-158 | a written ledger has no discontinuity and no first-entry warning |
| Audit.WrittenLedgerPassesIffNoDeepClamp | app/Console/Commands/WalletFinancialAudit.php:148-173 | a written ledger passes iff no entry's unclamped result is below -0.10 |
| Audit.OverdrawnLedgerIsFlagged | app/Console/Commands/WalletFinancialAudit.php:161-173 | 30.00 in and 50.00 out gives exactly one calculation error, expected -20.00 and actual 0.00 |
| Audit.ConsistentLedgersPass | app/Console/Commands/WalletFinancialAudit.php:116-180 | for consistent books: no warnings, only calculation errors, and none iff no deep clamp |
| Audit.OnlyCalculationErrors | app/Console/Commands/WalletFinancialAudit.php:148-173 | a continuous ledger yields calculation errors only |
| Audit.AuditWalletBalances | app/Console/Commands/WalletFinancialAudit.php:58-111 | reports only missing ledgers and balance mismatches of known wallets; a wallet is MissingLedger iff it has no entries and has detail records or a non-zero balance (see ConsistentWalletsPass); a wallet with entries is BalanceMismatch (stored balance, last running balance) iff the two differ by more than the 0.10 tolerance |
| Audit.ConsistentWalletsPass | app/Console/Commands/WalletFinancialAudit.php:58-111 | for consistent books, the only wallet findings are missing ledgers for entry-less wallets that have detail records |
| Audit.SeededWalletIsFlagged | app/Console/Commands/WalletFinancialAudit.php:73-88 | a wallet with a balance and no entries is reported as missing its ledger |
| Audit.AuditTransactionCompleteness | app/Console/Commands/WalletFinancialAudit.php:236-247 | rows that are not completed are never reported |
| Audit.AuditSystemBalance | app/Console/Commands/WalletFinancialAudit.php:462-469 | no error iff the wallet total is within 0.10 of the expected total |
| Audit.ExitCode | app/Console/Commands/WalletFinancialAudit.php:52 | 0 or 1, and 1 iff some error was recorded |
| Audit.ExitCodeIffSomeCheckFails | app/Console/Commands/WalletFinancialAudit.php:29-53 | the command exits 0 iff every modelled check comes back empty |
| Repair.Refit | app/Console/Commands/FixConcurrencyIssues.php:100-111 | a refitted entry starts at the expected balance, and only its balances change |
| Repair.Pass | app/Console/Commands/FixConcurrencyIssues.php:88-121 | one pass keeps the number of entries, counts at most one fix per entry, and changes nothing in a dry run |
| Repair.FixWalletLedger | app/Console/Commands/FixConcurrencyIssues.php:77-122 | the pass from 0: same length, and a dry run writes nothing |
| Repair.PassCloses | app/Console/Commands/FixConcurrencyIssues.php:92-120 | after a pass, every entry starts within 0.01 of its predecessor's balance after, and the first within 0.01 of 0 |
| Repair.NoGapNoChange | app/Console/Commands/FixConcurrencyIssues.php:95 | a ledger without a gap is left as it is with nothing counted |
| Repair.NothingCountedIffNoGap | app/Console/Commands/FixConcurrencyIssues.php:95-96 | the pass counts nothing iff there is no gap |
| Repair.PassOnlyRefits | app/Console/Commands/FixConcurrencyIssues.php:95-113 | an entry is rewritten only when it has a gap and this is not a dry run; a rewritten entry starts at the expected balance |
| Repair.RechainIdempotent | app/Console/Commands/FixConcurrencyIssues.php:92-117 | a second pass finds no gap and changes nothing |
| Repair.WrittenLedgerNeedsNoRepair | app/Console/Commands/FixConcurrencyIssues.php:88-121 | a ledger as the writer leaves it needs no repair |
| Repair.RepairExample | app/Console/Commands/FixConcurrencyIssues.php:95-113 | a credit knocked to start at 90.00 is restarted at 100.00 and ends at 150.00, counted once; a dry run counts it and writes nothing |
| Repair.ReplayEvent | app/Console/Commands/FixConcurrencyIssues.php:258-285 | one event yields one entry, or two iff it is a sent transfer with a positive fee; every entry belongs to the wallet and carries the event's transaction id; the first entry is a credit iff the event is a deposit or a received transfer (a debit otherwise), carries the event's amount, starts at the running balance and ends at balance + amount for a credit or the floored balance - amount for a debit; the second entry is a fee of the event's fee chained from the first and floored at zero |
| Repair.Replay | app/Console/Commands/FixConcurrencyIssues.php:253-286 | the rebuild loop yields at least one entry per event; ReplayWritten and ReplayFromZeroIsWritten show that its output is a ledger the writer could have produced |
| Repair.ReplayWritten | app/Console/Commands/FixConcurrencyIssues.php:253-286 | the replay is chained from its start, follows the writer's rule, ends at the running balance, and has one entry per event plus one per positive fee |
| Repair.ReplayFromZeroIsWritten | app/Console/Commands/FixConcurrencyIssues.php:246-286 | replayed from 0, the history is a ledger the writer could have written, and the final balance is its last balance after |
| Repair.ZeroFeeTransferHasNoFeeEntry | app/Console/Commands/FixConcurrencyIssues.php:269-279 | a sent transfer without a fee is replayed as a single debit |
| Repair.RebuildWalletLedger | app/Console/Commands/FixConcurrencyIssues.php:171-294 | a dry run changes nothing; one fix is counted per replayed entry; otherwise the ledger becomes the replay and the wallet balance becomes the replay's final running balance |
| Repair.BalanceRule | app/Console/Commands/FixConcurrencyIssues.php:141-159 | set the balance to the last balance after iff there are entries and the difference exceeds 0.01; rebuild iff there are none and the balance is non-zero |
| Repair.RecalculateWalletBalance | app/Console/Commands/FixConcurrencyIssues.php:136-160 | a dry run changes nothing; nothing is counted iff the rule keeps the wallet, or a rebuild finds no history; a kept wallet keeps its balance; outside a dry run a wallet with entries takes the last entry's running balance, and a rebuilt one takes the replay's entries and final balance; entries change only when rebuilt |
| Repair.RecalculatedBalanceAgrees | app/Console/Commands/FixConcurrencyIssues.php:141-158 | after recalculation the balance is within 0.01 of the ledger's last balance |
| Repair.RecalculateSettles | app/Console/Commands/FixConcurrencyIssues.php:136-160 | a second recalculation finds nothing to do |
| Repair.RepairLeavesWalletConsistent | app/Console/Commands/FixConcurrencyIssues.php:40-41 | re-chaining and then recalculating leaves the ledger gap-free and the balance within 0.01 of it |
| Validators.MatchGroupsIffUuidShape | app/Http/Requests/IdempotentRequest.php:22 | the pattern's group-by-group match is the position-by-position UUID layout |
| Validators.PatternMatchesIffShape | app/Http/Requests/IdempotentRequest.php:22 | the anchored pattern accepts a UUID, or a UUID followed by one final newline |
| Validators.ValidateIdempotencyKey | app/Http/Requests/IdempotentRequest.php:15-27 | at most one error, always on the header field; "required" iff there is no header; no error iff the key is falsy or has the UUID shape in any letter case |
| Validators.AnyCaseUuidAccepted | app/Http/Requests/IdempotentRequest.php:22-26 | a UUID in lower or upper case passes |
| Validators.MalformedKeyRejected | app/Http/Requests/IdempotentRequest.php:22-24 | a truthy non-UUID key gets exactly the format error |
| Validators.FalsyKeysAccepted | app/Http/Requests/IdempotentRequest.php:22 | "" and "0" pass unchecked |
| Validators.NewlineTerminatedUuidAccepted | app/Http/Requests/IdempotentRequest.php:22 | a UUID followed by a newline passes |
| Validators.FreeTextKeyRejected | app/Http/Requests/IdempotentRequest.php:22-24 | "not-a-uuid" gets the format error |
| Validators.InsertUnderscores | app/Services/CrudService.php:14 | the `\B([A-Z])` replacement never shortens the name and keeps its last character; InsertOnlyAddsUnderscores and InsertCountsInnerCapitals pin down what it inserts |
| Validators.ToLower | app/Services/CrudService.php:14 | strtolower lowers each character in place |
| Validators.EntityName | app/Services/CrudService.php:14 | the entity name has no capital letters and is at least as long as the input |
| Validators.InsertOnlyAddsUnderscores | app/Services/CrudService.php:14 | the replacement only inserts underscores |
| Validators.DroppingUnderscoresGivesLoweredName | app/Services/CrudService.php:14 | for a name without underscores, deleting them from the entity name gives the lowercased name |
| Validators.InsertCountsInnerCapitals | app/Services/CrudService.php:14 | for a letters-and-digits name, one underscore is inserted per capital after the first character |
| Validators.EntityNameUnderscores | app/Services/CrudService.php:14 | the entity name has one underscore per inner capital and never starts with one |
| Validators.LowerCaseNameUnchanged | app/Services/CrudService.php:14 | a name without capitals is its own entity name |
| Validators.InsertWord | app/Services/CrudService.php:14 | appending a word with no inner capitals inserts at most one underscore, in front of the word |
| Validators.TransactionEntityName | app/Services/TransactionService.php:35 | "Transaction" becomes "transaction" |
| Validators.LedgerEntryEntityName | app/Services/LedgerService.php:13 | "LedgerEntry" becomes "ledger_entry" |

## Left out

- Float casts, `round`, `number_format` and `parseMoney`/`formatMoney`: amounts are exact cents; the float round trips of the PHP code are not modelled.
- `fixOrphanedTransactions` and `rebuildLedgerFromTransactions` of the repair command, and its iteration over wallets and `--wallet` filter: the model repairs one wallet's ledger and balance at a time.
- Gathering and sorting a wallet's history for a rebuild (FixConcurrencyIssues.php:176-243): the replay takes the sorted events as a parameter.
- The transfer-balance, fee, idempotency-key and orphaned-record audits, the report output and `--fix`: the exit code here reflects only the modelled checks.
- The ledger-entry total the system audit prints but never checks.
- Lock TTLs, `usleep` between retries, and real concurrency: each lock attempt's outcome comes from the oracle.
- Request validation other than the idempotency key, and `withValidator`'s merging of messages.
- The transactions table migration is not part of this model. The transfer row's fee defaults to 0 until it is set.
- Date filters of the audit (`--from`, `--to`).
- Store.FindByNumber: it assumes wallet numbers are unique. `generateUniqueWalletNumber` and the factories produce unique numbers. The seeder draws them with plain `rand` (database/seeders/UserSeeder.php:48). The wallets migration, which may or may not hold a unique index, is not part of this model.
- Money.IsValidAmount: `$amount < 0` is read on the exact decimal value. A negative numeral so close to zero that its double underflows to -0.0 counts as negative here, though PHP lets it through (floating point). Only string amounts are modelled, not PHP ints and floats.
- The repair orders entries by creation time and the audit by id. The model gives both the same sequence, so it assumes the two orders agree.
- Repair.FixWalletLedger: the closing property is stated within the 0.01 tolerance, in exact cents. In the model an entry whose start is off by exactly one cent is left as it is, so the chain is only nearly exact. PHP may re-chain such an entry; see the next line.
- The tolerance checks `abs(…) > 0.01` (FixConcurrencyIssues.php:95, 144) and `abs(…) > 0.1` (WalletFinancialAudit.php:92, 148, 162, 462) compare doubles in PHP. The model compares exact cents. A difference of exactly 0.01 or 0.10 never exceeds the tolerance here. In PHP it may exceed it, depending on the values: `abs(1.01 - 1.00)` comes out above 0.01, while `abs(0.11 - 0.10)` does not.
- Repair.RepairLeavesWalletConsistent: like FixWalletLedger, the first entry starts within 0.01 of zero, not exactly at zero.
- Audit.ExitCode: it covers only the four modelled checks.
- Consistency.RunKeepsConsistent: a request whose generated id is already taken is skipped. Such a request stands for a UUID collision.
- Conservation.RunKeepsBalanced: it assumes every deposit and withdrawal record points at an existing transaction row, which the services always ensure. It also needs a balanced start. A seeded wallet with a balance but no deposit breaks the equation.

## Notes on the code

- The fee unit tests expect a 2.50 fee for amounts at or below 25.00 (tests/Unit/Services/FeeCalculatorServiceTest.php:17-24). The code returns 0.00 there, and the model follows the code.
- The completeness audit asks for a fee entry only when the fee is above 0 (app/Console/Commands/WalletFinancialAudit.php:227-230). The rebuild likewise writes one only then (app/Console/Commands/FixConcurrencyIssues.php:274). The live transfer logs the fee entry unconditionally, a 0 entry included (app/Services/TransferService.php:196-205, TransferService.ZeroFeeEntryWritten).
- The rebuild omits a zero-fee entry (Repair.ZeroFeeTransferHasNoFeeEntry), so a rebuilt ledger differs from the live one.
- The transfer row is created without its idempotency key (TransferService.TransferKeyStaysUnused). After the transfer, reusing the key is not detected as a duplicate.
- Only the receiver's status is checked (TransferService.SuspendedSenderCanTransfer).
- A transfer to one's own wallet number can never obtain both locks, because the second `get` of the same lock fails. It therefore always ends in WalletLocked (TransferService.SelfTransferIsLocked).
- The ledger writer floors every result at zero. The audit's calculation check flags any entry floored by more than 0.10 (Audit.OverdrawnLedgerIsFlagged).
- PCRE's `$` also matches before a final newline, so the header check accepts a UUID followed by "\n" (Validators.NewlineTerminatedUuidAccepted).

=== FILE: audit.dfy ===
/** The rules of the wallet:audit command that define a healthy wallet system: the
    per-entry and per-chain checks on every ledger, the wallet-against-ledger check,
    the completeness check on transaction rows, the system-wide balance check, and the
    exit code. A rule reports a difference only when it exceeds 0.10, compared here in
    exact cents (PHP compares doubles, where exactly 0.10 can come out above the tolerance). */
module Audit {
  import opened Outcomes
  import opened Money
  import opened Ledger
  import opened Store
  import opened Consistency

  /** 0.10: a difference greater than this is reported. */
  const AuditTolerance: Cents := 10

  /** An error the audit records. Entries are identified by their position in the
      wallet's ledger, which is the order of their ids. */
  datatype Finding =
    | MissingLedger(walletId: WalletId)
    | BalanceMismatch(walletId: WalletId, walletBalance: Cents, ledgerBalance: Cents)
    | LedgerDiscontinuity(walletId: WalletId, index: nat, expectedBefore: Cents, actualBefore: Cents)
    | LedgerCalculationError(walletId: WalletId, index: nat, expectedAfter: Cents, actualAfter: Cents)
    | IncompleteTransaction(transactionId: string, hasRecord: bool, hasLedger: bool)
    | SystemBalanceMismatch(walletTotal: Cents, expectedTotal: Cents)

  /** A warning the audit records; warnings do not affect the exit code. */
  datatype Warning = FirstEntryBalance(walletId: WalletId, balanceBefore: Cents)

  // ---------------------------------------------------------------------------
  // Ledger consistency

  /** `calculateExpectedBalance`: the balance after an entry, without any floor. */
  function ExpectedBalance(e: Entry): (r: Cents)
    ensures BalanceAfter(e.entryType, e.balanceBefore, e.amount) == FloorAtZero(r)
  {
    match e.entryType
    case Credit => e.balanceBefore + e.amount
    case Debit => e.balanceBefore - e.amount
    case Fee => e.balanceBefore - e.amount
  }

  /** The entry at `i > 0` starts further than the tolerance from where its predecessor ended. */
  predicate Discontinuous(es: seq<Entry>, i: nat)
    requires i < |es|
  {
    i > 0 && Abs(es[i].balanceBefore - es[i - 1].balanceAfter) > AuditTolerance
  }

  /** The entry ends further than the tolerance from its expected balance after. */
  predicate CalculationError(e: Entry) {
    Abs(e.balanceAfter - ExpectedBalance(e)) > AuditTolerance
  }

  /** The errors recorded for the entry at position `i`: a discontinuity first, then a
      calculation error. */
  function EntryErrors(w: WalletId, es: seq<Entry>, i: nat): seq<Finding>
    requires i < |es|
  {
    (if Discontinuous(es, i) then [LedgerDiscontinuity(w, i, es[i - 1].balanceAfter, es[i].balanceBefore)] else [])
    + (if CalculationError(es[i]) then [LedgerCalculationError(w, i, ExpectedBalance(es[i]), es[i].balanceAfter)] else [])
  }

  /** The errors recorded for the first `n` entries of a wallet's ledger, in order. */
  function LedgerErrors(w: WalletId, es: seq<Entry>, n: nat): seq<Finding>
    requires n <= |es|
    decreases n
  {
    if n == 0 then [] else LedgerErrors(w, es, n - 1) + EntryErrors(w, es, n - 1)
  }

  /** The warning recorded when the first entry does not start at zero. */
  function LedgerWarnings(w: WalletId, es: seq<Entry>): seq<Warning> {
    if |es| > 0 && es[0].balanceBefore != 0 then [FirstEntryBalance(w, es[0].balanceBefore)] else []
  }

  /** The per-wallet loop of `auditLedgerConsistency`, carrying the previous entry's
      balance after from one step to the next. */
  method AuditWalletLedger(w: WalletId, es: seq<Entry>) returns (errors: seq<Finding>, warnings: seq<Warning>)
    ensures errors == LedgerErrors(w, es, |es|)
    ensures warnings == LedgerWarnings(w, es)
  {
    errors := [];
    warnings := [];
    var previousBalance: Cents := 0;
    var index := 0;
    while index < |es|
      invariant 0 <= index <= |es|
      invariant errors == LedgerErrors(w, es, index)
      invariant warnings == (if index > 0 then LedgerWarnings(w, es) else [])
      invariant index > 0 ==> previousBalance == es[index - 1].balanceAfter
    {
      var entry := es[index];
      if index == 0 && entry.balanceBefore != 0 {
        warnings := warnings + [FirstEntryBalance(w, entry.balanceBefore)];
      }
      var found := AuditEntry(w, es, index, previousBalance);
      errors := errors + found;
      previousBalance := entry.balanceAfter;
      index := index + 1;
    }
  }

  /** One step of the per-wallet loop: the continuity check against the previous entry's
      balance after, then the calculation check. */
  method AuditEntry(w: WalletId, es: seq<Entry>, index: nat, previousBalance: Cents) returns (found: seq<Finding>)
    requires index < |es|
    requires index > 0 ==> previousBalance == es[index - 1].balanceAfter
    ensures found == EntryErrors(w, es, index)
  {
    var entry := es[index];
    found := [];
    if index > 0 && Abs(entry.balanceBefore - previousBalance) > AuditTolerance {
      found := found + [LedgerDiscontinuity(w, index, previousBalance, entry.balanceBefore)];
    }
    var expectedAfter := ExpectedBalance(entry);
    if Abs(entry.balanceAfter - expectedAfter) > AuditTolerance {
      found := found + [LedgerCalculationError(w, index, expectedAfter, entry.balanceAfter)];
    }
  }

  /** A ledger passes the per-entry checks exactly when no entry is discontinuous and
      none has a calculation error. */
  lemma {:induction false} NoLedgerErrorsIff(w: WalletId, es: seq<Entry>, n: nat)
    requires n <= |es|
    ensures |LedgerErrors(w, es, n)| == 0 <==> forall i :: 0 <= i < n ==> !Discontinuous(es, i) && !CalculationError(es[i])
    decreases n
  {
    if n > 0 {
      NoLedgerErrorsIff(w, es, n - 1);
      EntryErrorsEmptyIff(w, es, n - 1);
      assert |LedgerErrors(w, es, n)| == |LedgerErrors(w, es, n - 1)| + |EntryErrors(w, es, n - 1)|;
      if |LedgerErrors(w, es, n)| == 0 {
        forall i | 0 <= i < n
          ensures !Discontinuous(es, i) && !CalculationError(es[i])
        {
          if i < n - 1 {
            assert !Discontinuous(es, i) && !CalculationError(es[i]);
          }
        }
      }
    }
  }

  /** One entry records nothing exactly when it is neither discontinuous nor miscalculated. */
  lemma EntryErrorsEmptyIff(w: WalletId, es: seq<Entry>, i: nat)
    requires i < |es|
    ensures |EntryErrors(w, es, i)| == 0 <==> !Discontinuous(es, i) && !CalculationError(es[i])
  {
  }

  /** For an entry that obeys the writer's rule, the calculation check fails exactly when
      the writer's floor at zero cut off more than the tolerance. */
  lemma CalculationErrorIffDeepClamp(e: Entry)
    requires FollowsRule(e)
    ensures CalculationError(e) <==> ExpectedBalance(e) < -AuditTolerance
  {
  }

  /** A ledger the writer produced has no discontinuity and no first-entry warning. */
  lemma WrittenLedgerIsContinuous(w: WalletId, es: seq<Entry>)
    requires WrittenLedger(w, es)
    ensures forall i :: 0 <= i < |es| ==> !Discontinuous(es, i)
    ensures LedgerWarnings(w, es) == []
  {
  }

  /** A ledger the writer produced passes the per-entry checks exactly when no debit or
      fee was floored at zero by more than the tolerance. */
  lemma WrittenLedgerPassesIffNoDeepClamp(w: WalletId, es: seq<Entry>)
    requires WrittenLedger(w, es)
    ensures |LedgerErrors(w, es, |es|)| == 0 <==> forall i :: 0 <= i < |es| ==> ExpectedBalance(es[i]) >= -AuditTolerance
  {
    NoLedgerErrorsIff(w, es, |es|);
    WrittenLedgerIsContinuous(w, es);
    forall i | 0 <= i < |es|
      ensures CalculationError(es[i]) <==> ExpectedBalance(es[i]) < -AuditTolerance
    {
      CalculationErrorIffDeepClamp(es[i]);
    }
  }

  /** A wallet that the writer drove below zero is flagged: 30.00 in, 50.00 out. The
      debit is stored as ending at 0.00 while the audit expects -20.00. */
  lemma OverdrawnLedgerIsFlagged()
    ensures var reqs := [LogRequest(1, 3000, "credit", "t1", DepositRef, 1, None),
                         LogRequest(1, 5000, "debit", "t2", WithdrawalRef, 1, None)];
            var es := EntriesOf(LogAll(map[], reqs), 1);
            && |es| == 2
            && LedgerErrors(1, es, 2) == [LedgerCalculationError(1, 1, -2000, 0)]
  {
    var reqs := [LogRequest(1, 3000, "credit", "t1", DepositRef, 1, None),
                 LogRequest(1, 5000, "debit", "t2", WithdrawalRef, 1, None)];
    var l0: Ledgers := map[];
    var l1 := LegerEntryLog(l0, 1, 3000, "credit", "t1", DepositRef, 1, None).value.ledgers;
    var l2 := LegerEntryLog(l1, 1, 5000, "debit", "t2", WithdrawalRef, 1, None).value.ledgers;
    assert reqs[1..][1..] == [];
    assert LogAll(l0, reqs) == l2;
    var es := EntriesOf(l2, 1);
    assert LedgerErrors(1, es, 1) == [];
  }

  /** `auditLedgerConsistency` over every wallet that has entries. */
  function AuditLedgerConsistency(s: Store): (r: set<Finding>)
    ensures forall f :: f in r ==> (f.LedgerDiscontinuity? || f.LedgerCalculationError?) && f.walletId in s.ledgers
    ensures r == {} <==> forall w :: w in s.ledgers ==> |LedgerErrors(w, s.ledgers[w], |s.ledgers[w]|)| == 0
  {
    LedgerFindingsOfWallets(s);
    LedgerFindingSet(s)
  }

  function LedgerFindingSet(s: Store): set<Finding> {
    set w, f | w in s.ledgers && f in LedgerErrors(w, s.ledgers[w], |s.ledgers[w]|) :: f
  }

  lemma LedgerFindingsOfWallets(s: Store)
    ensures forall f :: f in LedgerFindingSet(s) ==> (f.LedgerDiscontinuity? || f.LedgerCalculationError?) && f.walletId in s.ledgers
    ensures LedgerFindingSet(s) == {} <==> forall w :: w in s.ledgers ==> |LedgerErrors(w, s.ledgers[w], |s.ledgers[w]|)| == 0
  {
    LedgerFindingKinds(s);
    LedgerFindingsEmpty(s);
  }

  lemma LedgerFindingKinds(s: Store)
    ensures forall f :: f in LedgerFindingSet(s) ==> (f.LedgerDiscontinuity? || f.LedgerCalculationError?) && f.walletId in s.ledgers
  {
    forall f | f in LedgerFindingSet(s)
      ensures (f.LedgerDiscontinuity? || f.LedgerCalculationError?) && f.walletId in s.ledgers
    {
      var w :| w in s.ledgers && f in LedgerErrors(w, s.ledgers[w], |s.ledgers[w]|);
      LedgerErrorKinds(w, s.ledgers[w], |s.ledgers[w]|);
    }
  }

  lemma LedgerFindingsEmpty(s: Store)
    ensures LedgerFindingSet(s) == {} <==> forall w :: w in s.ledgers ==> |LedgerErrors(w, s.ledgers[w], |s.ledgers[w]|)| == 0
  {
    if w :| w in s.ledgers && |LedgerErrors(w, s.ledgers[w], |s.ledgers[w]|)| != 0 {
      var errors := LedgerErrors(w, s.ledgers[w], |s.ledgers[w]|);
      assert errors[0] in errors;
      assert errors[0] in LedgerFindingSet(s);
    }
    if f :| f in LedgerFindingSet(s) {
      var w :| w in s.ledgers && f in LedgerErrors(w, s.ledgers[w], |s.ledgers[w]|);
      assert |LedgerErrors(w, s.ledgers[w], |s.ledgers[w]|)| != 0;
    }
  }

  /** Every error recorded for a wallet's ledger names that wallet and is a discontinuity or a calculation error. */
  predicate LedgerErrorsAreOfWallet(w: WalletId, es: seq<Entry>, n: nat)
    requires n <= |es|
  {
    forall f :: f in LedgerErrors(w, es, n) ==> (f.LedgerDiscontinuity? || f.LedgerCalculationError?) && f.walletId == w
  }

  lemma {:induction false} LedgerErrorKinds(w: WalletId, es: seq<Entry>, n: nat)
    requires n <= |es|
    ensures LedgerErrorsAreOfWallet(w, es, n)
    decreases n
  {
    if n > 0 {
      LedgerErrorKinds(w, es, n - 1);
    }
  }

  function LedgerWarningSet(s: Store): set<Warning> {
    set w, f | w in s.ledgers && f in LedgerWarnings(w, s.ledgers[w]) :: f
  }

  /** In a store whose ledgers are all as the writer leaves them, the ledger audit finds
      no discontinuity and no warning, and finds nothing at all exactly when no entry
      was floored by more than the tolerance. */
  lemma ConsistentLedgersPass(s: Store)
    requires Consistent(s)
    ensures LedgerWarningSet(s) == {}
    ensures forall f :: f in AuditLedgerConsistency(s) ==> f.LedgerCalculationError?
    ensures AuditLedgerConsistency(s) == {} <==>
              forall w, i :: w in s.ledgers && 0 <= i < |s.ledgers[w]| ==> ExpectedBalance(s.ledgers[w][i]) >= -AuditTolerance
  {
    forall w | w in s.ledgers
      ensures LedgerWarnings(w, s.ledgers[w]) == []
      ensures forall f :: f in LedgerErrors(w, s.ledgers[w], |s.ledgers[w]|) ==> f.LedgerCalculationError?
      ensures |LedgerErrors(w, s.ledgers[w], |s.ledgers[w]|)| == 0 <==>
                forall i :: 0 <= i < |s.ledgers[w]| ==> ExpectedBalance(s.ledgers[w][i]) >= -AuditTolerance
      ensures AuditLedgerConsistency(s) == {} ==> |LedgerErrors(w, s.ledgers[w], |s.ledgers[w]|)| == 0
    {
      var es := s.ledgers[w];
      assert WrittenLedger(w, EntriesOf(s.ledgers, w));
      WrittenLedgerIsContinuous(w, es);
      WrittenLedgerPassesIffNoDeepClamp(w, es);
      OnlyCalculationErrors(w, es, |es|);
      var errs := LedgerErrors(w, es, |es|);
      if |errs| > 0 {
        var f := errs[0];
        assert w in s.ledgers && f in LedgerErrors(w, s.ledgers[w], |s.ledgers[w]|);
        assert f in AuditLedgerConsistency(s);
      }
    }
  }

  lemma {:induction false} OnlyCalculationErrors(w: WalletId, es: seq<Entry>, n: nat)
    requires n <= |es|
    requires forall i :: 0 <= i < |es| ==> !Discontinuous(es, i)
    ensures forall f :: f in LedgerErrors(w, es, n) ==> f.LedgerCalculationError?
    decreases n
  {
    if n > 0 {
      OnlyCalculationErrors(w, es, n - 1);
    }
  }

  // ---------------------------------------------------------------------------
  // Wallet balances against ledgers

  /** The wallet appears on a deposit, a withdrawal, or either side of a transfer. */
  predicate HasDetailRecords(s: Store, w: WalletId) {
    || (exists i :: 0 <= i < |s.deposits| && s.deposits[i].walletId == w)
    || (exists i :: 0 <= i < |s.withdrawals| && s.withdrawals[i].walletId == w)
    || (exists i :: 0 <= i < |s.transfers| && s.transfers[i].senderWalletId == w)
    || (exists i :: 0 <= i < |s.transfers| && s.transfers[i].receiverWalletId == w)
  }

  /** `auditWalletBalances` for one wallet: without entries, an error when the wallet has
      records or a balance; with entries, an error when the balance is further than the
      tolerance from the last entry's balance after. */
  function WalletFindings(s: Store, w: WalletId): (r: seq<Finding>)
    requires w in s.wallets
  {
    var es := EntriesOf(s.ledgers, w);
    var balance := s.wallets[w].balance;
    if |es| == 0 then
      if HasDetailRecords(s, w) || balance != 0 then [MissingLedger(w)] else []
    else if Abs(balance - es[|es| - 1].balanceAfter) > AuditTolerance then
      [BalanceMismatch(w, balance, es[|es| - 1].balanceAfter)]
    else []
  }

  function AuditWalletBalances(s: Store): (r: set<Finding>)
    ensures forall f :: f in r ==> (f.MissingLedger? || f.BalanceMismatch?) && f.walletId in s.wallets
    ensures forall w :: w in s.wallets ==>
              (MissingLedger(w) in r <==> |EntriesOf(s.ledgers, w)| == 0 && (HasDetailRecords(s, w) || s.wallets[w].balance != 0))
    ensures forall w :: w in s.wallets && |EntriesOf(s.ledgers, w)| > 0 ==>
              (BalanceMismatch(w, s.wallets[w].balance, LastBalance(EntriesOf(s.ledgers, w))) in r <==>
                 Abs(s.wallets[w].balance - LastBalance(EntriesOf(s.ledgers, w))) > AuditTolerance)
  {
    WalletFindingKinds(s);
    WalletMissingLedgerIff(s);
    WalletMismatchIff(s);
    WalletFindingSet(s)
  }

  function WalletFindingSet(s: Store): set<Finding> {
    set w, f | w in s.wallets && f in WalletFindings(s, w) :: f
  }

  lemma WalletFindingKinds(s: Store)
    ensures forall f :: f in WalletFindingSet(s) ==> (f.MissingLedger? || f.BalanceMismatch?) && f.walletId in s.wallets
  {
    forall f | f in WalletFindingSet(s)
      ensures (f.MissingLedger? || f.BalanceMismatch?) && f.walletId in s.wallets
    {
      var w :| w in s.wallets && f in WalletFindings(s, w);
    }
  }

  lemma WalletMismatchIff(s: Store)
    ensures forall w :: w in s.wallets && |EntriesOf(s.ledgers, w)| > 0 ==>
              (BalanceMismatch(w, s.wallets[w].balance, LastBalance(EntriesOf(s.ledgers, w))) in WalletFindingSet(s) <==>
                 Abs(s.wallets[w].balance - LastBalance(EntriesOf(s.ledgers, w))) > AuditTolerance)
  {
    forall w | w in s.wallets && |EntriesOf(s.ledgers, w)| > 0
      ensures BalanceMismatch(w, s.wallets[w].balance, LastBalance(EntriesOf(s.ledgers, w))) in WalletFindingSet(s) <==>
                Abs(s.wallets[w].balance - LastBalance(EntriesOf(s.ledgers, w))) > AuditTolerance
    {
      var f := BalanceMismatch(w, s.wallets[w].balance, LastBalance(EntriesOf(s.ledgers, w)));
      if Abs(s.wallets[w].balance - LastBalance(EntriesOf(s.ledgers, w))) > AuditTolerance {
        assert f in WalletFindings(s, w);
      }
      if f in WalletFindingSet(s) {
        var v :| v in s.wallets && f in WalletFindings(s, v);
        assert v == w;
      }
    }
  }

  lemma WalletMissingLedgerIff(s: Store)
    ensures forall w :: w in s.wallets ==>
              (MissingLedger(w) in WalletFindingSet(s) <==> |EntriesOf(s.ledgers, w)| == 0 && (HasDetailRecords(s, w) || s.wallets[w].balance != 0))
  {
    forall w | w in s.wallets
      ensures MissingLedger(w) in WalletFindingSet(s) <==> |EntriesOf(s.ledgers, w)| == 0 && (HasDetailRecords(s, w) || s.wallets[w].balance != 0)
    {
      if |EntriesOf(s.ledgers, w)| == 0 && (HasDetailRecords(s, w) || s.wallets[w].balance != 0) {
        assert MissingLedger(w) in WalletFindings(s, w);
      }
      if MissingLedger(w) in WalletFindingSet(s) {
        var v :| v in s.wallets && MissingLedger(w) in WalletFindings(s, v);
        assert v == w;
      }
    }
  }

  /** Where wallets agree with their ledgers, the only finding of the balance audit is a
      wallet that has records but no entries. */
  lemma ConsistentWalletsPass(s: Store)
    requires Consistent(s)
    ensures AuditWalletBalances(s)
            == set w | w in s.wallets && |EntriesOf(s.ledgers, w)| == 0 && HasDetailRecords(s, w) :: MissingLedger(w)
  {
    var lhs := AuditWalletBalances(s);
    var rhs := set w | w in s.wallets && |EntriesOf(s.ledgers, w)| == 0 && HasDetailRecords(s, w) :: MissingLedger(w);
    forall w | w in s.wallets
      ensures WalletFindings(s, w) == (if |EntriesOf(s.ledgers, w)| == 0 && HasDetailRecords(s, w) then [MissingLedger(w)] else [])
    {
    }
    forall f | f in lhs
      ensures f in rhs
    {
      var w :| w in s.wallets && f in WalletFindings(s, w);
    }
    forall f | f in rhs
      ensures f in lhs
    {
      var w :| w in s.wallets && |EntriesOf(s.ledgers, w)| == 0 && HasDetailRecords(s, w) && f == MissingLedger(w);
      assert f in WalletFindings(s, w);
    }
  }

  /** A wallet seeded with a balance and no entries is reported as missing its ledger. */
  lemma SeededWalletIsFlagged(s: Store, w: WalletId)
    requires w in s.wallets && s.wallets[w].balance != 0 && |EntriesOf(s.ledgers, w)| == 0
    ensures MissingLedger(w) in AuditWalletBalances(s)
  {
    assert MissingLedger(w) in WalletFindings(s, w);
  }

  // ---------------------------------------------------------------------------
  // Transaction completeness

  predicate HasLedgerEntry(s: Store, transactionId: string, t: EntryType) {
    exists w, i :: w in s.ledgers && 0 <= i < |s.ledgers[w]|
                   && s.ledgers[w][i].transactionId == transactionId && s.ledgers[w][i].entryType == t
  }

  predicate HasRecord(s: Store, t: Transaction) {
    match t.transactionType
    case DepositTransaction => exists i :: 0 <= i < |s.deposits| && s.deposits[i].transactionId == t.transactionId
    case WithdrawalTransaction => exists i :: 0 <= i < |s.withdrawals| && s.withdrawals[i].transactionId == t.transactionId
    case TransferTransaction => exists i :: 0 <= i < |s.transfers| && s.transfers[i].transactionId == t.transactionId
  }

  /** The ledger entries a transaction needs: a credit for a deposit, a debit for a
      withdrawal, and for a transfer a debit, a credit, and a fee entry only when the
      fee is positive. */
  predicate HasLedger(s: Store, t: Transaction) {
    match t.transactionType
    case DepositTransaction => HasLedgerEntry(s, t.transactionId, Credit)
    case WithdrawalTransaction => HasLedgerEntry(s, t.transactionId, Debit)
    case TransferTransaction =>
      && HasLedgerEntry(s, t.transactionId, Debit)
      && HasLedgerEntry(s, t.transactionId, Credit)
      && (t.fee > 0 ==> HasLedgerEntry(s, t.transactionId, Fee))
  }

  /** A completed transaction that lacks its detail record or its ledger entries. */
  predicate Incomplete(s: Store, t: Transaction) {
    t.status == Completed && (!HasRecord(s, t) || !HasLedger(s, t))
  }

  /** `auditTransactionCompleteness` over every transaction row. */
  function AuditTransactionCompleteness(s: Store): (errors: set<Finding>)
    ensures forall id :: id in s.transactions && s.transactions[id].status != Completed ==>
              forall h, l :: IncompleteTransaction(id, h, l) !in errors
  {
    set id | id in s.transactions && Incomplete(s, s.transactions[id])
      :: IncompleteTransaction(id, HasRecord(s, s.transactions[id]), HasLedger(s, s.transactions[id]))
  }

  // ---------------------------------------------------------------------------
  // System balance and exit code

  /** The sum of the wallets' balances. */
  ghost function WalletTotal(wallets: map<WalletId, Wallet>): Cents
    decreases |wallets|
  {
    if exists w :: w in wallets then
      var w :| w in wallets;
      wallets[w].balance + WalletTotal(wallets - {w})
    else 0
  }

  /** The fee a row contributes to the expected total: its fee when it is a completed transfer. */
  function CompletedFee(t: Transaction): Cents {
    if t.status == Completed && t.transactionType == TransferTransaction then t.fee else 0
  }

  /** The sum of the fees of completed transfers. */
  ghost function FeeTotal(transactions: map<string, Transaction>): Cents
    decreases |transactions|
  {
    if exists id :: id in transactions then
      var id :| id in transactions;
      CompletedFee(transactions[id]) + FeeTotal(transactions - {id})
    else 0
  }

  predicate CompletedIn(transactions: map<string, Transaction>, id: string) {
    id in transactions && transactions[id].status == Completed
  }

  /** The amounts of deposits whose transaction is completed. */
  function DepositTotal(deposits: seq<DepositRecord>, transactions: map<string, Transaction>): Cents
    decreases |deposits|
  {
    if |deposits| == 0 then 0
    else
      var d := deposits[|deposits| - 1];
      DepositTotal(deposits[..|deposits| - 1], transactions) + (if CompletedIn(transactions, d.transactionId) then d.amount else 0)
  }

  /** The amounts of withdrawals whose transaction is completed. */
  function WithdrawalTotal(withdrawals: seq<WithdrawalRecord>, transactions: map<string, Transaction>): Cents
    decreases |withdrawals|
  {
    if |withdrawals| == 0 then 0
    else
      var d := withdrawals[|withdrawals| - 1];
      WithdrawalTotal(withdrawals[..|withdrawals| - 1], transactions) + (if CompletedIn(transactions, d.transactionId) then d.amount else 0)
  }

  /** Money in minus money out: completed deposits less completed withdrawals less the
      fees of completed transfers. */
  ghost function ExpectedTotal(s: Store): Cents {
    DepositTotal(s.deposits, s.transactions) - WithdrawalTotal(s.withdrawals, s.transactions) - FeeTotal(s.transactions)
  }

  /** `auditSystemBalance`: an error when the wallets hold more or less than the expected
      total, beyond the tolerance. */
  ghost function AuditSystemBalance(s: Store): (errors: set<Finding>)
    ensures errors == {} <==> Abs(WalletTotal(s.wallets) - ExpectedTotal(s)) <= AuditTolerance
  {
    var walletTotal := WalletTotal(s.wallets);
    var expectedTotal := ExpectedTotal(s);
    if Abs(walletTotal - expectedTotal) > AuditTolerance then {SystemBalanceMismatch(walletTotal, expectedTotal)} else {}
  }

  /** Every error the modelled checks record. */
  ghost function AuditErrors(s: Store): set<Finding> {
    AuditWalletBalances(s) + AuditLedgerConsistency(s) + AuditTransactionCompleteness(s) + AuditSystemBalance(s)
  }

  /** The command's exit code: 1 when any error was recorded, 0 otherwise. Warnings do
      not count. */
  function ExitCode(errors: set<Finding>): (code: int)
    ensures code == 0 || code == 1
    ensures code == 1 <==> exists f :: f in errors
  {
    if |errors| > 0 then 1 else 0
  }

  /** The audit fails exactly when one of its checks records an error. */
  lemma ExitCodeIffSomeCheckFails(s: Store)
    ensures ExitCode(AuditErrors(s)) == 0 <==>
              && AuditWalletBalances(s) == {}
              && AuditLedgerConsistency(s) == {}
              && AuditTransactionCompleteness(s) == {}
              && Abs(WalletTotal(s.wallets) - ExpectedTotal(s)) <= AuditTolerance
  {
    var errors := AuditErrors(s);
    if ExitCode(errors) == 0 {
      assert forall f :: f !in errors;
    }
  }
}

=== FILE: completeness.dfy ===
/** Completeness of the books the services write: every completed transaction has its
    detail record and the ledger entries its type needs, so the completeness audit
    finds nothing in a system that only the services have touched. */
module Completeness {
  import opened Outcomes
  import opened Money
  import opened Ledger
  import opened Locks
  import opened Store
  import opened FeeCalculator
  import opened TransactionService
  import opened TransferService
  import opened Consistency
  import opened Audit

  /** `b` keeps `a` as its prefix. */
  predicate Extends<T(==)>(a: seq<T>, b: seq<T>) {
    |a| <= |b| && b[..|a|] == a
  }

  /** `r` only adds detail records and ledger entries to those of `s`. */
  ghost predicate Grows(s: Store, r: Store) {
    && Extends(s.deposits, r.deposits)
    && Extends(s.withdrawals, r.withdrawals)
    && Extends(s.transfers, r.transfers)
    && forall w :: Extends(EntriesOf(s.ledgers, w), EntriesOf(r.ledgers, w))
  }

  /** No transaction row would be reported by the completeness audit. */
  ghost predicate AllComplete(s: Store) {
    forall id :: id in s.transactions ==> !Incomplete(s, s.transactions[id])
  }

  /** The completeness audit is silent exactly when every row is complete. */
  lemma CompletenessAuditPassesIff(s: Store)
    ensures AuditTransactionCompleteness(s) == {} <==> AllComplete(s)
  {
    if !AllComplete(s) {
      var id :| id in s.transactions && Incomplete(s, s.transactions[id]);
      var t := s.transactions[id];
      assert IncompleteTransaction(id, HasRecord(s, t), HasLedger(s, t)) in AuditTransactionCompleteness(s);
    }
  }

  // ---------------------------------------------------------------------------
  // Growth keeps what is already complete

  lemma GrowthKeepsEntry(s: Store, r: Store, id: string, t: EntryType)
    requires Grows(s, r)
    requires HasLedgerEntry(s, id, t)
    ensures HasLedgerEntry(r, id, t)
  {
    var w, i :| w in s.ledgers && 0 <= i < |s.ledgers[w]|
                && s.ledgers[w][i].transactionId == id && s.ledgers[w][i].entryType == t;
    assert EntriesOf(s.ledgers, w) == s.ledgers[w];
    assert Extends(EntriesOf(s.ledgers, w), EntriesOf(r.ledgers, w));
    assert w in r.ledgers;
    assert r.ledgers[w][i] == r.ledgers[w][..|s.ledgers[w]|][i];
  }

  lemma GrowthKeepsComplete(s: Store, r: Store, t: Transaction)
    requires Grows(s, r)
    requires !Incomplete(s, t)
    ensures !Incomplete(r, t)
  {
    if t.status == Completed {
      match t.transactionType {
        case DepositTransaction =>
          var i :| 0 <= i < |s.deposits| && s.deposits[i].transactionId == t.transactionId;
          assert r.deposits[i] == r.deposits[..|s.deposits|][i];
          GrowthKeepsEntry(s, r, t.transactionId, Credit);
        case WithdrawalTransaction =>
          var i :| 0 <= i < |s.withdrawals| && s.withdrawals[i].transactionId == t.transactionId;
          assert r.withdrawals[i] == r.withdrawals[..|s.withdrawals|][i];
          GrowthKeepsEntry(s, r, t.transactionId, Debit);
        case TransferTransaction =>
          var i :| 0 <= i < |s.transfers| && s.transfers[i].transactionId == t.transactionId;
          assert r.transfers[i] == r.transfers[..|s.transfers|][i];
          GrowthKeepsEntry(s, r, t.transactionId, Debit);
          GrowthKeepsEntry(s, r, t.transactionId, Credit);
          if t.fee > 0 {
            GrowthKeepsEntry(s, r, t.transactionId, Fee);
          }
      }
    }
  }

  /** A store change that adds one complete row and otherwise only grows keeps every row complete. */
  lemma StepKeepsComplete(s: Store, r: Store, row: Transaction)
    requires AllComplete(s) && Grows(s, r)
    requires row.transactionId !in s.transactions
    requires r.transactions == s.transactions[row.transactionId := row]
    requires !Incomplete(r, row)
    ensures AllComplete(r)
  {
    forall id | id in r.transactions
      ensures !Incomplete(r, r.transactions[id])
    {
      if id != row.transactionId {
        GrowthKeepsComplete(s, r, s.transactions[id]);
      }
    }
  }

  /** Adding a failed row keeps every row complete. */
  lemma FailedStepKeepsComplete(s: Store, row: Transaction)
    requires AllComplete(s)
    requires row.transactionId !in s.transactions && row.status == Failed
    ensures AllComplete(InsertTransaction(s, row))
  {
    var r := InsertTransaction(s, row);
    assert forall w :: EntriesOf(r.ledgers, w)[..|EntriesOf(s.ledgers, w)|] == EntriesOf(s.ledgers, w);
    StepKeepsComplete(s, r, row);
  }

  // ---------------------------------------------------------------------------
  // What each operation writes

  /** A completed single-wallet operation writes its entry and only grows the ledgers. */
  lemma AppliedWritesEntry(s: Store, r: Store, walletId: WalletId, delta: Cents, t: EntryType,
                           amount: Cents, transactionId: string, now: int)
    requires walletId in s.wallets
    requires Applied(s, r, walletId, delta, t, amount, transactionId, now)
    ensures HasLedgerEntry(r, transactionId, t)
    ensures forall w :: Extends(EntriesOf(s.ledgers, w), EntriesOf(r.ledgers, w))
  {
    var prior := EntriesOf(s.ledgers, walletId);
    var es := EntriesOf(r.ledgers, walletId);
    assert walletId in r.ledgers && es == r.ledgers[walletId];
    assert r.ledgers[walletId][|prior|].transactionId == transactionId;
  }

  /** A completed transfer writes its record and its three entries and only grows the books. */
  lemma TransferredWritesAll(s: Store, r: Store, call: TransferCall)
    requires call.senderWalletId in s.wallets && call.receiverWalletId in s.wallets
    requires call.senderWalletId != call.receiverWalletId
    requires Transferred(s.wallets, s.ledgers, s.transfers, r, call)
    ensures HasLedgerEntry(r, call.transactionId, Debit)
    ensures HasLedgerEntry(r, call.transactionId, Credit)
    ensures HasLedgerEntry(r, call.transactionId, Fee)
    ensures exists i :: 0 <= i < |r.transfers| && r.transfers[i].transactionId == call.transactionId
    ensures Extends(s.transfers, r.transfers)
    ensures forall w :: Extends(EntriesOf(s.ledgers, w), EntriesOf(r.ledgers, w))
  {
    var sid := call.senderWalletId;
    var rid := call.receiverWalletId;
    var ps := EntriesOf(s.ledgers, sid);
    var pr := EntriesOf(s.ledgers, rid);
    assert sid in r.ledgers && rid in r.ledgers;
    assert r.ledgers[sid][|ps|].entryType == Debit && r.ledgers[sid][|ps|].transactionId == call.transactionId;
    assert r.ledgers[sid][|ps| + 1].entryType == Fee;
    assert r.ledgers[rid][|pr|].entryType == Credit;
    assert r.transfers[|s.transfers|].transactionId == call.transactionId;
  }

  lemma DepositSucceededComplete(s: Store, p: Provider, req: DepositRequest, transactionId: string, now: int)
    requires Valid(p) && transactionId !in s.transactions
    requires AllComplete(s)
    requires Deposit(s, p, req, transactionId, now).result.Success?
    ensures AllComplete(Deposit(s, p, req, transactionId, now).store)
  {
    var o := Deposit(s, p, req, transactionId, now);
    DepositEffects(s, p, req, transactionId, now);
    DepositRowStored(s, p, req, transactionId, now);
    DepositStepComplete(s, o.store, req.walletId, req.amount, transactionId, now, o.result.value);
  }

  /** A completed deposit row, its record and its credit entry, as the deposit leaves them. */
  lemma DepositStepComplete(s: Store, r: Store, walletId: WalletId, amount: Cents, transactionId: string, now: int,
                            row: Transaction)
    requires AllComplete(s) && walletId in s.wallets
    requires Applied(s, r, walletId, amount, Credit, amount, transactionId, now)
    requires |r.deposits| == |s.deposits| + 1 && r.deposits[..|s.deposits|] == s.deposits
    requires r.deposits[|s.deposits|].transactionId == transactionId
    requires r.withdrawals == s.withdrawals && r.transfers == s.transfers
    requires row.transactionId == transactionId && transactionId !in s.transactions
    requires row.transactionType == DepositTransaction
    requires r.transactions == s.transactions[transactionId := row]
    ensures AllComplete(r)
  {
    AppliedWritesEntry(s, r, walletId, amount, Credit, amount, transactionId, now);
    StepKeepsComplete(s, r, row);
  }

  /** A deposit never leaves a completed row without its deposit record and credit entry. */
  lemma DepositKeepsComplete(s: Store, p: Provider, req: DepositRequest, transactionId: string, now: int)
    requires Valid(p) && transactionId !in s.transactions
    requires AllComplete(s)
    ensures AllComplete(Deposit(s, p, req, transactionId, now).store)
  {
    var o := Deposit(s, p, req, transactionId, now);
    if o.result.Success? {
      DepositSucceededComplete(s, p, req, transactionId, now);
    } else if Admitted(s, p, req.idempotencyKey) {
      FailedStepKeepsComplete(s, PendingRow(transactionId, DepositTransaction, req.idempotencyKey, req.amount).(status := Failed));
    }
  }

  lemma WithdrawSucceededComplete(s: Store, p: Provider, req: WithdrawalRequest, transactionId: string, now: int)
    requires Valid(p) && transactionId !in s.transactions
    requires AllComplete(s)
    requires Withdraw(s, p, req, transactionId, now).result.Success?
    ensures AllComplete(Withdraw(s, p, req, transactionId, now).store)
  {
    WithdrawSucceeded(s, p, req, transactionId, now);
    WithdrawnComplete(s, Withdraw(s, p, req, transactionId, now), req, transactionId, now);
  }

  lemma WithdrawnComplete(s: Store, o: Outcome, req: WithdrawalRequest, transactionId: string, now: int)
    requires AllComplete(s) && transactionId !in s.transactions
    requires Withdrawn(s, o, req, transactionId, now)
    ensures AllComplete(o.store)
  {
    assert o.store.withdrawals[..|s.withdrawals|] == s.withdrawals;
    WithdrawStepComplete(s, o.store, req.walletId, req.amount, transactionId, now, o.result.value);
  }

  /** A completed withdrawal row, its record and its debit entry, as the withdrawal leaves them. */
  lemma WithdrawStepComplete(s: Store, r: Store, walletId: WalletId, amount: Cents, transactionId: string, now: int,
                             row: Transaction)
    requires AllComplete(s) && walletId in s.wallets
    requires Applied(s, r, walletId, -amount, Debit, amount, transactionId, now)
    requires |r.withdrawals| == |s.withdrawals| + 1 && r.withdrawals[..|s.withdrawals|] == s.withdrawals
    requires r.withdrawals[|s.withdrawals|].transactionId == transactionId
    requires r.deposits == s.deposits && r.transfers == s.transfers
    requires row.transactionId == transactionId && transactionId !in s.transactions
    requires row.transactionType == WithdrawalTransaction
    requires r.transactions == s.transactions[transactionId := row]
    ensures AllComplete(r)
  {
    AppliedWritesEntry(s, r, walletId, -amount, Debit, amount, transactionId, now);
    StepKeepsComplete(s, r, row);
  }

  /** A withdrawal never leaves a completed row without its withdrawal record and debit entry. */
  lemma WithdrawKeepsComplete(s: Store, p: Provider, req: WithdrawalRequest, transactionId: string, now: int)
    requires Valid(p) && transactionId !in s.transactions
    requires AllComplete(s)
    ensures AllComplete(Withdraw(s, p, req, transactionId, now).store)
  {
    var o := Withdraw(s, p, req, transactionId, now);
    if o.result.Success? {
      WithdrawSucceededComplete(s, p, req, transactionId, now);
    } else if Admitted(s, p, req.idempotencyKey) {
      FailedStepKeepsComplete(s, PendingRow(transactionId, WithdrawalTransaction, req.idempotencyKey, req.amount).(status := Failed));
    }
  }

  /** The completed transfer row, its record and its entries, as the transfer service leaves them. */
  lemma TransferStepComplete(s: Store, r: Store, call: TransferCall, row: Transaction)
    requires AllComplete(s)
    requires call.senderWalletId in s.wallets && call.receiverWalletId in s.wallets
    requires call.senderWalletId != call.receiverWalletId
    requires Transferred(s.wallets, s.ledgers, s.transfers, r, call)
    requires row.transactionId == call.transactionId && row.transactionId !in s.transactions
    requires row.transactionType == TransferTransaction
    requires r.deposits == s.deposits && r.withdrawals == s.withdrawals
    requires r.transactions == s.transactions[row.transactionId := row]
    ensures AllComplete(r)
  {
    TransferredWritesAll(s, r, call);
    StepKeepsComplete(s, r, row);
  }

  lemma TransferSucceededComplete(s: Store, p: Provider, senderWalletId: WalletId, receiverWalletNumber: string,
                                  amount: Cents, key: string, transactionId: string, now: int)
    requires Valid(p) && UniqueNumbers(s.wallets) && transactionId !in s.transactions
    requires AllComplete(s)
    requires ExecuteTransfer(s, p, senderWalletId, receiverWalletNumber, amount, key, transactionId, now).result.Success?
    ensures AllComplete(ExecuteTransfer(s, p, senderWalletId, receiverWalletNumber, amount, key, transactionId, now).store)
  {
    var o := ExecuteTransfer(s, p, senderWalletId, receiverWalletNumber, amount, key, transactionId, now);
    TransferEffects(s, p, senderWalletId, receiverWalletNumber, amount, key, transactionId, now);
    TransferRowStored(s, p, senderWalletId, receiverWalletNumber, amount, key, transactionId, now);
    var rid := ActiveReceiver(s.wallets, receiverWalletNumber).value;
    TransferStepComplete(s, o.store, TransferCall(senderWalletId, rid, amount, transactionId, now), o.result.value);
  }

  /** A transfer never leaves a completed row without its transfer record, debit, credit
      and fee entries. */
  lemma TransferKeepsComplete(s: Store, p: Provider, senderWalletId: WalletId, receiverWalletNumber: string,
                              amount: Cents, key: string, transactionId: string, now: int)
    requires Valid(p) && UniqueNumbers(s.wallets) && transactionId !in s.transactions
    requires AllComplete(s)
    ensures AllComplete(ExecuteTransfer(s, p, senderWalletId, receiverWalletNumber, amount, key, transactionId, now).store)
  {
    var o := ExecuteTransfer(s, p, senderWalletId, receiverWalletNumber, amount, key, transactionId, now);
    if o.result.Success? {
      TransferSucceededComplete(s, p, senderWalletId, receiverWalletNumber, amount, key, transactionId, now);
    } else if Admitted(s, p, key) {
      FailedStepKeepsComplete(s, TransferRow(transactionId, amount).(status := Failed));
    }
  }

  lemma ServeKeepsComplete(s: Store, p: Provider, q: Request)
    requires Valid(p) && UniqueNumbers(s.wallets) && TransactionIdOf(q) !in s.transactions
    requires AllComplete(s)
    ensures AllComplete(Serve(s, p, q).store)
  {
    match q
    case DepositOf(req, id, now) => DepositKeepsComplete(s, p, req, id, now);
    case WithdrawalOf(req, id, now) => WithdrawKeepsComplete(s, p, req, id, now);
    case TransferOf(sender, number, amount, key, id, now) =>
      TransferKeepsComplete(s, p, sender, number, amount, key, id, now);
  }

  /** Whatever requests are served, every completed transaction keeps its record and
      entries, so the completeness audit stays silent. */
  lemma {:induction false} RunKeepsComplete(s: Store, p: Provider, qs: seq<Request>)
    requires Valid(p) && UniqueNumbers(s.wallets)
    requires AllComplete(s)
    ensures AllComplete(Run(s, p, qs).store)
    ensures AuditTransactionCompleteness(Run(s, p, qs).store) == {}
    decreases |qs|
  {
    if |qs| > 0 {
      if TransactionIdOf(qs[0]) in s.transactions {
        RunKeepsComplete(s, p, qs[1..]);
      } else {
        OperationsKeepAccounts(s, p, qs[0]);
        SameAccountsKeepUnique(s.wallets, Serve(s, p, qs[0]).store.wallets);
        ServeKeepsComplete(s, p, qs[0]);
        var o := Serve(s, p, qs[0]);
        RunKeepsComplete(o.store, o.provider, qs[1..]);
      }
    }
    CompletenessAuditPassesIff(Run(s, p, qs).store);
  }
}

=== FILE: conservation.dfy ===
/** Conservation of money across the whole system: the wallets together hold what came
    in through completed deposits, less what left through completed withdrawals and the
    fees of completed transfers. This is the equation the system-balance audit checks;
    every deposit, withdrawal and transfer keeps it, whether it succeeds or fails. */
module Conservation {
  import opened Outcomes
  import opened Money
  import opened Ledger
  import opened Store
  import opened Locks
  import opened FeeCalculator
  import opened TransactionService
  import opened TransferService
  import opened Consistency
  import opened Audit

  /** Every deposit and withdrawal record points at an existing transaction row, as the
      services write them. */
  predicate RecordsLinked(s: Store) {
    && (forall i :: 0 <= i < |s.deposits| ==> s.deposits[i].transactionId in s.transactions)
    && (forall i :: 0 <= i < |s.withdrawals| ==> s.withdrawals[i].transactionId in s.transactions)
  }

  /** The equation of the system-balance audit holds exactly. */
  ghost predicate SystemBalanced(s: Store) {
    WalletTotal(s.wallets) == ExpectedTotal(s)
  }

  // ---------------------------------------------------------------------------
  // Sums over maps and record lists

  lemma {:induction false} WalletTotalRemove(m: map<WalletId, Wallet>, k: WalletId)
    requires k in m
    ensures WalletTotal(m) == m[k].balance + WalletTotal(m - {k})
    decreases |m|
  {
    assert exists w :: w in m;
    var j :| j in m && WalletTotal(m) == m[j].balance + WalletTotal(m - {j});
    if j != k {
      WalletTotalRemove(m - {j}, k);
      WalletTotalRemove(m - {k}, j);
      assert m - {j} - {k} == m - {k} - {j};
    }
  }

  /** Changing one wallet changes the total by the change in its balance. */
  lemma WalletTotalUpdate(m: map<WalletId, Wallet>, k: WalletId, v: Wallet)
    requires k in m
    ensures WalletTotal(m[k := v]) == WalletTotal(m) - m[k].balance + v.balance
  {
    WalletTotalRemove(m[k := v], k);
    WalletTotalRemove(m, k);
    assert m[k := v] - {k} == m - {k};
  }

  lemma {:induction false} FeeTotalRemove(m: map<string, Transaction>, k: string)
    requires k in m
    ensures FeeTotal(m) == CompletedFee(m[k]) + FeeTotal(m - {k})
    decreases |m|
  {
    assert exists id :: id in m;
    var j :| j in m && FeeTotal(m) == CompletedFee(m[j]) + FeeTotal(m - {j});
    if j != k {
      FeeTotalRemove(m - {j}, k);
      FeeTotalRemove(m - {k}, j);
      assert m - {j} - {k} == m - {k} - {j};
    }
  }

  /** A new row adds its own completed-transfer fee and nothing else. */
  lemma FeeTotalInsert(m: map<string, Transaction>, k: string, v: Transaction)
    requires k !in m
    ensures FeeTotal(m[k := v]) == FeeTotal(m) + CompletedFee(v)
  {
    FeeTotalRemove(m[k := v], k);
    assert m[k := v] - {k} == m;
  }

  lemma {:induction false} DepositTotalFresh(ds: seq<DepositRecord>, txs: map<string, Transaction>, k: string, v: Transaction)
    requires forall i :: 0 <= i < |ds| ==> ds[i].transactionId in txs
    requires k !in txs
    ensures DepositTotal(ds, txs[k := v]) == DepositTotal(ds, txs)
    decreases |ds|
  {
    if |ds| > 0 {
      DepositTotalFresh(ds[..|ds| - 1], txs, k, v);
    }
  }

  lemma DepositTotalAppend(ds: seq<DepositRecord>, d: DepositRecord, txs: map<string, Transaction>)
    ensures DepositTotal(ds + [d], txs)
            == DepositTotal(ds, txs) + (if CompletedIn(txs, d.transactionId) then d.amount else 0)
  {
    assert (ds + [d])[..|ds|] == ds;
  }

  lemma {:induction false} WithdrawalTotalFresh(ws: seq<WithdrawalRecord>, txs: map<string, Transaction>, k: string, v: Transaction)
    requires forall i :: 0 <= i < |ws| ==> ws[i].transactionId in txs
    requires k !in txs
    ensures WithdrawalTotal(ws, txs[k := v]) == WithdrawalTotal(ws, txs)
    decreases |ws|
  {
    if |ws| > 0 {
      WithdrawalTotalFresh(ws[..|ws| - 1], txs, k, v);
    }
  }

  lemma WithdrawalTotalAppend(ws: seq<WithdrawalRecord>, d: WithdrawalRecord, txs: map<string, Transaction>)
    ensures WithdrawalTotal(ws + [d], txs)
            == WithdrawalTotal(ws, txs) + (if CompletedIn(txs, d.transactionId) then d.amount else 0)
  {
    assert (ws + [d])[..|ws|] == ws;
  }

  /** Inserting a row that is not a completed transfer, without touching wallets or
      records, keeps the expected total and the links. */
  lemma InsertRowKeepsTotals(s: Store, r: Store, t: Transaction)
    requires RecordsLinked(s)
    requires t.transactionId !in s.transactions && CompletedFee(t) == 0
    requires r.transactions == s.transactions[t.transactionId := t]
    requires r.deposits == s.deposits && r.withdrawals == s.withdrawals
    ensures ExpectedTotal(r) == ExpectedTotal(s)
    ensures RecordsLinked(r)
  {
    DepositTotalFresh(s.deposits, s.transactions, t.transactionId, t);
    WithdrawalTotalFresh(s.withdrawals, s.transactions, t.transactionId, t);
    FeeTotalInsert(s.transactions, t.transactionId, t);
  }

  // ---------------------------------------------------------------------------
  // The operations

  /** A store change that credits a deposit: the wallet and the completed deposits both
      grow by the amount. */
  lemma DepositStepBalanced(s: Store, r: Store, d: DepositRecord, row: Transaction, now: int)
    requires RecordsLinked(s) && SystemBalanced(s)
    requires d.walletId in s.wallets && row.transactionId == d.transactionId && d.transactionId !in s.transactions
    requires row.status == Completed && row.transactionType == DepositTransaction
    requires Applied(s, r, d.walletId, d.amount, Credit, d.amount, d.transactionId, now)
    requires r.deposits == s.deposits + [d] && r.withdrawals == s.withdrawals
    requires r.transactions == s.transactions[d.transactionId := row]
    ensures RecordsLinked(r) && SystemBalanced(r)
  {
    WalletTotalUpdate(s.wallets, d.walletId, s.wallets[d.walletId].(balance := s.wallets[d.walletId].balance + d.amount));
    InsertRowKeepsTotals(s, s.(transactions := r.transactions), row);
    DepositTotalAppend(s.deposits, d, r.transactions);
  }

  /** A store change that pays out a withdrawal: the wallet shrinks and the completed
      withdrawals grow by the amount. */
  lemma WithdrawalStepBalanced(s: Store, r: Store, d: WithdrawalRecord, row: Transaction, now: int)
    requires RecordsLinked(s) && SystemBalanced(s)
    requires d.walletId in s.wallets && row.transactionId == d.transactionId && d.transactionId !in s.transactions
    requires row.status == Completed && row.transactionType == WithdrawalTransaction
    requires Applied(s, r, d.walletId, -d.amount, Debit, d.amount, d.transactionId, now)
    requires r.deposits == s.deposits && r.withdrawals == s.withdrawals + [d]
    requires r.transactions == s.transactions[d.transactionId := row]
    ensures RecordsLinked(r) && SystemBalanced(r)
  {
    WalletTotalUpdate(s.wallets, d.walletId, s.wallets[d.walletId].(balance := s.wallets[d.walletId].balance + -d.amount));
    InsertRowKeepsTotals(s, s.(transactions := r.transactions), row);
    WithdrawalTotalAppend(s.withdrawals, d, r.transactions);
  }

  /** A completed transfer, as the transfer service leaves the store: the two wallets
      together lose the fee, which the new completed row carries. */
  lemma TransferStepBalanced(s: Store, r: Store, call: TransferCall, row: Transaction)
    requires RecordsLinked(s) && SystemBalanced(s)
    requires call.senderWalletId in s.wallets && call.receiverWalletId in s.wallets
    requires call.senderWalletId != call.receiverWalletId
    requires Transferred(s.wallets, s.ledgers, s.transfers, r, call)
    requires row.transactionId !in s.transactions
    requires row.status == Completed && row.transactionType == TransferTransaction
    requires row.fee == CalculateTransferFee(call.amount)
    requires r.deposits == s.deposits && r.withdrawals == s.withdrawals
    requires r.transactions == s.transactions[row.transactionId := row]
    ensures RecordsLinked(r) && SystemBalanced(r)
  {
    var sid := call.senderWalletId;
    var rid := call.receiverWalletId;
    var m1 := s.wallets[sid := s.wallets[sid].(balance := s.wallets[sid].balance - (call.amount + row.fee))];
    WalletTotalUpdate(s.wallets, sid, m1[sid]);
    WalletTotalUpdate(m1, rid, s.wallets[rid].(balance := s.wallets[rid].balance + call.amount));
    DepositTotalFresh(s.deposits, s.transactions, row.transactionId, row);
    WithdrawalTotalFresh(s.withdrawals, s.transactions, row.transactionId, row);
    FeeTotalInsert(s.transactions, row.transactionId, row);
  }

  /** A store change that only adds a failed row. */
  lemma FailedStepBalanced(s: Store, r: Store, row: Transaction)
    requires RecordsLinked(s) && SystemBalanced(s)
    requires row.transactionId !in s.transactions && row.status == Failed
    requires r == InsertTransaction(s, row)
    ensures RecordsLinked(r) && SystemBalanced(r)
  {
    InsertRowKeepsTotals(s, r, row);
  }

  lemma DepositSucceededBalanced(s: Store, p: Provider, req: DepositRequest, transactionId: string, now: int)
    requires Valid(p) && transactionId !in s.transactions
    requires RecordsLinked(s) && SystemBalanced(s)
    requires Deposit(s, p, req, transactionId, now).result.Success?
    ensures var r := Deposit(s, p, req, transactionId, now).store;
            RecordsLinked(r) && SystemBalanced(r)
  {
    var o := Deposit(s, p, req, transactionId, now);
    DepositEffects(s, p, req, transactionId, now);
    DepositRowStored(s, p, req, transactionId, now);
    var d := DepositRecord(|s.deposits| + 1, transactionId, req.walletId, req.amount,
                           req.paymentMethod.GetOr(DefaultMethod), req.paymentReference);
    DepositStepBalanced(s, o.store, d, o.result.value, now);
  }

  /** A deposit keeps the system balanced: on success the wallets and the completed
      deposits both grow by the amount; on failure only a failed row is added. */
  lemma DepositKeepsBalanced(s: Store, p: Provider, req: DepositRequest, transactionId: string, now: int)
    requires Valid(p) && transactionId !in s.transactions
    requires RecordsLinked(s) && SystemBalanced(s)
    ensures var r := Deposit(s, p, req, transactionId, now).store;
            RecordsLinked(r) && SystemBalanced(r)
  {
    var o := Deposit(s, p, req, transactionId, now);
    if o.result.Success? {
      DepositSucceededBalanced(s, p, req, transactionId, now);
    } else if Admitted(s, p, req.idempotencyKey) {
      FailedStepBalanced(s, o.store, PendingRow(transactionId, DepositTransaction, req.idempotencyKey, req.amount).(status := Failed));
    }
  }

  lemma WithdrawSucceededBalanced(s: Store, p: Provider, req: WithdrawalRequest, transactionId: string, now: int)
    requires Valid(p) && transactionId !in s.transactions
    requires RecordsLinked(s) && SystemBalanced(s)
    requires Withdraw(s, p, req, transactionId, now).result.Success?
    ensures var r := Withdraw(s, p, req, transactionId, now).store;
            RecordsLinked(r) && SystemBalanced(r)
  {
    WithdrawSucceeded(s, p, req, transactionId, now);
    WithdrawnBalanced(s, Withdraw(s, p, req, transactionId, now), req, transactionId, now);
  }

  lemma WithdrawnBalanced(s: Store, o: Outcome, req: WithdrawalRequest, transactionId: string, now: int)
    requires RecordsLinked(s) && SystemBalanced(s) && transactionId !in s.transactions
    requires Withdrawn(s, o, req, transactionId, now)
    ensures RecordsLinked(o.store) && SystemBalanced(o.store)
  {
    var d := WithdrawalRecord(|s.withdrawals| + 1, transactionId, req.walletId, req.amount,
                              req.withdrawalMethod.GetOr(DefaultMethod), req.withdrawalReference);
    WithdrawalStepBalanced(s, o.store, d, o.result.value, now);
  }

  /** A withdrawal keeps the system balanced: on success the wallets shrink and the
      completed withdrawals grow by the amount. */
  lemma WithdrawKeepsBalanced(s: Store, p: Provider, req: WithdrawalRequest, transactionId: string, now: int)
    requires Valid(p) && transactionId !in s.transactions
    requires RecordsLinked(s) && SystemBalanced(s)
    ensures var r := Withdraw(s, p, req, transactionId, now).store;
            RecordsLinked(r) && SystemBalanced(r)
  {
    var o := Withdraw(s, p, req, transactionId, now);
    if o.result.Success? {
      WithdrawSucceededBalanced(s, p, req, transactionId, now);
    } else if Admitted(s, p, req.idempotencyKey) {
      FailedStepBalanced(s, o.store, PendingRow(transactionId, WithdrawalTransaction, req.idempotencyKey, req.amount).(status := Failed));
    }
  }

  lemma TransferSucceededBalanced(s: Store, p: Provider, senderWalletId: WalletId, receiverWalletNumber: string,
                                  amount: Cents, key: string, transactionId: string, now: int)
    requires Valid(p) && UniqueNumbers(s.wallets) && transactionId !in s.transactions
    requires RecordsLinked(s) && SystemBalanced(s)
    requires ExecuteTransfer(s, p, senderWalletId, receiverWalletNumber, amount, key, transactionId, now).result.Success?
    ensures var r := ExecuteTransfer(s, p, senderWalletId, receiverWalletNumber, amount, key, transactionId, now).store;
            RecordsLinked(r) && SystemBalanced(r)
  {
    var o := ExecuteTransfer(s, p, senderWalletId, receiverWalletNumber, amount, key, transactionId, now);
    TransferEffects(s, p, senderWalletId, receiverWalletNumber, amount, key, transactionId, now);
    TransferRowStored(s, p, senderWalletId, receiverWalletNumber, amount, key, transactionId, now);
    var rid := ActiveReceiver(s.wallets, receiverWalletNumber).value;
    TransferStepBalanced(s, o.store, TransferCall(senderWalletId, rid, amount, transactionId, now), o.result.value);
  }

  /** A transfer keeps the system balanced: on success the wallets together lose exactly
      the fee, which the completed row now carries. */
  lemma TransferKeepsBalanced(s: Store, p: Provider, senderWalletId: WalletId, receiverWalletNumber: string,
                              amount: Cents, key: string, transactionId: string, now: int)
    requires Valid(p) && UniqueNumbers(s.wallets) && transactionId !in s.transactions
    requires RecordsLinked(s) && SystemBalanced(s)
    ensures var r := ExecuteTransfer(s, p, senderWalletId, receiverWalletNumber, amount, key, transactionId, now).store;
            RecordsLinked(r) && SystemBalanced(r)
  {
    var o := ExecuteTransfer(s, p, senderWalletId, receiverWalletNumber, amount, key, transactionId, now);
    if o.result.Success? {
      TransferSucceededBalanced(s, p, senderWalletId, receiverWalletNumber, amount, key, transactionId, now);
    } else if Admitted(s, p, key) {
      FailedStepBalanced(s, o.store, TransferRow(transactionId, amount).(status := Failed));
    }
  }

  lemma ServeKeepsBalanced(s: Store, p: Provider, q: Request)
    requires Valid(p) && UniqueNumbers(s.wallets) && TransactionIdOf(q) !in s.transactions
    requires RecordsLinked(s) && SystemBalanced(s)
    ensures RecordsLinked(Serve(s, p, q).store) && SystemBalanced(Serve(s, p, q).store)
  {
    match q
    case DepositOf(req, id, now) => DepositKeepsBalanced(s, p, req, id, now);
    case WithdrawalOf(req, id, now) => WithdrawKeepsBalanced(s, p, req, id, now);
    case TransferOf(sender, number, amount, key, id, now) =>
      TransferKeepsBalanced(s, p, sender, number, amount, key, id, now);
  }

  /** Whatever requests are served, in whatever order and under whatever lock contention,
      a balanced system stays balanced, so the system-balance audit never fires. */
  lemma {:induction false} RunKeepsBalanced(s: Store, p: Provider, qs: seq<Request>)
    requires Valid(p) && UniqueNumbers(s.wallets)
    requires RecordsLinked(s) && SystemBalanced(s)
    ensures RecordsLinked(Run(s, p, qs).store) && SystemBalanced(Run(s, p, qs).store)
    ensures AuditSystemBalance(Run(s, p, qs).store) == {}
    decreases |qs|
  {
    if |qs| > 0 {
      if TransactionIdOf(qs[0]) in s.transactions {
        RunKeepsBalanced(s, p, qs[1..]);
      } else {
        OperationsKeepAccounts(s, p, qs[0]);
        SameAccountsKeepUnique(s.wallets, Serve(s, p, qs[0]).store.wallets);
        ServeKeepsBalanced(s, p, qs[0]);
        var o := Serve(s, p, qs[0]);
        RunKeepsBalanced(o.store, o.provider, qs[1..]);
      }
    }
  }

  lemma {:induction false} EmptyWalletsTotalZero(m: map<WalletId, Wallet>)
    requires forall w :: w in m ==> m[w].balance == 0
    ensures WalletTotal(m) == 0
    decreases |m|
  {
    if exists w :: w in m {
      var w :| w in m;
      WalletTotalRemove(m, w);
      EmptyWalletsTotalZero(m - {w});
    }
  }

  /** A system that starts with empty wallets and no history is balanced, and so stays
      balanced whatever is served. A wallet seeded with money and no deposit is not. */
  lemma FreshSystemIsBalanced(s: Store)
    requires forall w :: w in s.wallets ==> s.wallets[w].balance == 0
    requires s.transactions == map[] && s.deposits == [] && s.withdrawals == []
    ensures RecordsLinked(s) && SystemBalanced(s)
  {
    EmptyWalletsTotalZero(s.wallets);
    assert !exists id :: id in s.transactions;
  }
}

=== FILE: consistency.dfy ===
/** The agreement between wallets and ledgers that the services keep: every ledger is as
    the writer leaves it, and every wallet's balance is its ledger's last balance after
    (zero while the ledger is empty). A wallet seeded with a balance but no entries does
    not satisfy it, and nothing here restores it. */
module Consistency {
  import opened Outcomes
  import opened Money
  import opened Ledger
  import opened Store
  import opened Locks
  import opened FeeCalculator
  import opened TransactionService
  import opened TransferService

  ghost predicate Consistent(s: Store) {
    && (forall w :: WrittenLedger(w, EntriesOf(s.ledgers, w)))
    && (forall w :: w in s.wallets ==> s.wallets[w].balance == LastBalance(EntriesOf(s.ledgers, w)))
  }

  /** A store whose ledgers and wallets are those of a consistent one is consistent. */
  lemma SameBooksConsistent(s: Store, r: Store)
    requires Consistent(s)
    requires r.wallets == s.wallets && r.ledgers == s.ledgers
    ensures Consistent(r)
  {
  }

  /** A deposit of a non-negative amount keeps the agreement: the credit entry starts
      from the wallet's balance, which is never negative, so it is not clamped. */
  lemma DepositKeepsConsistent(s: Store, p: Provider, req: DepositRequest, transactionId: string, now: int)
    requires Valid(p) && transactionId !in s.transactions
    requires Consistent(s)
    requires req.amount >= 0
    ensures Consistent(Deposit(s, p, req, transactionId, now).store)
  {
    var r := Deposit(s, p, req, transactionId, now);
    if r.result.Success? {
      DepositEffects(s, p, req, transactionId, now);
      AppliedConsistent(s, r.store, req.walletId, req.amount, Credit, req.amount, transactionId, now);
    } else if Admitted(s, p, req.idempotencyKey) {
      SameBooksConsistent(s, r.store);
    }
  }

  /** A withdrawal keeps the agreement: it only happens when the balance covers the
      amount, so the debit entry is not clamped either. */
  lemma WithdrawKeepsConsistent(s: Store, p: Provider, req: WithdrawalRequest, transactionId: string, now: int)
    requires Valid(p) && transactionId !in s.transactions
    requires Consistent(s)
    ensures Consistent(Withdraw(s, p, req, transactionId, now).store)
  {
    var r := Withdraw(s, p, req, transactionId, now);
    if r.result.Success? {
      WithdrawSucceededConsistent(s, p, req, transactionId, now);
    } else if Admitted(s, p, req.idempotencyKey) {
      SameBooksConsistent(s, r.store);
    }
  }

  lemma WithdrawSucceededConsistent(s: Store, p: Provider, req: WithdrawalRequest, transactionId: string, now: int)
    requires Valid(p) && transactionId !in s.transactions
    requires Consistent(s)
    requires Withdraw(s, p, req, transactionId, now).result.Success?
    ensures Consistent(Withdraw(s, p, req, transactionId, now).store)
  {
    WithdrawSucceeded(s, p, req, transactionId, now);
    WithdrawnConsistent(s, Withdraw(s, p, req, transactionId, now), req, transactionId, now);
  }

  lemma WithdrawnConsistent(s: Store, o: Outcome, req: WithdrawalRequest, transactionId: string, now: int)
    requires Consistent(s)
    requires Withdrawn(s, o, req, transactionId, now)
    ensures Consistent(o.store)
  {
    AppliedConsistent(s, o.store, req.walletId, -req.amount, Debit, req.amount, transactionId, now);
  }

  /** The books a completed deposit or withdrawal leaves are consistent when the books
      before were and its entry is not clamped: a credit of a non-negative amount, or a
      debit the balance covers. */
  lemma AppliedConsistent(s: Store, r: Store, w: WalletId, delta: Cents, t: EntryType, amount: Cents,
                          transactionId: string, now: int)
    requires Consistent(s) && w in s.wallets
    requires Applied(s, r, w, delta, t, amount, transactionId, now)
    requires delta == if t == Credit then amount else -amount
    requires t == Credit ==> amount >= 0
    requires t != Credit ==> s.wallets[w].balance >= amount
    ensures Consistent(r)
  {
    var prior := EntriesOf(s.ledgers, w);
    var es := EntriesOf(r.ledgers, w);
    assert es == prior + [es[|prior|]];
    WrittenLedgerNonNegative(w, prior);
    ExtendWritten(w, prior, es[|prior|]);
    forall v ensures WrittenLedger(v, EntriesOf(r.ledgers, v)) {
      if v != w {
        assert EntriesOf(r.ledgers, v) == EntriesOf(s.ledgers, v);
      }
    }
  }

  /** The books a completed transfer leaves are consistent when the books before were
      and the amount is not negative. */
  lemma TransferredConsistent(s: Store, r: Store, call: TransferCall)
    requires Consistent(s)
    requires call.senderWalletId in s.wallets && call.receiverWalletId in s.wallets
    requires call.senderWalletId != call.receiverWalletId
    requires call.amount >= 0
    requires s.wallets[call.senderWalletId].balance >= call.amount + CalculateTransferFee(call.amount)
    requires Transferred(s.wallets, s.ledgers, s.transfers, r, call)
    ensures Consistent(r)
  {
    var sid := call.senderWalletId;
    var rid := call.receiverWalletId;
    SenderConsistent(s, r, call);
    ReceiverConsistent(s, r, call);
    forall v ensures WrittenLedger(v, EntriesOf(r.ledgers, v)) {
      if v != sid && v != rid {
        assert EntriesOf(r.ledgers, v) == EntriesOf(s.ledgers, v);
      }
    }
  }

  /** The sender's side of a completed transfer: its debit and fee entries extend its
      written ledger and end at its new balance. */
  lemma SenderConsistent(s: Store, r: Store, call: TransferCall)
    requires Consistent(s)
    requires call.senderWalletId in s.wallets && call.receiverWalletId in s.wallets
    requires call.senderWalletId != call.receiverWalletId
    requires call.amount >= 0
    requires s.wallets[call.senderWalletId].balance >= call.amount + CalculateTransferFee(call.amount)
    requires Transferred(s.wallets, s.ledgers, s.transfers, r, call)
    ensures WrittenLedger(call.senderWalletId, EntriesOf(r.ledgers, call.senderWalletId))
    ensures LastBalance(EntriesOf(r.ledgers, call.senderWalletId)) == r.wallets[call.senderWalletId].balance
  {
    var sid := call.senderWalletId;
    var ps := EntriesOf(s.ledgers, sid);
    var es := EntriesOf(r.ledgers, sid);
    assert es == (ps + [es[|ps|]]) + [es[|ps| + 1]];
    ExtendWritten(sid, ps, es[|ps|]);
    ExtendWritten(sid, ps + [es[|ps|]], es[|ps| + 1]);
  }

  /** The receiver's side of a completed transfer: its credit entry extends its written
      ledger and ends at its new balance. */
  lemma ReceiverConsistent(s: Store, r: Store, call: TransferCall)
    requires Consistent(s)
    requires call.senderWalletId in s.wallets && call.receiverWalletId in s.wallets
    requires call.senderWalletId != call.receiverWalletId
    requires call.amount >= 0
    requires Transferred(s.wallets, s.ledgers, s.transfers, r, call)
    ensures WrittenLedger(call.receiverWalletId, EntriesOf(r.ledgers, call.receiverWalletId))
    ensures LastBalance(EntriesOf(r.ledgers, call.receiverWalletId)) == r.wallets[call.receiverWalletId].balance
  {
    var rid := call.receiverWalletId;
    var qs := EntriesOf(s.ledgers, rid);
    var fs := EntriesOf(r.ledgers, rid);
    assert fs == qs + [fs[|qs|]];
    WrittenLedgerNonNegative(rid, qs);
    ExtendWritten(rid, qs, fs[|qs|]);
  }

  /** A transfer of a non-negative amount keeps the agreement for both wallets. */
  lemma TransferKeepsConsistent(s: Store, p: Provider, senderWalletId: WalletId, receiverWalletNumber: string,
                                amount: Cents, key: string, transactionId: string, now: int)
    requires Valid(p) && UniqueNumbers(s.wallets) && transactionId !in s.transactions
    requires Consistent(s)
    requires amount >= 0
    ensures Consistent(ExecuteTransfer(s, p, senderWalletId, receiverWalletNumber, amount, key, transactionId, now).store)
  {
    var r := ExecuteTransfer(s, p, senderWalletId, receiverWalletNumber, amount, key, transactionId, now);
    if r.result.Success? {
      TransferEffects(s, p, senderWalletId, receiverWalletNumber, amount, key, transactionId, now);
      var rid := ActiveReceiver(s.wallets, receiverWalletNumber).value;
      TransferredConsistent(s, r.store, TransferCall(senderWalletId, rid, amount, transactionId, now));
    } else if Admitted(s, p, key) {
      SameBooksConsistent(s, r.store);
    }
  }

  /** Deposits, withdrawals and transfers change balances only. */
  lemma OperationsKeepAccounts(s: Store, p: Provider, q: Request)
    requires Valid(p) && UniqueNumbers(s.wallets) && TransactionIdOf(q) !in s.transactions
    ensures SameAccounts(s.wallets, Serve(s, p, q).store.wallets)
  {
    match q
    case DepositOf(req, id, now) => DepositKeepsAccounts(s, p, req, id, now);
    case WithdrawalOf(req, id, now) => WithdrawKeepsAccounts(s, p, req, id, now);
    case TransferOf(sender, number, amount, key, id, now) => TransferKeepsAccounts(s, p, sender, number, amount, key, id, now);
  }

  lemma DepositKeepsAccounts(s: Store, p: Provider, req: DepositRequest, id: string, now: int)
    requires Valid(p) && id !in s.transactions
    ensures SameAccounts(s.wallets, Deposit(s, p, req, id, now).store.wallets)
  {
    if Deposit(s, p, req, id, now).result.Success? { DepositEffects(s, p, req, id, now); }
  }

  lemma WithdrawKeepsAccounts(s: Store, p: Provider, req: WithdrawalRequest, id: string, now: int)
    requires Valid(p) && id !in s.transactions
    ensures SameAccounts(s.wallets, Withdraw(s, p, req, id, now).store.wallets)
  {
    if Withdraw(s, p, req, id, now).result.Success? { WithdrawEffects(s, p, req, id, now); }
  }

  lemma TransferKeepsAccounts(s: Store, p: Provider, sender: WalletId, number: string, amount: Cents,
                              key: string, id: string, now: int)
    requires Valid(p) && UniqueNumbers(s.wallets) && id !in s.transactions
    ensures SameAccounts(s.wallets, ExecuteTransfer(s, p, sender, number, amount, key, id, now).store.wallets)
  {
    var r := ExecuteTransfer(s, p, sender, number, amount, key, id, now);
    if r.result.Success? {
      TransferEffects(s, p, sender, number, amount, key, id, now);
      var rid := ActiveReceiver(s.wallets, number).value;
      TransferredSameAccounts(s.wallets, s.ledgers, s.transfers, r.store, TransferCall(sender, rid, amount, id, now));
    }
  }

  /** A client request, with the transaction id the service generates for it and the
      clock reading it stores. */
  datatype Request =
    | DepositOf(deposit: DepositRequest, transactionId: string, now: int)
    | WithdrawalOf(withdrawal: WithdrawalRequest, transactionId: string, now: int)
    | TransferOf(senderWalletId: WalletId, receiverWalletNumber: string, amount: Cents,
                 key: string, transactionId: string, now: int)

  function TransactionIdOf(q: Request): string {
    match q
    case DepositOf(_, id, _) => id
    case WithdrawalOf(_, id, _) => id
    case TransferOf(_, _, _, _, id, _) => id
  }

  /** The amount a request moves into a wallet; the HTTP layer only lets positive amounts through. */
  function CreditedAmount(q: Request): Cents {
    match q
    case DepositOf(req, _, _) => req.amount
    case WithdrawalOf(_, _, _) => 0
    case TransferOf(_, _, amount, _, _, _) => amount
  }

  datatype State = State(store: Store, provider: Provider)

  /** Serves one request against the store. */
  function Serve(s: Store, p: Provider, q: Request): (r: State)
    requires Valid(p) && UniqueNumbers(s.wallets) && TransactionIdOf(q) !in s.transactions
    ensures Valid(r.provider) && r.provider.held == p.held
  {
    match q
    case DepositOf(req, id, now) =>
      var o := Deposit(s, p, req, id, now); State(o.store, o.provider)
    case WithdrawalOf(req, id, now) =>
      var o := Withdraw(s, p, req, id, now); State(o.store, o.provider)
    case TransferOf(sender, number, amount, key, id, now) =>
      var o := ExecuteTransfer(s, p, sender, number, amount, key, id, now); State(o.store, o.provider)
  }

  /** Serves requests one after another. A request whose generated id is already taken
      stands for a collision the id generator rules out, and is skipped. */
  ghost function Run(s: Store, p: Provider, qs: seq<Request>): State
    requires Valid(p) && UniqueNumbers(s.wallets)
    decreases |qs|
  {
    if |qs| == 0 then State(s, p)
    else if TransactionIdOf(qs[0]) in s.transactions then Run(s, p, qs[1..])
    else
      OperationsKeepAccounts(s, p, qs[0]);
      SameAccountsKeepUnique(s.wallets, Serve(s, p, qs[0]).store.wallets);
      var o := Serve(s, p, qs[0]);
      Run(o.store, o.provider, qs[1..])
  }

  /** Whatever mix of deposits, withdrawals and transfers is served, in whatever order and
      with whatever contention on the locks, the books stay consistent, provided no
      request credits a negative amount. */
  lemma {:induction false} RunKeepsConsistent(s: Store, p: Provider, qs: seq<Request>)
    requires Valid(p) && UniqueNumbers(s.wallets)
    requires Consistent(s)
    requires forall i :: 0 <= i < |qs| ==> CreditedAmount(qs[i]) >= 0
    ensures Consistent(Run(s, p, qs).store)
    decreases |qs|
  {
    if |qs| > 0 {
      if TransactionIdOf(qs[0]) in s.transactions {
        RunKeepsConsistent(s, p, qs[1..]);
      } else {
        OperationsKeepAccounts(s, p, qs[0]);
        SameAccountsKeepUnique(s.wallets, Serve(s, p, qs[0]).store.wallets);
        match qs[0] {
          case DepositOf(req, id, now) => DepositKeepsConsistent(s, p, req, id, now);
          case WithdrawalOf(req, id, now) => WithdrawKeepsConsistent(s, p, req, id, now);
          case TransferOf(sender, number, amount, key, id, now) =>
            TransferKeepsConsistent(s, p, sender, number, amount, key, id, now);
        }
        var o := Serve(s, p, qs[0]);
        assert forall i :: 0 <= i < |qs[1..]| ==> CreditedAmount(qs[1..][i]) >= 0 by {
          forall i | 0 <= i < |qs[1..]| ensures CreditedAmount(qs[1..][i]) >= 0 {
            assert qs[1..][i] == qs[i + 1];
          }
        }
        RunKeepsConsistent(o.store, o.provider, qs[1..]);
      }
    }
  }
}

=== FILE: errors.dfy ===
/** The failures the services raise: the application's exception classes plus the
    generic exceptions the services throw with a message of their own. */
module Errors {

  datatype Error =
    | DuplicateTransaction   // 409: the idempotency key is already attached to a transaction
    | ConcurrentRequest      // 429: another request holds the idempotency key's lock
    | WalletLocked           // 423: the wallet lock(s) could not be obtained in three attempts
    | InsufficientBalance    // 400: the wallet cannot cover the amount (plus fee)
    | WalletNotFound         // 404: the transfer's receiver is missing or not active
    | WalletNotAvailable     // generic "Wallet not available": the wallet is not active
    | WalletRowMissing       // generic "Wallet not found" from the locked re-read of the wallet row
    | UnhandledMatch         // the ledger writer was given a type it does not know
}

=== FILE: fees.dfy ===
/** The transfer fee rule of FeeCalculatorService: nothing at or below the
    threshold, a base fee plus ten percent of the amount above it. */
module FeeCalculator {
  import opened Outcomes
  import opened Money

  /** 25.00: transfers of at most this amount carry no fee. */
  const TransferThreshold: Cents := 2500
  /** 2.50: the fixed part of a fee above the threshold. */
  const TransferBaseFee: Cents := 250
  /** The decimal 0.10 passed to bcmul for the percentage part. */
  const TransferPercentageFee: Cents := 10

  /** bcmul(amount, 0.10) at scale 2. */
  function PercentageFee(amount: Cents): (p: Cents)
    ensures amount >= 0 ==> p == amount / 10
  {
    var r := CalculateWithPrecision("multiply", [amount, TransferPercentageFee]);
    if amount >= 0 then TenPercentTruncates(amount); r.value else r.value
  }

  /** Ten percent of a non-negative amount, truncated to cents, is the amount's cents divided by ten. */
  lemma TenPercentTruncates(amount: Cents)
    requires amount >= 0
    ensures MultiplyAll([amount, TransferPercentageFee]) == amount / 10
  {
    var xs := [amount, TransferPercentageFee];
    assert xs[..1] == [amount];
    assert [amount][..0] == [];
    var first := Mul(One, amount);
    assert MultiplyAll([amount]) == first;
    assert first * One <= One * amount < first * One + One;
    assert first == amount;
    var second := Mul(amount, TransferPercentageFee);
    assert MultiplyAll(xs) == second;
    assert second * One <= amount * 10 < second * One + One;
    assert second * 10 <= amount < second * 10 + 10;
  }

  /** `calculateTransferFee`. */
  function CalculateTransferFee(amount: Cents): (fee: Cents)
    ensures amount <= TransferThreshold ==> fee == 0
    ensures amount > TransferThreshold ==> fee == TransferBaseFee + amount / 10
    ensures amount > TransferThreshold ==> fee >= 2 * TransferBaseFee
    ensures fee >= 0
  {
    if amount <= TransferThreshold then 0
    else
      var percentageFee := PercentageFee(amount);
      assert [TransferBaseFee, percentageFee][1..] == [percentageFee];
      assert [percentageFee][1..] == [];
      assert Sum([percentageFee]) == percentageFee;
      var total := CalculateWithPrecision("add", [TransferBaseFee, percentageFee]);
      assert total == Success(Sum([TransferBaseFee, percentageFee]));
      assert Sum([TransferBaseFee, percentageFee]) == TransferBaseFee + percentageFee;
      assert percentageFee == amount / 10;
      total.value
  }

  /** The array returned by `getFeeBreakdown`; `feeRate` is a percentage. */
  datatype FeeBreakdown = FeeBreakdown(baseFee: Cents, percentageFee: Cents, totalFee: Cents, feeRate: real)

  /** `getFeeBreakdown`. Above the threshold the amount is positive, so the rate's divisor is never zero. */
  function GetFeeBreakdown(amount: Cents): (b: FeeBreakdown)
    ensures b.totalFee == CalculateTransferFee(amount)
    ensures amount <= TransferThreshold ==> b == FeeBreakdown(0, 0, 0, 0.0)
    ensures amount > TransferThreshold ==>
              && b.baseFee == TransferBaseFee
              && b.percentageFee == amount / 10
              && b.baseFee + b.percentageFee == b.totalFee
              && b.feeRate * (amount as real) == (b.totalFee as real) * 100.0
  {
    if amount <= TransferThreshold then FeeBreakdown(0, 0, 0, 0.0)
    else
      var percentageFee := PercentageFee(amount);
      var totalFee := CalculateWithPrecision("add", [TransferBaseFee, percentageFee]).value;
      FeeBreakdown(TransferBaseFee, percentageFee, totalFee, (totalFee as real) / (amount as real) * 100.0)
  }

  /** The worked values of the fee rule: 100.00 costs 12.50 at a 12.5% rate, 50.00 costs 7.50,
      and anything up to 25.00 costs nothing. */
  lemma FeeExamples()
    ensures CalculateTransferFee(10000) == 1250
    ensures CalculateTransferFee(5000) == 750
    ensures CalculateTransferFee(2500) == 0 && CalculateTransferFee(1000) == 0
    ensures GetFeeBreakdown(10000) == FeeBreakdown(250, 1000, 1250, 12.5)
  {
    var b := GetFeeBreakdown(10000);
    assert b.feeRate * 10000.0 == 125000.0;
  }
}

=== FILE: idempotency.dfy ===
/** The idempotency guard of IdempotencyService: check the key, take the key's lock
    without waiting, check again under the lock, release. It only reads the keys
    already attached to transactions and never writes a transaction. */
module Idempotency {
  import opened Outcomes
  import opened Locks
  import opened Errors

  datatype GuardOutcome = GuardOutcome(result: Result<bool, Error>, provider: Provider)

  /** `checkIdempotent`. `usedKeys` are the keys attached to transactions when the first
      lookup runs and `usedKeysUnderLock` those the second lookup sees; keys are only ever
      added in between. */
  function CheckIdempotent(key: string, usedKeys: set<string>, usedKeysUnderLock: set<string>, p: Provider): (r: GuardOutcome)
    requires Valid(p)
    requires usedKeys <= usedKeysUnderLock
    ensures Valid(r.provider) && r.provider.held == p.held
    ensures key in usedKeys ==> r == GuardOutcome(Failure(DuplicateTransaction), p)
    ensures key !in usedKeys && !TryAcquire(p, IdempotencyLock(key)).obtained ==>
              r.result == Failure(ConcurrentRequest)
    ensures key !in usedKeys && TryAcquire(p, IdempotencyLock(key)).obtained && key in usedKeysUnderLock ==>
              r.result == Failure(DuplicateTransaction)
    ensures r.result.Success? <==> key !in usedKeysUnderLock && TryAcquire(p, IdempotencyLock(key)).obtained
    ensures r.result.Success? ==> r.result.value
    ensures r.result.Failure? ==> r.result.error == DuplicateTransaction || r.result.error == ConcurrentRequest
  {
    if key in usedKeys then GuardOutcome(Failure(DuplicateTransaction), p)
    else
      var a := TryAcquire(p, IdempotencyLock(key));
      if !a.obtained then GuardOutcome(Failure(ConcurrentRequest), a.provider)
      else
        var answer := if key in usedKeysUnderLock then Failure(DuplicateTransaction) else Success(true);
        GuardOutcome(answer, Release(a.provider, a.handle))
  }

  /** A key no transaction carries passes the guard when its lock is free. */
  lemma FreshKeyPasses(key: string, usedKeys: set<string>, p: Provider)
    requires Valid(p)
    requires key !in usedKeys
    requires IdempotencyLock(key) !in p.held && NextOutcome(p.outcomes)
    ensures CheckIdempotent(key, usedKeys, usedKeys, p).result == Success(true)
  {
  }
}

=== FILE: ledger.dfy ===
/** The ledger writer of LedgerService. Each wallet owns a sequence of entries in
    creation order; every new entry starts from the balance the wallet's last
    entry ended at and never ends below zero. */
module Ledger {
  import opened Outcomes
  import opened Money

  type WalletId = int

  /** The `type` column of ledger_entries, which the schema restricts to these three values. */
  datatype EntryType = Credit | Debit | Fee

  /** What an entry's `reference_id` points at. */
  datatype ReferenceType = DepositRef | WithdrawalRef | TransferRef

  datatype Entry = Entry(
    transactionId: string,
    walletId: WalletId,
    entryType: EntryType,
    amount: Cents,
    balanceBefore: Cents,
    balanceAfter: Cents,
    referenceType: ReferenceType,
    referenceId: int,
    description: Option<string>)

  /** Every wallet's entries, oldest first. */
  type Ledgers = map<WalletId, seq<Entry>>

  /** PHP's UnhandledMatchError for a type name the writer's `match` does not list. */
  datatype LedgerError = UnhandledMatch(typeName: string)

  /** The successful result of one append: the new ledgers and the entry written. */
  datatype Appended = Appended(ledgers: Ledgers, entry: Entry)

  /** The arms of the writer's `match`. */
  function ParseEntryType(name: string): Option<EntryType> {
    match name
    case "credit" => Some(Credit)
    case "debit" => Some(Debit)
    case "fee" => Some(Fee)
    case _ => None
  }

  function EntriesOf(ledgers: Ledgers, w: WalletId): seq<Entry> {
    if w in ledgers then ledgers[w] else []
  }

  /** The balance the next entry of a wallet starts from: its last entry's balance after, or 0. */
  function LastBalance(entries: seq<Entry>): Cents {
    if |entries| == 0 then 0 else entries[|entries| - 1].balanceAfter
  }

  function FloorAtZero(x: Cents): Cents {
    if x < 0 then 0 else x
  }

  /** The writer's balance rule: add a credit, take away a debit or a fee, never below zero. */
  function BalanceAfter(t: EntryType, before: Cents, amount: Cents): (after: Cents)
    ensures after >= 0
    ensures t == Credit ==> after == FloorAtZero(before + amount)
    ensures t != Credit ==> after == FloorAtZero(before - amount)
  {
    var raw := if t == Credit then CalculateWithPrecision("add", [before, amount])
               else CalculateWithPrecision("subtract", [before, amount]);
    assert [before, amount][1..] == [amount];
    assert Sum([amount]) == amount + Sum([]);
    FloorAtZero(raw.value)
  }

  /** An entry that obeys the writer's balance rule. */
  predicate FollowsRule(e: Entry) {
    e.balanceAfter == BalanceAfter(e.entryType, e.balanceBefore, e.amount)
  }

  /** The chain-continuity invariant: the first entry starts at 0 and every
      later entry starts where its predecessor ended. */
  predicate Chained(es: seq<Entry>) {
    && (|es| > 0 ==> es[0].balanceBefore == 0)
    && forall i :: 0 < i < |es| ==> es[i].balanceBefore == es[i - 1].balanceAfter
  }

  /** A ledger as the writer leaves it: chained, every entry obeying the rule and owned by `w`. */
  predicate WrittenLedger(w: WalletId, es: seq<Entry>) {
    && Chained(es)
    && forall i :: 0 <= i < |es| ==> FollowsRule(es[i]) && es[i].walletId == w
  }

  /** A written ledger never ends below zero. */
  lemma WrittenLedgerNonNegative(w: WalletId, es: seq<Entry>)
    requires WrittenLedger(w, es)
    ensures LastBalance(es) >= 0
  {
    if |es| > 0 {
      assert FollowsRule(es[|es| - 1]);
    }
  }

  /** An entry that continues the chain and obeys the rule extends a written ledger. */
  lemma ExtendWritten(w: WalletId, prior: seq<Entry>, e: Entry)
    requires WrittenLedger(w, prior)
    requires e.balanceBefore == LastBalance(prior) && FollowsRule(e) && e.walletId == w
    ensures WrittenLedger(w, prior + [e])
    ensures LastBalance(prior + [e]) == e.balanceAfter
  {
    var es := prior + [e];
    forall i | 0 <= i < |es|
      ensures FollowsRule(es[i]) && es[i].walletId == w
    {
      if i < |prior| {
        assert es[i] == prior[i];
      }
    }
  }

  /** `legerEntryLog`: append one entry to the wallet's ledger. */
  function LegerEntryLog(
    ledgers: Ledgers, walletId: WalletId, amount: Cents, typeName: string,
    transactionId: string, referenceType: ReferenceType, referenceId: int, description: Option<string>
  ): (r: Result<Appended, LedgerError>)
    ensures r.Failure? <==> ParseEntryType(typeName).None?
    ensures r.Failure? ==> r.error == UnhandledMatch(typeName)
    ensures r.Success? ==>
              var e := r.value.entry;
              var before := LastBalance(EntriesOf(ledgers, walletId));
              && e.balanceBefore == before
              && Some(e.entryType) == ParseEntryType(typeName)
              && (e.entryType == Credit ==> e.balanceAfter == FloorAtZero(before + amount))
              && (e.entryType != Credit ==> e.balanceAfter == FloorAtZero(before - amount))
              && e.balanceAfter >= 0
              && e.amount == amount && e.walletId == walletId && e.transactionId == transactionId
              && e.referenceType == referenceType && e.referenceId == referenceId
              && e.description == description
    ensures r.Success? ==>
              && r.value.ledgers.Keys == ledgers.Keys + {walletId}
              && EntriesOf(r.value.ledgers, walletId) == EntriesOf(ledgers, walletId) + [r.value.entry]
              && forall w :: w != walletId ==> EntriesOf(r.value.ledgers, w) == EntriesOf(ledgers, w)
  {
    match ParseEntryType(typeName)
    case None => Failure(UnhandledMatch(typeName))
    case Some(t) =>
      var entries := EntriesOf(ledgers, walletId);
      var before := LastBalance(entries);
      var e := Entry(transactionId, walletId, t, amount, before, BalanceAfter(t, before, amount),
                     referenceType, referenceId, description);
      Success(Appended(ledgers[walletId := entries + [e]], e))
  }

  /** Appending keeps the wallet's chain continuous: a chained ledger stays chained
      and every entry still obeys the rule; every other wallet's ledger is untouched. */
  lemma AppendKeepsChain(
    ledgers: Ledgers, walletId: WalletId, amount: Cents, typeName: string,
    transactionId: string, referenceType: ReferenceType, referenceId: int, description: Option<string>)
    requires WrittenLedger(walletId, EntriesOf(ledgers, walletId))
    requires ParseEntryType(typeName).Some?
    ensures var r := LegerEntryLog(ledgers, walletId, amount, typeName, transactionId, referenceType, referenceId, description);
            && r.Success?
            && WrittenLedger(walletId, EntriesOf(r.value.ledgers, walletId))
            && (|EntriesOf(ledgers, walletId)| > 0 ==>
                  r.value.entry.balanceBefore == EntriesOf(ledgers, walletId)[|EntriesOf(ledgers, walletId)| - 1].balanceAfter)
  {
    var r := LegerEntryLog(ledgers, walletId, amount, typeName, transactionId, referenceType, referenceId, description);
    var prior := EntriesOf(ledgers, walletId);
    ExtendWritten(walletId, prior, r.value.entry);
  }

  /** One call of the writer, as the services make it. */
  datatype LogRequest = LogRequest(
    walletId: WalletId, amount: Cents, typeName: string,
    transactionId: string, referenceType: ReferenceType, referenceId: int, description: Option<string>)

  /** The ledgers after a series of writer calls; a call that throws writes nothing. */
  function LogAll(ledgers: Ledgers, reqs: seq<LogRequest>): Ledgers
    decreases |reqs|
  {
    if |reqs| == 0 then ledgers
    else
      var q := reqs[0];
      var r := LegerEntryLog(ledgers, q.walletId, q.amount, q.typeName, q.transactionId,
                             q.referenceType, q.referenceId, q.description);
      LogAll(if r.Success? then r.value.ledgers else ledgers, reqs[1..])
  }

  /** Any ledgers produced only by the writer, starting from no entries, are chained
      and obey the balance rule, whatever the sequence of calls. */
  lemma {:induction false} WriterOnlyLedgersAreChained(ledgers: Ledgers, reqs: seq<LogRequest>)
    requires forall w :: WrittenLedger(w, EntriesOf(ledgers, w))
    ensures forall w :: WrittenLedger(w, EntriesOf(LogAll(ledgers, reqs), w))
    decreases |reqs|
  {
    if |reqs| > 0 {
      var q := reqs[0];
      var r := LegerEntryLog(ledgers, q.walletId, q.amount, q.typeName, q.transactionId,
                             q.referenceType, q.referenceId, q.description);
      if r.Success? {
        AppendKeepsChain(ledgers, q.walletId, q.amount, q.typeName, q.transactionId,
                         q.referenceType, q.referenceId, q.description);
        forall w
          ensures WrittenLedger(w, EntriesOf(r.value.ledgers, w))
        {
          if w != q.walletId {
            assert EntriesOf(r.value.ledgers, w) == EntriesOf(ledgers, w);
          }
        }
        WriterOnlyLedgersAreChained(r.value.ledgers, reqs[1..]);
      } else {
        WriterOnlyLedgersAreChained(ledgers, reqs[1..]);
      }
    }
  }

  /** The running balance of the wallet in the writer's worked example: deposits of
      100.00 and 50.00, a withdrawal of 30.00 and a deposit of 20.00 give the chain
      0 -> 100 -> 150 -> 120 -> 140. */
  lemma RunningBalanceExample()
    ensures var reqs := [
              LogRequest(1, 10000, "credit", "t1", DepositRef, 1, None),
              LogRequest(1, 5000, "credit", "t2", DepositRef, 2, None),
              LogRequest(1, 3000, "debit", "t3", WithdrawalRef, 1, None),
              LogRequest(1, 2000, "credit", "t4", DepositRef, 3, None)];
            var es := EntriesOf(LogAll(map[], reqs), 1);
            && |es| == 4
            && es[0].balanceBefore == 0 && es[0].balanceAfter == 10000
            && es[1].balanceBefore == 10000 && es[1].balanceAfter == 15000
            && es[2].balanceBefore == 15000 && es[2].balanceAfter == 12000
            && es[3].balanceBefore == 12000 && es[3].balanceAfter == 14000
  {
    var reqs := [
      LogRequest(1, 10000, "credit", "t1", DepositRef, 1, None),
      LogRequest(1, 5000, "credit", "t2", DepositRef, 2, None),
      LogRequest(1, 3000, "debit", "t3", WithdrawalRef, 1, None),
      LogRequest(1, 2000, "credit", "t4", DepositRef, 3, None)];
    var l0: Ledgers := map[];
    var l1 := LegerEntryLog(l0, 1, 10000, "credit", "t1", DepositRef, 1, None).value.ledgers;
    var l2 := LegerEntryLog(l1, 1, 5000, "credit", "t2", DepositRef, 2, None).value.ledgers;
    var l3 := LegerEntryLog(l2, 1, 3000, "debit", "t3", WithdrawalRef, 1, None).value.ledgers;
    var l4 := LegerEntryLog(l3, 1, 2000, "credit", "t4", DepositRef, 3, None).value.ledgers;
    assert reqs[1..][1..][1..][1..] == [];
    assert LogAll(l4, []) == l4;
    assert LogAll(l0, reqs) == l4;
  }
}

=== FILE: locks.dfy ===
/** The named-lock provider behind `Cache::lock`. Every `Cache::lock(...)` call makes a
    handle with a fresh owner token; `get()` is a non-blocking attempt and `release()`
    is owner-checked. Whether some other worker holds a lock at the moment of an attempt
    is decided by an oracle of outcomes, one per attempt. */
module Locks {

  /** The cache keys `idempotency:{key}` and `wallet_lock:{id}`. */
  datatype LockName = IdempotencyLock(key: string) | WalletLock(walletId: int)

  /** `held` maps each held lock to its owner token; `nextOwner` is the next fresh token. */
  datatype Provider = Provider(held: map<LockName, nat>, nextOwner: nat, outcomes: seq<bool>)

  /** Every held lock belongs to a token already handed out. */
  predicate Valid(p: Provider) {
    forall n :: n in p.held ==> p.held[n] < p.nextOwner
  }

  datatype Handle = Handle(name: LockName, owner: nat)

  datatype Acquired = Acquired(handle: Handle, obtained: bool, provider: Provider)

  /** The oracle's verdict for the next attempt; once it runs out there is no more contention. */
  function NextOutcome(outcomes: seq<bool>): bool {
    |outcomes| == 0 || outcomes[0]
  }

  function RestOutcomes(outcomes: seq<bool>): seq<bool> {
    if |outcomes| == 0 then [] else outcomes[1..]
  }

  /** `Cache::lock(name)->get()`: a fresh handle and one non-blocking attempt. A lock that
      is already held is refused without consulting the oracle; otherwise the oracle's
      next outcome decides and is used up. */
  function TryAcquire(p: Provider, name: LockName): (r: Acquired)
    requires Valid(p)
    ensures Valid(r.provider)
    ensures r.handle == Handle(name, p.nextOwner)
    ensures r.provider.nextOwner == p.nextOwner + 1
    ensures r.obtained <==> name !in p.held && NextOutcome(p.outcomes)
    ensures r.obtained ==> r.provider.held == p.held[name := p.nextOwner]
    ensures !r.obtained ==> r.provider.held == p.held
    ensures r.provider.outcomes == if name in p.held then p.outcomes else RestOutcomes(p.outcomes)
  {
    var h := Handle(name, p.nextOwner);
    if name in p.held then Acquired(h, false, p.(nextOwner := p.nextOwner + 1))
    else if NextOutcome(p.outcomes) then
      Acquired(h, true, Provider(p.held[name := h.owner], p.nextOwner + 1, RestOutcomes(p.outcomes)))
    else Acquired(h, false, Provider(p.held, p.nextOwner + 1, RestOutcomes(p.outcomes)))
  }

  /** `release()`: frees the lock only when this handle's owner holds it, so releasing a
      handle that never obtained its lock, or releasing twice, changes nothing. */
  function Release(p: Provider, h: Handle): (q: Provider)
    ensures h.name in p.held && p.held[h.name] == h.owner ==> q.held == p.held - {h.name}
    ensures !(h.name in p.held && p.held[h.name] == h.owner) ==> q == p
    ensures q.nextOwner == p.nextOwner && q.outcomes == p.outcomes
    ensures Valid(p) ==> Valid(q)
  {
    if h.name in p.held && p.held[h.name] == h.owner then p.(held := p.held - {h.name}) else p
  }

  /** Releases handles in order. */
  function ReleaseAll(p: Provider, hs: seq<Handle>): (q: Provider)
    ensures q.nextOwner == p.nextOwner && q.outcomes == p.outcomes
    ensures Valid(p) ==> Valid(q)
    decreases |hs|
  {
    if |hs| == 0 then p else ReleaseAll(Release(p, hs[0]), hs[1..])
  }

  /** Releasing handles whose owners hold nothing is a no-op. */
  lemma {:induction false} ReleaseUnownedIsNoOp(p: Provider, hs: seq<Handle>)
    requires forall i, n :: 0 <= i < |hs| && n in p.held ==> p.held[n] != hs[i].owner
    ensures ReleaseAll(p, hs) == p
    decreases |hs|
  {
    if |hs| > 0 {
      assert Release(p, hs[0]) == p;
      ReleaseUnownedIsNoOp(p, hs[1..]);
    }
  }

  function Names(hs: seq<Handle>): set<LockName> {
    set i | 0 <= i < |hs| :: hs[i].name
  }

  /** Each handle's owner holds its lock and no two handles name the same lock. */
  predicate OwnsAll(held: map<LockName, nat>, hs: seq<Handle>) {
    && (forall i :: 0 <= i < |hs| ==> hs[i].name in held && held[hs[i].name] == hs[i].owner)
    && (forall i, j :: 0 <= i < j < |hs| ==> hs[i].name != hs[j].name)
  }

  /** Releasing handles that own their locks frees exactly those locks. */
  lemma {:induction false} ReleaseOwned(p: Provider, hs: seq<Handle>)
    requires OwnsAll(p.held, hs)
    ensures ReleaseAll(p, hs).held == p.held - Names(hs)
    decreases |hs|
  {
    if |hs| == 0 {
      assert Names(hs) == {};
    } else {
      var q := Release(p, hs[0]);
      assert q.held == p.held - {hs[0].name};
      forall i | 0 <= i < |hs[1..]|
        ensures hs[1..][i].name in q.held && q.held[hs[1..][i].name] == hs[1..][i].owner
      {
        assert hs[1..][i] == hs[i + 1];
      }
      ReleaseOwned(q, hs[1..]);
      assert Names(hs) == {hs[0].name} + Names(hs[1..]) by {
        forall n | n in Names(hs) ensures n in {hs[0].name} + Names(hs[1..]) {
          var i :| 0 <= i < |hs| && hs[i].name == n;
          if i > 0 { assert hs[1..][i - 1] == hs[i]; }
        }
        forall n | n in Names(hs[1..]) ensures n in Names(hs) {
          var i :| 0 <= i < |hs[1..]| && hs[1..][i].name == n;
          assert hs[i + 1].name == n;
        }
      }
    }
  }
}

=== FILE: money.dfy ===
/** The fixed-point money helpers of the HasMoney trait.
    bcmath works at scale 2, so every amount is a whole number of cents:
    adding and subtracting are exact, multiplying and dividing drop the
    digits beyond the second decimal, rounding toward zero. */
module Money {
  import opened Outcomes

  /** A decimal amount with two fractional digits, held as a whole number of cents. */
  type Cents = int

  /** The bcmath scale every money operation runs at. */
  const Scale: nat := 2
  /** The decimal "1" at scale 2. */
  const One: Cents := 100

  /** The exceptions the helpers throw: InvalidArgumentException, and the
      ErrorException the framework raises for PHP's "Undefined array key" warning. */
  datatype MoneyError =
    | InvalidArgument(message: string)
    | UndefinedArrayKey(key: int)

  function Abs(x: int): nat {
    if x < 0 then -x else x
  }

  function Sign(x: int): int {
    if x < 0 then -1 else if x == 0 then 0 else 1
  }

  /** Division that rounds toward zero, which is what bcmath does when it
      drops the digits beyond the scale (Dafny's own `/` is Euclidean): the
      magnitude is the whole part of |a| / |b| and the sign is the sign of the quotient. */
  function TruncDiv(a: int, b: int): (q: int)
    requires b != 0
    ensures Abs(q) * Abs(b) <= Abs(a) < Abs(q) * Abs(b) + Abs(b)
    ensures q == 0 || (q < 0 <==> (a < 0) != (b < 0))
  {
    var m := Abs(a) / Abs(b);
    NatDivBounds(Abs(a), Abs(b));
    if (a < 0) == (b < 0) then m else -m
  }

  lemma NatDivBounds(a: nat, b: nat)
    requires b > 0
    ensures (a / b) * b <= a < (a / b) * b + b
  {
  }

  /** The exact sum of the operands: the reference the `add` fold is checked against. */
  function Sum(xs: seq<Cents>): Cents {
    if |xs| == 0 then 0 else xs[0] + Sum(xs[1..])
  }

  /** `add`: bcadd folded over the operands, left to right, starting from "0". */
  function AddAll(xs: seq<Cents>): Cents {
    if |xs| == 0 then 0 else AddAll(xs[..|xs| - 1]) + xs[|xs| - 1]
  }

  /** `subtract`: the first operand with every later operand taken away in turn
      (the empty case fails before the fold, in CalculateWithPrecision). */
  function SubtractAll(xs: seq<Cents>): Cents
    requires |xs| > 0
  {
    if |xs| == 1 then xs[0]
    else SubtractAll(xs[..|xs| - 1]) - xs[|xs| - 1]
  }

  /** One bcmul at scale 2: the exact product of two amounts, truncated to cents. */
  function Mul(a: Cents, b: Cents): (r: Cents)
    ensures Abs(r) * One <= Abs(a * b) < Abs(r) * One + One
    ensures a * b >= 0 ==> r >= 0
  {
    TruncDiv(a * b, One)
  }

  /** `multiply`: bcmul folded over the operands starting from "1", truncating after every step. */
  function MultiplyAll(xs: seq<Cents>): Cents {
    if |xs| == 0 then One else Mul(MultiplyAll(xs[..|xs| - 1]), xs[|xs| - 1])
  }

  /** One bcdiv at scale 2: the exact quotient of two amounts, truncated to cents. */
  function Div(a: Cents, b: Cents): (r: Cents)
    requires b != 0
    ensures Abs(r) * Abs(b) <= Abs(a * One) < Abs(r) * Abs(b) + Abs(b)
  {
    TruncDiv(a * One, b)
  }

  /** `divide`: the first operand divided by every later operand in turn; a zero
      divisor anywhere after the first operand throws InvalidArgumentException.
      With no operands, reading `$amounts[0]` raises the undefined-key error first. */
  function DivideAll(xs: seq<Cents>): (r: Result<Cents, MoneyError>)
    ensures |xs| == 0 ==> r == Failure(UndefinedArrayKey(0))
    ensures |xs| > 0 ==> (r.Failure? <==> exists i :: 1 <= i < |xs| && xs[i] == 0)
    ensures |xs| > 0 && r.Failure? ==> r.error == InvalidArgument("Division by zero")
    ensures |xs| == 1 ==> r == Success(xs[0])
  {
    if |xs| == 0 then Failure(UndefinedArrayKey(0))
    else if |xs| == 1 then Success(xs[0])
    else
      var prefix := DivideAll(xs[..|xs| - 1]);
      assert forall i :: 1 <= i < |xs| - 1 ==> xs[..|xs| - 1][i] == xs[i];
      if prefix.Failure? then prefix
      else if xs[|xs| - 1] == 0 then Failure(InvalidArgument("Division by zero"))
      else Success(Div(prefix.value, xs[|xs| - 1]))
  }

  /** `calculateWithPrecision`: dispatch on the operation name; any other name throws. */
  function CalculateWithPrecision(operation: string, amounts: seq<Cents>): (r: Result<Cents, MoneyError>)
    ensures operation !in {"add", "subtract", "multiply", "divide"} ==>
              r == Failure(InvalidArgument("Invalid operation: " + operation))
    ensures operation == "add" ==> r == Success(Sum(amounts))
    ensures operation == "subtract" && |amounts| > 0 ==> r == Success(amounts[0] - Sum(amounts[1..]))
    ensures (operation == "subtract" || operation == "divide") && |amounts| == 0 ==>
              r == Failure(UndefinedArrayKey(0))
    ensures operation == "add" || operation == "multiply" ==> r.Success?
    ensures operation == "subtract" ==> (r.Success? <==> |amounts| > 0)
  {
    match operation
    case "add" => AddAllIsSum(amounts); Success(AddAll(amounts))
    case "subtract" =>
      if |amounts| == 0 then Failure(UndefinedArrayKey(0))
      else SubtractAllLeftToRight(amounts); Success(SubtractAll(amounts))
    case "multiply" => Success(MultiplyAll(amounts))
    case "divide" => DivideAll(amounts)
    case _ => Failure(InvalidArgument("Invalid operation: " + operation))
  }

  lemma {:induction false} SumSnoc(xs: seq<Cents>, x: Cents)
    ensures Sum(xs + [x]) == Sum(xs) + x
  {
    if |xs| == 0 {
      assert xs + [x] == [x];
    } else {
      assert (xs + [x])[1..] == xs[1..] + [x];
      SumSnoc(xs[1..], x);
    }
  }

  /** Folding bcadd from "0" gives the exact sum; with no operands it gives 0. */
  lemma {:induction false} AddAllIsSum(xs: seq<Cents>)
    ensures AddAll(xs) == Sum(xs)
  {
    if |xs| > 0 {
      var init := xs[..|xs| - 1];
      AddAllIsSum(init);
      SumSnoc(init, xs[|xs| - 1]);
      assert init + [xs[|xs| - 1]] == xs;
    }
  }

  /** Subtracting left to right takes the sum of all later operands from the first one. */
  lemma {:induction false} SubtractAllLeftToRight(xs: seq<Cents>)
    requires |xs| > 0
    ensures SubtractAll(xs) == xs[0] - Sum(xs[1..])
  {
    if |xs| > 1 {
      var init := xs[..|xs| - 1];
      SubtractAllLeftToRight(init);
      assert init[1..] + [xs[|xs| - 1]] == xs[1..];
      SumSnoc(init[1..], xs[|xs| - 1]);
    }
  }

  /** Adding or subtracting two amounts at scale 2 is exact. */
  lemma PairIsExact(a: Cents, b: Cents)
    ensures CalculateWithPrecision("add", [a, b]) == Success(a + b)
    ensures CalculateWithPrecision("subtract", [a, b]) == Success(a - b)
  {
    assert [a, b][1..] == [b];
    assert Sum([b]) == b + Sum([]);
  }

  /** The product of the operands taken as exact integers. */
  function Product(xs: seq<Cents>): int {
    if |xs| == 0 then 1 else Product(xs[..|xs| - 1]) * xs[|xs| - 1]
  }

  function Pow(base: nat, n: nat): (r: nat)
    ensures base > 0 ==> r > 0
  {
    if n == 0 then 1 else Pow(base, n - 1) * base
  }

  /** Multiplying starts from "1", so a single operand comes back unchanged, and
      truncating every intermediate product never rounds a non-negative result up:
      read as a decimal, the fold is at most the exact product of the operands. */
  lemma {:induction false} MultiplyAllTruncates(xs: seq<Cents>)
    requires forall i :: 0 <= i < |xs| ==> xs[i] >= 0
    ensures |xs| == 1 ==> MultiplyAll(xs) == xs[0]
    ensures 0 <= MultiplyAll(xs)
    ensures MultiplyAll(xs) * Pow(One, |xs|) <= Product(xs) * One
  {
    if |xs| > 0 {
      var init := xs[..|xs| - 1];
      var x := xs[|xs| - 1];
      MultiplyAllTruncates(init);
      var m := MultiplyAll(init);
      var p := Pow(One, |init|);
      var prod := Product(init);
      MulNonNegative(m, x);
      var r := Mul(m, x);
      assert r * One <= m * x;
      TruncationStep(r, m, x, p, prod);
      if |xs| == 1 {
        assert m == One;
      }
    }
  }

  lemma MulNonNegative(a: int, b: int)
    requires a >= 0 && b >= 0
    ensures a * b >= 0
  {
  }

  /** One inductive step of MultiplyAllTruncates, kept apart so that the solver sees only these terms. */
  lemma TruncationStep(r: int, m: int, x: int, p: nat, prod: int)
    requires 0 <= r && 0 <= m && 0 <= x
    requires r * One <= m * x
    requires m * p <= prod * One
    ensures r * (p * One) <= (prod * x) * One
  {
    calc {
      r * (p * One);
      == (r * One) * p;
      <= { MulLeftMono(r * One, m * x, p); }
      (m * x) * p;
      == (m * p) * x;
      <= { MulLeftMono(m * p, prod * One, x); }
      (prod * One) * x;
      == (prod * x) * One;
    }
  }

  lemma MulLeftMono(a: int, b: int, c: nat)
    requires a <= b
    ensures a * c <= b * c
  {
  }

  /** `compareAmounts`: bccomp at `precision` decimals, which drops the digits
      beyond that precision from both operands before comparing them. */
  function CompareAmounts(a: Cents, b: Cents, precision: nat): (r: int)
    ensures r == -1 || r == 0 || r == 1
    ensures precision >= Scale ==> (r == -1 <==> a < b) && (r == 0 <==> a == b) && (r == 1 <==> a > b)
  {
    var unit := if precision >= Scale then 1 else Pow(10, Scale - precision);
    Sign(TruncDiv(a, unit) - TruncDiv(b, unit))
  }

  /** Comparing the other way round gives the opposite answer. */
  lemma CompareAntisymmetric(a: Cents, b: Cents, precision: nat)
    ensures CompareAmounts(a, b, precision) == -CompareAmounts(b, a, precision)
  {
  }

  predicate IsDigit(c: char) {
    '0' <= c <= '9'
  }

  /** Length of the optional leading sign of a numeral. */
  function SignLength(s: string): (n: nat)
    ensures n <= |s|
  {
    if |s| > 0 && (s[0] == '+' || s[0] == '-') then 1 else 0
  }

  /** The white space PHP allows around a numeric string: space, \t, \n, \r, \v and \f. */
  predicate IsSpace(c: char) {
    c == ' ' || c == '\t' || c == '\n' || c == '\r' || c == '\U{0B}' || c == '\U{0C}'
  }

  /** The first index at or after `i` that does not hold white space. */
  function SkipSpaces(s: string, i: nat): (j: nat)
    requires i <= |s|
    ensures i <= j <= |s|
    ensures forall k :: i <= k < j ==> IsSpace(s[k])
    ensures j < |s| ==> !IsSpace(s[j])
    decreases |s| - i
  {
    if i == |s| || !IsSpace(s[i]) then i else SkipSpaces(s, i + 1)
  }

  /** Where the white space that ends `s[lo..hi]` begins. */
  function TrailingSpaces(s: string, lo: nat, hi: nat): (j: nat)
    requires lo <= hi <= |s|
    ensures lo <= j <= hi
    ensures forall k :: j <= k < hi ==> IsSpace(s[k])
    ensures j > lo ==> !IsSpace(s[j - 1])
    decreases hi - lo
  {
    if hi == lo || !IsSpace(s[hi - 1]) then hi else TrailingSpaces(s, lo, hi - 1)
  }

  /** The first 'e' or 'E' in `s[lo..hi]`, or `hi` when there is none. */
  function ExponentStart(s: string, lo: nat, hi: nat): (j: nat)
    requires lo <= hi <= |s|
    ensures lo <= j <= hi
    ensures forall k :: lo <= k < j ==> s[k] != 'e' && s[k] != 'E'
    ensures j < hi ==> s[j] == 'e' || s[j] == 'E'
    decreases hi - lo
  {
    if lo == hi || s[lo] == 'e' || s[lo] == 'E' then lo else ExponentStart(s, lo + 1, hi)
  }

  /** Where the parts of a candidate numeral sit: white space up to `start`, the
      sign up to `digits`, the mantissa up to `exponent`, the exponent up to
      `end`, and white space after that. */
  datatype Layout = Layout(start: nat, digits: nat, exponent: nat, end: nat)

  function LayoutOf(s: string): (l: Layout)
    ensures l.start <= l.digits <= l.exponent <= l.end <= |s|
  {
    var start := SkipSpaces(s, 0);
    var end := TrailingSpaces(s, start, |s|);
    var digits := start + SignLength(s[start..end]);
    Layout(start, digits, ExponentStart(s, digits, end), end)
  }

  /** A decimal mantissa: digits and at most one '.', with at least one digit
      ("5", "5.", ".5" and "5.25" all qualify). */
  predicate IsDecimal(m: string) {
    && (exists i :: 0 <= i < |m| && IsDigit(m[i]))
    && (forall i :: 0 <= i < |m| ==> IsDigit(m[i]) || m[i] == '.')
    && (forall i, j :: 0 <= i < j < |m| && m[i] == '.' ==> m[j] != '.')
  }

  /** An exponent: 'e' or 'E', an optional sign, then one or more digits. */
  predicate IsExponent(x: string) {
    && |x| >= 1 && (x[0] == 'e' || x[0] == 'E')
    && var d := 1 + SignLength(x[1..]);
       && d < |x|
       && forall k :: d <= k < |x| ==> IsDigit(x[k])
  }

  /** PHP's `is_numeric` on a string: optional white space, an optional sign,
      a decimal mantissa, an optional exponent, and optional white space. */
  predicate IsNumeric(s: string) {
    var l := LayoutOf(s);
    && IsDecimal(s[l.digits..l.exponent])
    && (l.exponent == l.end || IsExponent(s[l.exponent..l.end]))
  }

  /** The numeral denotes a value below zero: a minus sign and a non-zero
      mantissa digit (an exponent scales the value but keeps its sign). */
  predicate IsNegative(s: string) {
    var l := LayoutOf(s);
    && l.start < l.end && s[l.start] == '-'
    && exists k :: l.digits <= k < l.exponent && '1' <= s[k] <= '9'
  }

  /** PHP `explode`: the pieces of `s` between occurrences of `sep`. */
  function Explode(s: string, sep: char): (parts: seq<string>)
    ensures |parts| >= 1
  {
    if |s| == 0 then [""]
    else
      var rest := Explode(s[1..], sep);
      if s[0] == sep then [""] + rest else [[s[0]] + rest[0]] + rest[1..]
  }

  lemma {:induction false} ExplodeNoSeparator(s: string, sep: char)
    requires forall i :: 0 <= i < |s| ==> s[i] != sep
    ensures Explode(s, sep) == [s]
  {
    if |s| > 0 {
      ExplodeNoSeparator(s[1..], sep);
      assert [s[0]] + s[1..] == s;
    }
  }

  lemma {:induction false} ExplodeOneSeparator(s: string, sep: char, k: nat)
    requires k < |s| && s[k] == sep
    requires forall i :: 0 <= i < |s| && i != k ==> s[i] != sep
    ensures |Explode(s, sep)| == 2 && Explode(s, sep)[1] == s[k + 1..]
  {
    if k == 0 {
      ExplodeNoSeparator(s[1..], sep);
    } else {
      ExplodeOneSeparator(s[1..], sep, k - 1);
      assert s[1..][k..] == s[k + 1..];
    }
  }

  /** `isValidAmount`: a numeral whose value is not below zero, with at most
      `maxDecimals` characters after its decimal point (an exponent written after
      the point counts among them, since `explode` keeps it in the second piece). */
  function IsValidAmount(s: string, maxDecimals: int): (ok: bool)
    ensures ok <==> && IsNumeric(s)
                    && !IsNegative(s)
                    && (forall k :: 0 <= k < |s| && s[k] == '.' ==> |s| - (k + 1) <= maxDecimals)
  {
    if !IsNumeric(s) || IsNegative(s) then false
    else
      var parts := Explode(s, '.');
      FractionIsSecondPart(s);
      !(|parts| > 1 && |parts[1]| > maxDecimals)
  }

  /** In a numeral every '.' lies in the mantissa, so there is at most one. */
  lemma DotsInMantissa(s: string)
    requires IsNumeric(s)
    ensures forall k :: 0 <= k < |s| && s[k] == '.' ==> LayoutOf(s).digits <= k < LayoutOf(s).exponent
    ensures forall k1, k2 :: 0 <= k1 < |s| && 0 <= k2 < |s| && s[k1] == '.' && s[k2] == '.' ==> k1 == k2
  {
    var l := LayoutOf(s);
    var m := s[l.digits..l.exponent];
    forall k | 0 <= k < |s| && (k < l.digits || l.exponent <= k)
      ensures s[k] != '.'
    {
      if l.start <= k < l.digits {
        assert s[l.start..l.end][0] == s[k];
      } else if l.exponent <= k < l.end {
        var x := s[l.exponent..l.end];
        assert x[k - l.exponent] == s[k];
        if l.exponent < k < l.exponent + 1 + SignLength(x[1..]) {
          assert x[1..][0] == s[k];
        }
      }
    }
    forall k1, k2 | 0 <= k1 < |s| && 0 <= k2 < |s| && s[k1] == '.' && s[k2] == '.'
      ensures k1 == k2
    {
      assert m[k1 - l.digits] == s[k1] && m[k2 - l.digits] == s[k2];
    }
  }

  /** In a numeral the second `explode` piece is exactly the text after the '.'. */
  lemma FractionIsSecondPart(s: string)
    requires IsNumeric(s)
    ensures var parts := Explode(s, '.');
            && (|parts| == 1 <==> forall k :: 0 <= k < |s| ==> s[k] != '.')
            && forall k :: 0 <= k < |s| && s[k] == '.' ==> |parts| == 2 && parts[1] == s[k + 1..]
  {
    DotsInMantissa(s);
    if k :| 0 <= k < |s| && s[k] == '.' {
      ExplodeOneSeparator(s, '.', k);
    } else {
      ExplodeNoSeparator(s, '.');
    }
  }

  /** The forms `is_numeric` accepts beyond plain decimals: an exponent and
      surrounding white space pass. */
  lemma ExponentAndSpacesAccepted()
    ensures IsValidAmount("1e5", 2) && IsValidAmount(" 5", 2) && IsValidAmount("5\n", 2)
  {
    assert LayoutOf("1e5") == Layout(0, 0, 1, 3);
    assert IsDigit("1e5"[0]);
    assert LayoutOf(" 5") == Layout(1, 1, 2, 2);
    assert IsDigit(" 5"[1]);
    assert LayoutOf("5\n") == Layout(0, 0, 1, 1);
    assert IsDigit("5\n"[0]);
  }

  /** A bare fraction and a negative zero pass; a negative value and the empty string fail. */
  lemma SignedAmountsExamples()
    ensures IsValidAmount(".5", 2) && IsValidAmount("-0", 2)
    ensures !IsValidAmount("-1e5", 2) && !IsValidAmount("", 2)
  {
    assert LayoutOf(".5") == Layout(0, 0, 2, 2);
    assert IsDigit(".5"[1]);
    assert LayoutOf("-0") == Layout(0, 1, 2, 2);
    assert IsDigit("-0"[1]);
    assert LayoutOf("-1e5") == Layout(0, 1, 2, 4);
    assert '1' <= "-1e5"[1] <= '9';
    assert LayoutOf("") == Layout(0, 0, 0, 0);
  }

  /** A fraction piece that runs on into an exponent counts as too many decimals;
      an exponent without digits and a sign apart from its digits are not numeric. */
  lemma MalformedAmountsRejected()
    ensures !IsValidAmount("1.5e5", 2) && !IsValidAmount("1e", 2) && !IsValidAmount("- 5", 2)
  {
    assert LayoutOf("1.5e5") == Layout(0, 0, 3, 5);
    assert IsDigit("1.5e5"[0]) && "1.5e5"[1] == '.';
    assert LayoutOf("1e") == Layout(0, 0, 1, 2);
    assert LayoutOf("- 5") == Layout(0, 1, 3, 3);
    assert !IsDigit("- 5"[1]);
  }
}

=== FILE: outcomes.dfy ===
/** Option and Result values shared by every part of the wallet model.
    A PHP method that may throw is modelled as a function returning a Result. */
module Outcomes {

  datatype Option<+T> = None | Some(value: T) {
    function GetOr(default: T): T {
      match this
      case Some(v) => v
      case None => default
    }
  }

  datatype Result<+R, +E> = Success(value: R) | Failure(error: E) {
    predicate IsFailure() {
      Failure?
    }

    function PropagateFailure<U>(): Result<U, E>
      requires Failure?
    {
      Failure(error)
    }

    function Extract(): R
      requires Success?
    {
      value
    }
  }
}

=== FILE: repair.dfy ===
/** The offline repair tool FixConcurrencyIssues, as pure transformations of one
    wallet's ledger: re-chaining the stored entries, replaying the wallet's completed
    history into a fresh ledger, and bringing the wallet's balance in line with the
    ledger. */
module Repair {
  import opened Outcomes
  import opened Money
  import opened Ledger

  /** 0.01: a difference greater than this counts as a gap, compared in exact cents
      (PHP compares doubles, where a one-cent gap can come out above it). */
  const Tolerance: Cents := 1

  /** An entry whose balance before is further than the tolerance from the balance expected. */
  predicate Gap(e: Entry, expected: Cents) {
    Abs(e.balanceBefore - expected) > Tolerance
  }

  /** The repair's own balance rule: a credit adds without a floor, a debit or a fee
      subtracts and stops at zero. */
  function RepairedAfter(t: EntryType, before: Cents, amount: Cents): Cents {
    match t
    case Credit => before + amount
    case Debit => FloorAtZero(before - amount)
    case Fee => FloorAtZero(before - amount)
  }

  /** An entry moved to start at `expected`, its balance after recomputed. */
  function Refit(e: Entry, expected: Cents): (f: Entry)
    ensures f.balanceBefore == expected
    ensures f == e.(balanceBefore := f.balanceBefore, balanceAfter := f.balanceAfter)
  {
    e.(balanceBefore := expected, balanceAfter := RepairedAfter(e.entryType, expected, e.amount))
  }

  /** What one pass leaves behind: the wallet's entries and the number of gaps counted. */
  datatype Repaired = Repaired(entries: seq<Entry>, fixedCount: nat)

  /** The loop of `fixWalletLedger` from the point where the previous entry ended at
      `expected`. A gap is always counted; it is mended only outside a dry run, and the
      next entry is compared with this entry as it stands after the step. */
  function Pass(expected: Cents, es: seq<Entry>, dryRun: bool): (r: Repaired)
    ensures |r.entries| == |es|
    ensures r.fixedCount <= |es|
    ensures dryRun ==> r.entries == es
    decreases |es|
  {
    if |es| == 0 then Repaired([], 0)
    else
      var gap := Gap(es[0], expected);
      var f := if gap && !dryRun then Refit(es[0], expected) else es[0];
      var rest := Pass(f.balanceAfter, es[1..], dryRun);
      Repaired([f] + rest.entries, rest.fixedCount + (if gap then 1 else 0))
  }

  /** `fixWalletLedger`: the first entry is expected to start at 0. */
  function FixWalletLedger(es: seq<Entry>, dryRun: bool): (r: Repaired)
    ensures |r.entries| == |es|
    ensures dryRun ==> r.entries == es
  {
    Pass(0, es, dryRun)
  }

  /** Every entry starts within the tolerance of where its predecessor ended, and the
      first within the tolerance of `expected`. */
  predicate NearlyChainedFrom(expected: Cents, es: seq<Entry>) {
    && (|es| > 0 ==> !Gap(es[0], expected))
    && forall i :: 0 < i < |es| ==> !Gap(es[i], es[i - 1].balanceAfter)
  }

  lemma NearlyChainedTail(expected: Cents, es: seq<Entry>)
    requires |es| > 0 && NearlyChainedFrom(expected, es)
    ensures NearlyChainedFrom(es[0].balanceAfter, es[1..])
  {
    var tail := es[1..];
    forall i | 0 < i < |tail|
      ensures !Gap(tail[i], tail[i - 1].balanceAfter)
    {
      assert tail[i] == es[i + 1] && tail[i - 1] == es[i];
    }
  }

  lemma NearlyChainedCons(expected: Cents, f: Entry, rest: seq<Entry>)
    requires !Gap(f, expected) && NearlyChainedFrom(f.balanceAfter, rest)
    ensures NearlyChainedFrom(expected, [f] + rest)
  {
    var es := [f] + rest;
    forall i | 0 < i < |es|
      ensures !Gap(es[i], es[i - 1].balanceAfter)
    {
      assert es[i] == rest[i - 1];
      if i > 1 {
        assert es[i - 1] == rest[i - 2];
      }
    }
  }

  /** A pass that is not a dry run leaves no gap behind. */
  lemma {:induction false} PassCloses(expected: Cents, es: seq<Entry>)
    ensures NearlyChainedFrom(expected, Pass(expected, es, false).entries)
    decreases |es|
  {
    if |es| > 0 {
      var gap := Gap(es[0], expected);
      var f := if gap then Refit(es[0], expected) else es[0];
      assert !Gap(f, expected);
      PassCloses(f.balanceAfter, es[1..]);
      NearlyChainedCons(expected, f, Pass(f.balanceAfter, es[1..], false).entries);
    }
  }

  /** A ledger without gaps goes through a pass, dry or not, unchanged and with nothing counted. */
  lemma {:induction false} NoGapNoChange(expected: Cents, es: seq<Entry>, dryRun: bool)
    requires NearlyChainedFrom(expected, es)
    ensures Pass(expected, es, dryRun) == Repaired(es, 0)
    decreases |es|
  {
    if |es| > 0 {
      NearlyChainedTail(expected, es);
      NoGapNoChange(es[0].balanceAfter, es[1..], dryRun);
      assert [es[0]] + es[1..] == es;
    }
  }

  /** A pass counts nothing exactly when the ledger has no gap. */
  lemma {:induction false} NothingCountedIffNoGap(expected: Cents, es: seq<Entry>, dryRun: bool)
    ensures Pass(expected, es, dryRun).fixedCount == 0 <==> NearlyChainedFrom(expected, es)
    decreases |es|
  {
    if |es| > 0 {
      var gap := Gap(es[0], expected);
      var f := if gap && !dryRun then Refit(es[0], expected) else es[0];
      var rest := Pass(f.balanceAfter, es[1..], dryRun);
      NothingCountedIffNoGap(f.balanceAfter, es[1..], dryRun);
      if Pass(expected, es, dryRun).fixedCount == 0 {
        assert !gap && f == es[0];
        NearlyChainedCons(expected, es[0], es[1..]);
        assert [es[0]] + es[1..] == es;
      } else if NearlyChainedFrom(expected, es) {
        NoGapNoChange(expected, es, dryRun);
      }
    }
  }

  /** The balance the `i`-th entry of a pass is compared with: `expected` for the first,
      the balance after of the entry before it, as the pass left it, for the others. */
  function ExpectedAt(expected: Cents, rs: seq<Entry>, i: nat): Cents
    requires i <= |rs|
  {
    if i == 0 then expected else rs[i - 1].balanceAfter
  }

  /** The `i`-th entry of a pass is the stored one refitted when it had a gap outside a
      dry run, and the stored one untouched otherwise. */
  predicate RefitOnlyOnGap(expected: Cents, es: seq<Entry>, rs: seq<Entry>, dryRun: bool, i: nat)
    requires i < |es| == |rs|
  {
    var exp := ExpectedAt(expected, rs, i);
    if Gap(es[i], exp) && !dryRun then rs[i] == Refit(es[i], exp) else rs[i] == es[i]
  }

  /** Every entry of a pass is either the stored entry or the stored entry refitted to
      the balance its predecessor ended at; a refitted entry is one that had a gap, and an
      entry without a gap keeps its balance after. */
  lemma {:induction false} PassOnlyRefits(expected: Cents, es: seq<Entry>, dryRun: bool)
    ensures forall i :: 0 <= i < |es| ==> RefitOnlyOnGap(expected, es, Pass(expected, es, dryRun).entries, dryRun, i)
    decreases |es|
  {
    if |es| > 0 {
      var gap := Gap(es[0], expected);
      var f := if gap && !dryRun then Refit(es[0], expected) else es[0];
      var rest := Pass(f.balanceAfter, es[1..], dryRun).entries;
      PassOnlyRefits(f.balanceAfter, es[1..], dryRun);
      var rs := Pass(expected, es, dryRun).entries;
      assert rs == [f] + rest;
      forall i | 0 <= i < |es|
        ensures RefitOnlyOnGap(expected, es, rs, dryRun, i)
      {
        if i > 0 {
          var j := i - 1;
          assert RefitOnlyOnGap(f.balanceAfter, es[1..], rest, dryRun, j);
          assert rs[i] == rest[j] && es[i] == es[1..][j];
          assert ExpectedAt(f.balanceAfter, rest, j) == ExpectedAt(expected, rs, i);
        }
      }
    }
  }

  /** Re-chaining is idempotent: a second pass finds no gap and changes nothing. */
  lemma RechainIdempotent(es: seq<Entry>)
    ensures var once := FixWalletLedger(es, false).entries;
            FixWalletLedger(once, false) == Repaired(once, 0)
  {
    var once := FixWalletLedger(es, false).entries;
    PassCloses(0, es);
    NoGapNoChange(0, once, false);
  }

  /** A ledger the writer produced is continuous, so the repair finds nothing to mend. */
  lemma WrittenLedgerNeedsNoRepair(w: WalletId, es: seq<Entry>, dryRun: bool)
    requires WrittenLedger(w, es)
    ensures FixWalletLedger(es, dryRun) == Repaired(es, 0)
  {
    assert NearlyChainedFrom(0, es);
    NoGapNoChange(0, es, dryRun);
  }

  /** A ledger with one stored balance knocked out of line: credits of 100.00 and 50.00
      where the second entry claims to start at 90.00. The pass restarts it at 100.00,
      ends it at 150.00, and counts one gap; a dry run counts the same gap and writes nothing. */
  lemma RepairExample()
    ensures var e1 := Entry("t1", 1, Credit, 10000, 0, 10000, DepositRef, 1, None);
            var e2 := Entry("t2", 1, Credit, 5000, 9000, 14000, DepositRef, 2, None);
            && FixWalletLedger([e1, e2], false)
               == Repaired([e1, e2.(balanceBefore := 10000, balanceAfter := 15000)], 1)
            && FixWalletLedger([e1, e2], true) == Repaired([e1, e2], 1)
  {
    var e1 := Entry("t1", 1, Credit, 10000, 0, 10000, DepositRef, 1, None);
    var e2 := Entry("t2", 1, Credit, 5000, 9000, 14000, DepositRef, 2, None);
    assert [e1, e2][1..] == [e2];
    assert [e2][1..] == [];
  }

  // ---------------------------------------------------------------------------
  // Rebuilding a wallet's ledger from its completed history

  /** One completed operation of the wallet, as the rebuild collects it: the
      transaction id, the amount and the id of the detail record. */
  datatype HistoryEvent =
    | DepositEvent(transactionId: string, amount: Cents, recordId: nat)
    | WithdrawalEvent(transactionId: string, amount: Cents, recordId: nat)
    | TransferSent(transactionId: string, amount: Cents, fee: Cents, recordId: nat)
    | TransferReceived(transactionId: string, amount: Cents, recordId: nat)

  function ReferenceName(t: ReferenceType): string {
    match t
    case DepositRef => "deposit"
    case WithdrawalRef => "withdrawal"
    case TransferRef => "transfer"
  }

  function DigitChar(d: nat): char
    requires d < 10
  {
    "0123456789"[d]
  }

  function NatToString(n: nat): string
    decreases n
  {
    if n < 10 then [DigitChar(n)] else NatToString(n / 10) + [DigitChar(n % 10)]
  }

  /** `createLedgerEntry`: the entry the rebuild writes, described by what it was rebuilt from. */
  function RebuiltEntry(
    w: WalletId, transactionId: string, t: EntryType, amount: Cents,
    before: Cents, after: Cents, ref: ReferenceType, refId: nat): Entry
  {
    Entry(transactionId, w, t, amount, before, after, ref, refId,
          Some("Rebuilt from " + ReferenceName(ref) + " " + NatToString(refId)))
  }

  /** The entries one event contributes when the running balance is `balance`: a credit
      for money in, a debit floored at zero for money out, and after a sent transfer a fee
      entry only when the fee is positive. */
  function ReplayEvent(w: WalletId, balance: Cents, ev: HistoryEvent): (es: seq<Entry>)
    ensures 1 <= |es| <= 2
    ensures |es| == 2 <==> ev.TransferSent? && ev.fee > 0
    ensures forall i :: 0 <= i < |es| ==> es[i].walletId == w && es[i].transactionId == ev.transactionId
    ensures es[0].amount == ev.amount && es[0].balanceBefore == balance
    ensures es[0].entryType == Credit <==> ev.DepositEvent? || ev.TransferReceived?
    ensures es[0].entryType != Credit ==> es[0].entryType == Debit
    ensures es[0].entryType == Credit ==> es[0].balanceAfter == balance + ev.amount
    ensures es[0].entryType == Debit ==> es[0].balanceAfter == FloorAtZero(balance - ev.amount)
    ensures |es| == 2 ==> && es[1].entryType == Fee && es[1].amount == ev.fee
                          && es[1].balanceBefore == es[0].balanceAfter
                          && es[1].balanceAfter == FloorAtZero(es[0].balanceAfter - ev.fee)
  {
    match ev
    case DepositEvent(tx, amount, id) =>
      [RebuiltEntry(w, tx, Credit, amount, balance, balance + amount, DepositRef, id)]
    case WithdrawalEvent(tx, amount, id) =>
      [RebuiltEntry(w, tx, Debit, amount, balance, FloorAtZero(balance - amount), WithdrawalRef, id)]
    case TransferSent(tx, amount, fee, id) =>
      var after := FloorAtZero(balance - amount);
      var debit := RebuiltEntry(w, tx, Debit, amount, balance, after, TransferRef, id);
      if fee > 0 then [debit, RebuiltEntry(w, tx, Fee, fee, after, FloorAtZero(after - fee), TransferRef, id)]
      else [debit]
    case TransferReceived(tx, amount, id) =>
      [RebuiltEntry(w, tx, Credit, amount, balance, balance + amount, TransferRef, id)]
  }

  /** The entries written by the replay and the running balance it ends with. */
  datatype Replayed = Replayed(entries: seq<Entry>, balance: Cents)

  /** The replay loop of `rebuildWalletLedger`, from running balance `balance`, over the
      events in the order of their transactions' creation. */
  function Replay(w: WalletId, balance: Cents, events: seq<HistoryEvent>): (r: Replayed)
    ensures |r.entries| >= |events|
    decreases |events|
  {
    if |events| == 0 then Replayed([], balance)
    else
      var es := ReplayEvent(w, balance, events[0]);
      var rest := Replay(w, es[|es| - 1].balanceAfter, events[1..]);
      Replayed(es + rest.entries, rest.balance)
  }

  /** Every amount the history carries is non-negative, as stored amounts are. */
  predicate NonNegativeAmounts(events: seq<HistoryEvent>) {
    forall i :: 0 <= i < |events| ==> events[i].amount >= 0 && (events[i].TransferSent? ==> events[i].fee >= 0)
  }

  /** The number of fee entries the replay adds: one per sent transfer with a positive fee. */
  function FeeEntries(events: seq<HistoryEvent>): nat
    decreases |events|
  {
    if |events| == 0 then 0
    else (if events[0].TransferSent? && events[0].fee > 0 then 1 else 0) + FeeEntries(events[1..])
  }

  /** A ledger continuing from `start`: chained from that balance, every entry obeying
      the writer's rule and owned by `w`. */
  predicate WrittenFrom(w: WalletId, start: Cents, es: seq<Entry>) {
    && (|es| > 0 ==> es[0].balanceBefore == start)
    && (forall i :: 0 < i < |es| ==> es[i].balanceBefore == es[i - 1].balanceAfter)
    && (forall i :: 0 <= i < |es| ==> FollowsRule(es[i]) && es[i].walletId == w)
  }

  lemma WrittenFromAppend(w: WalletId, start: Cents, a: seq<Entry>, b: seq<Entry>)
    requires |a| > 0 && WrittenFrom(w, start, a) && WrittenFrom(w, a[|a| - 1].balanceAfter, b)
    ensures WrittenFrom(w, start, a + b)
  {
    var es := a + b;
    forall i | 0 < i < |es|
      ensures es[i].balanceBefore == es[i - 1].balanceAfter
    {
      if i < |a| {
        assert es[i] == a[i] && es[i - 1] == a[i - 1];
      } else if i == |a| {
        assert es[i] == b[0] && es[i - 1] == a[|a| - 1];
      } else {
        assert es[i] == b[i - |a|] && es[i - 1] == b[i - 1 - |a|];
      }
    }
    forall i | 0 <= i < |es|
      ensures FollowsRule(es[i]) && es[i].walletId == w
    {
      if i < |a| {
        assert es[i] == a[i];
      } else {
        assert es[i] == b[i - |a|];
      }
    }
  }

  /** The entries of one event continue the ledger from the running balance and obey
      the writer's rule, and the balance never goes below zero. */
  lemma ReplayEventWritten(w: WalletId, balance: Cents, ev: HistoryEvent)
    requires balance >= 0 && ev.amount >= 0 && (ev.TransferSent? ==> ev.fee >= 0)
    ensures var es := ReplayEvent(w, balance, ev);
            WrittenFrom(w, balance, es) && es[|es| - 1].balanceAfter >= 0
  {
  }

  lemma NonNegativeTail(events: seq<HistoryEvent>)
    requires |events| > 0 && NonNegativeAmounts(events)
    ensures NonNegativeAmounts(events[1..])
    ensures events[0].amount >= 0 && (events[0].TransferSent? ==> events[0].fee >= 0)
  {
    forall i | 0 <= i < |events[1..]|
      ensures events[1..][i].amount >= 0 && (events[1..][i].TransferSent? ==> events[1..][i].fee >= 0)
    {
      assert events[1..][i] == events[i + 1];
    }
  }

  /** The replay yields a continuous ledger whose last entry ends at the final running
      balance, with one entry per event plus one fee entry per sent transfer with a
      positive fee. */
  lemma {:induction false} ReplayWritten(w: WalletId, balance: Cents, events: seq<HistoryEvent>)
    requires balance >= 0 && NonNegativeAmounts(events)
    ensures var r := Replay(w, balance, events);
            && WrittenFrom(w, balance, r.entries)
            && r.balance == (if |r.entries| == 0 then balance else r.entries[|r.entries| - 1].balanceAfter)
            && |r.entries| == |events| + FeeEntries(events)
    decreases |events|
  {
    if |events| > 0 {
      var es := ReplayEvent(w, balance, events[0]);
      var next := es[|es| - 1].balanceAfter;
      ReplayEventWritten(w, balance, events[0]);
      NonNegativeTail(events);
      ReplayWritten(w, next, events[1..]);
      var rest := Replay(w, next, events[1..]);
      assert Replay(w, balance, events) == Replayed(es + rest.entries, rest.balance);
      assert FeeEntries(events) == |es| - 1 + FeeEntries(events[1..]);
      WrittenFromAppend(w, balance, es, rest.entries);
      var all := es + rest.entries;
      if |rest.entries| > 0 {
        assert all[|all| - 1] == rest.entries[|rest.entries| - 1];
      }
    }
  }

  /** Replayed from zero, the history gives a ledger the writer could have written, and the
      final running balance is its last entry's balance after. */
  lemma ReplayFromZeroIsWritten(w: WalletId, events: seq<HistoryEvent>)
    requires NonNegativeAmounts(events)
    ensures var r := Replay(w, 0, events);
            WrittenLedger(w, r.entries) && r.balance == LastBalance(r.entries)
  {
    ReplayWritten(w, 0, events);
  }

  /** A sent transfer without a fee is replayed as a single debit, unlike the live
      transfer, which always writes a fee entry. */
  lemma ZeroFeeTransferHasNoFeeEntry(w: WalletId, balance: Cents, tx: string, amount: Cents, id: nat)
    ensures var es := ReplayEvent(w, balance, TransferSent(tx, amount, 0, id));
            |es| == 1 && es[0].entryType == Debit
  {
  }

  /** What a per-wallet repair step leaves: the wallet's balance, its entries, and the
      number of issues it counted. */
  datatype WalletRepair = WalletRepair(balance: Cents, entries: seq<Entry>, fixedCount: nat)

  /** `rebuildWalletLedger`: outside a dry run the wallet's entries are replaced by the
      replay from zero and its balance set to the final running balance; every replayed
      entry is counted, dry run or not. */
  function RebuildWalletLedger(
    w: WalletId, balance: Cents, entries: seq<Entry>, events: seq<HistoryEvent>, dryRun: bool
  ): (r: WalletRepair)
    ensures dryRun ==> r.balance == balance && r.entries == entries
    ensures r.fixedCount == |Replay(w, 0, events).entries|
    ensures !dryRun ==> r.entries == Replay(w, 0, events).entries
    ensures !dryRun ==> r.balance == Replay(w, 0, events).balance
  {
    var replayed := Replay(w, 0, events);
    if dryRun then WalletRepair(balance, entries, |replayed.entries|)
    else WalletRepair(replayed.balance, replayed.entries, |replayed.entries|)
  }

  /** The decision of `recalculateWalletBalances` for one wallet. */
  datatype BalanceAction = Keep | SetBalance(balance: Cents) | Rebuild

  /** The balance rule: a wallet with entries takes its last entry's balance after when
      the two differ by more than the tolerance; a wallet without entries but with a
      non-zero balance is rebuilt from its history. */
  function BalanceRule(balance: Cents, entries: seq<Entry>): (a: BalanceAction)
    ensures a.SetBalance? <==> |entries| > 0 && Abs(balance - LastBalance(entries)) > Tolerance
    ensures a.SetBalance? ==> a.balance == LastBalance(entries)
    ensures a.Rebuild? <==> |entries| == 0 && balance != 0
  {
    if |entries| > 0 then
      var correct := entries[|entries| - 1].balanceAfter;
      if Abs(balance - correct) > Tolerance then SetBalance(correct) else Keep
    else if balance != 0 then Rebuild
    else Keep
  }

  /** One wallet's turn in `recalculateWalletBalances`. */
  function RecalculateWalletBalance(
    w: WalletId, balance: Cents, entries: seq<Entry>, events: seq<HistoryEvent>, dryRun: bool
  ): (r: WalletRepair)
    ensures dryRun ==> r.balance == balance && r.entries == entries
    ensures r.fixedCount == 0 <==>
              (BalanceRule(balance, entries).Keep? || (BalanceRule(balance, entries).Rebuild? && |events| == 0))
    ensures BalanceRule(balance, entries).Keep? ==> r.balance == balance
    ensures !dryRun && BalanceRule(balance, entries).SetBalance? ==> r.balance == LastBalance(entries)
    ensures !BalanceRule(balance, entries).Rebuild? ==> r.entries == entries
    ensures !dryRun && BalanceRule(balance, entries).Rebuild? ==>
              r.entries == Replay(w, 0, events).entries && r.balance == Replay(w, 0, events).balance
  {
    match BalanceRule(balance, entries)
    case Keep => WalletRepair(balance, entries, 0)
    case SetBalance(correct) => WalletRepair(if dryRun then balance else correct, entries, 1)
    case Rebuild => RebuildWalletLedger(w, balance, entries, events, dryRun)
  }

  /** Outside a dry run, recalculation leaves the wallet's balance within the tolerance of
      its last entry's balance after. */
  lemma RecalculatedBalanceAgrees(
    w: WalletId, balance: Cents, entries: seq<Entry>, events: seq<HistoryEvent>)
    requires NonNegativeAmounts(events)
    ensures var r := RecalculateWalletBalance(w, balance, entries, events, false);
            Abs(r.balance - LastBalance(r.entries)) <= Tolerance
  {
    ReplayFromZeroIsWritten(w, events);
  }

  /** Recalculation settles: a second run over its own result finds nothing to do. */
  lemma RecalculateSettles(
    w: WalletId, balance: Cents, entries: seq<Entry>, events: seq<HistoryEvent>)
    requires NonNegativeAmounts(events)
    ensures var r := RecalculateWalletBalance(w, balance, entries, events, false);
            RecalculateWalletBalance(w, r.balance, r.entries, events, false) == WalletRepair(r.balance, r.entries, 0)
  {
    RecalculatedBalanceAgrees(w, balance, entries, events);
    ReplayFromZeroIsWritten(w, events);
  }

  /** The default run of the tool for one wallet: re-chain its ledger, then recalculate
      its balance. Outside a dry run the ledger is left without gaps and the balance
      within the tolerance of the ledger's last balance. */
  lemma RepairLeavesWalletConsistent(
    w: WalletId, balance: Cents, entries: seq<Entry>, events: seq<HistoryEvent>)
    requires NonNegativeAmounts(events)
    ensures var fixed := FixWalletLedger(entries, false).entries;
            var r := RecalculateWalletBalance(w, balance, fixed, events, false);
            && NearlyChainedFrom(0, r.entries)
            && Abs(r.balance - LastBalance(r.entries)) <= Tolerance
  {
    var fixed := FixWalletLedger(entries, false).entries;
    PassCloses(0, entries);
    RecalculatedBalanceAgrees(w, balance, fixed, events);
    if |fixed| == 0 && balance != 0 {
      ReplayFromZeroIsWritten(w, events);
    }
  }
}

=== FILE: store.dfy ===
/** The rows the services read and write: wallets, transactions, the detail record of
    each kind of transaction, and the ledger entries. A storage transaction that throws
    is rolled back, which the model expresses by carrying on with the store as it was. */
module Store {
  import opened Outcomes
  import opened Money
  import opened Ledger

  /** Wallet statuses seen in the schema and factories; the services only ever ask whether it is `active`. */
  datatype WalletStatus = Active | Inactive | Suspended | Closed

  /** A wallet row; its id is the key it is stored under. */
  datatype Wallet = Wallet(walletNumber: string, balance: Cents, status: WalletStatus)

  datatype TransactionType = DepositTransaction | WithdrawalTransaction | TransferTransaction

  datatype TransactionStatus = Pending | Processing | Completed | Failed

  /** A transactions row. `completedAt` is a timestamp supplied by the caller. */
  datatype Transaction = Transaction(
    transactionId: string,
    transactionType: TransactionType,
    idempotencyKey: Option<string>,
    amount: Cents,
    fee: Cents,
    status: TransactionStatus,
    completedAt: Option<int>)

  datatype DepositRecord = DepositRecord(
    id: nat, transactionId: string, walletId: WalletId, amount: Cents,
    paymentMethod: string, paymentReference: Option<string>)

  datatype WithdrawalRecord = WithdrawalRecord(
    id: nat, transactionId: string, walletId: WalletId, amount: Cents,
    withdrawalMethod: string, withdrawalReference: Option<string>)

  datatype TransferRecord = TransferRecord(
    id: nat, transactionId: string, senderWalletId: WalletId, receiverWalletId: WalletId,
    amount: Cents, fee: Cents)

  /** The database. Transactions are keyed by their generated transaction id; detail
      records are kept in insertion order, so a record's id is its position plus one. */
  datatype Store = Store(
    wallets: map<WalletId, Wallet>,
    transactions: map<string, Transaction>,
    deposits: seq<DepositRecord>,
    withdrawals: seq<WithdrawalRecord>,
    transfers: seq<TransferRecord>,
    ledgers: Ledgers)

  /** The idempotency keys carried by some transaction row. */
  function UsedKeys(s: Store): set<string> {
    set t | t in s.transactions.Values && t.idempotencyKey.Some? :: t.idempotencyKey.value
  }

  /** Inserting a new transaction row: its key, if any, becomes used and no other key does. */
  function InsertTransaction(s: Store, t: Transaction): (r: Store)
    requires t.transactionId !in s.transactions
    ensures r.transactions == s.transactions[t.transactionId := t]
    ensures r.wallets == s.wallets && r.ledgers == s.ledgers
    ensures r.deposits == s.deposits && r.withdrawals == s.withdrawals && r.transfers == s.transfers
    ensures t.idempotencyKey.None? ==> UsedKeys(r) == UsedKeys(s)
    ensures t.idempotencyKey.Some? ==> UsedKeys(r) == UsedKeys(s) + {t.idempotencyKey.value}
  {
    var r := s.(transactions := s.transactions[t.transactionId := t]);
    assert r.transactions.Values == s.transactions.Values + {t} by {
      forall v | v in r.transactions.Values ensures v in s.transactions.Values + {t} {
        var k :| k in r.transactions && r.transactions[k] == v;
      }
      forall v | v in s.transactions.Values + {t} ensures v in r.transactions.Values {
        if v != t {
          var k :| k in s.transactions && s.transactions[k] == v;
          assert r.transactions[k] == v;
        } else {
          assert r.transactions[t.transactionId] == t;
        }
      }
    }
    r
  }

  /** `repository->update($transaction, [...])` of status and completion time. The key
      column is never changed, so the used keys stay the same. */
  function UpdateTransaction(s: Store, transactionId: string, status: TransactionStatus, completedAt: Option<int>): (r: Store)
    requires transactionId in s.transactions
    ensures r.transactions == s.transactions[transactionId := s.transactions[transactionId].(status := status, completedAt := completedAt)]
    ensures r.wallets == s.wallets && r.ledgers == s.ledgers
    ensures r.deposits == s.deposits && r.withdrawals == s.withdrawals && r.transfers == s.transfers
    ensures UsedKeys(r) == UsedKeys(s)
  {
    var t := s.transactions[transactionId];
    ReplaceKeepsKeys(s, transactionId, t.(status := status, completedAt := completedAt));
    s.(transactions := s.transactions[transactionId := t.(status := status, completedAt := completedAt)])
  }

  /** `update($transaction, ['status' => ...])` that leaves the completion time as it is. */
  function SetStatus(s: Store, transactionId: string, status: TransactionStatus): (r: Store)
    requires transactionId in s.transactions
    ensures r.transactions == s.transactions[transactionId := s.transactions[transactionId].(status := status)]
    ensures r.wallets == s.wallets && r.ledgers == s.ledgers
    ensures r.deposits == s.deposits && r.withdrawals == s.withdrawals && r.transfers == s.transfers
    ensures UsedKeys(r) == UsedKeys(s)
  {
    UpdateTransaction(s, transactionId, status, s.transactions[transactionId].completedAt)
  }

  /** `update($transaction, ['fee' => ...])`. */
  function SetFee(s: Store, transactionId: string, fee: Cents): (r: Store)
    requires transactionId in s.transactions
    ensures r.transactions == s.transactions[transactionId := s.transactions[transactionId].(fee := fee)]
    ensures r.wallets == s.wallets && r.ledgers == s.ledgers
    ensures r.deposits == s.deposits && r.withdrawals == s.withdrawals && r.transfers == s.transfers
    ensures UsedKeys(r) == UsedKeys(s)
  {
    var t := s.transactions[transactionId];
    ReplaceKeepsKeys(s, transactionId, t.(fee := fee));
    s.(transactions := s.transactions[transactionId := t.(fee := fee)])
  }

  /** Marking a freshly inserted row failed is the same as having inserted it failed. */
  lemma FailInserted(s: Store, t: Transaction)
    requires t.transactionId !in s.transactions
    ensures SetStatus(InsertTransaction(s, t), t.transactionId, Failed) == InsertTransaction(s, t.(status := Failed))
    ensures UpdateTransaction(InsertTransaction(s, t), t.transactionId, Failed, None) ==
            InsertTransaction(s, t.(status := Failed, completedAt := None))
  {
    var a := SetStatus(InsertTransaction(s, t), t.transactionId, Failed);
    var b := InsertTransaction(s, t.(status := Failed));
    assert a.transactions == b.transactions;
    var c := UpdateTransaction(InsertTransaction(s, t), t.transactionId, Failed, None);
    var d := InsertTransaction(s, t.(status := Failed, completedAt := None));
    assert c.transactions == d.transactions;
  }

  /** Replacing a row by one with the same idempotency key leaves the used keys alone. */
  lemma ReplaceKeepsKeys(s: Store, transactionId: string, t: Transaction)
    requires transactionId in s.transactions
    requires t.idempotencyKey == s.transactions[transactionId].idempotencyKey
    ensures UsedKeys(s.(transactions := s.transactions[transactionId := t])) == UsedKeys(s)
  {
    var r := s.(transactions := s.transactions[transactionId := t]);
    forall k | k in UsedKeys(r) ensures k in UsedKeys(s) {
      var v :| v in r.transactions.Values && v.idempotencyKey == Some(k);
      var id :| id in r.transactions && r.transactions[id] == v;
      if id == transactionId {
        assert s.transactions[transactionId] in s.transactions.Values;
      } else {
        assert s.transactions[id] in s.transactions.Values;
      }
    }
    forall k | k in UsedKeys(s) ensures k in UsedKeys(r) {
      var v :| v in s.transactions.Values && v.idempotencyKey == Some(k);
      var id :| id in s.transactions && s.transactions[id] == v;
      if id == transactionId {
        assert r.transactions[transactionId] in r.transactions.Values;
      } else {
        assert r.transactions[id] in r.transactions.Values;
      }
    }
  }

  /** Two states of the wallets table that differ at most in balances. */
  predicate SameAccounts(a: map<WalletId, Wallet>, b: map<WalletId, Wallet>) {
    && a.Keys == b.Keys
    && forall w :: w in a ==> b[w].walletNumber == a[w].walletNumber && b[w].status == a[w].status
  }

  /** The unique index on `wallet_number`. */
  predicate UniqueNumbers(wallets: map<WalletId, Wallet>) {
    forall a, b :: a in wallets && b in wallets && wallets[a].walletNumber == wallets[b].walletNumber ==> a == b
  }

  /** `getByKey('wallet_number', number)->first()`. */
  function FindByNumber(wallets: map<WalletId, Wallet>, number: string): (r: Option<WalletId>)
    requires UniqueNumbers(wallets)
    ensures r.Some? <==> exists id :: id in wallets && wallets[id].walletNumber == number
    ensures r.Some? ==> r.value in wallets && wallets[r.value].walletNumber == number
  {
    if exists id :: id in wallets && wallets[id].walletNumber == number then
      var id :| id in wallets && wallets[id].walletNumber == number;
      Some(id)
    else None
  }

  /** Changing balances keeps wallet numbers unique. */
  lemma SameAccountsKeepUnique(a: map<WalletId, Wallet>, b: map<WalletId, Wallet>)
    requires SameAccounts(a, b) && UniqueNumbers(a)
    ensures UniqueNumbers(b)
  {
  }
}

=== FILE: transactions.dfy ===
/** TransactionService: deposits and withdrawals, each admitted by the idempotency guard
    and run under the wallet's named lock inside one storage transaction. */
module TransactionService {
  import opened Outcomes
  import opened Money
  import opened Ledger
  import opened Store
  import opened Locks
  import opened Errors
  import opened Idempotency

  /** How many times a busy wallet lock is tried before giving up. */
  const MaxRetryAttempts: nat := 3

  /** The payment or withdrawal method used when the request names none. */
  const DefaultMethod: string := "bank_transfer"

  /** Whether one of `tries` consecutive attempts obtains `name`. A lock that is held
      when the attempts start stays held by its owner throughout them. */
  function AcquiredWithin(held: map<LockName, nat>, name: LockName, outcomes: seq<bool>, tries: nat): bool
    decreases tries
  {
    tries > 0 && name !in held && (NextOutcome(outcomes) || AcquiredWithin(held, name, RestOutcomes(outcomes), tries - 1))
  }

  /** The request fields a deposit reads. */
  datatype DepositRequest = DepositRequest(
    walletId: WalletId, amount: Cents, paymentMethod: Option<string>,
    paymentReference: Option<string>, idempotencyKey: string)

  /** The request fields a withdrawal reads. */
  datatype WithdrawalRequest = WithdrawalRequest(
    walletId: WalletId, amount: Cents, withdrawalMethod: Option<string>,
    withdrawalReference: Option<string>, idempotencyKey: string)

  /** The callback handed to `executeWithWalletLock`, with what it captures: the request,
      the new transaction's id and the clock reading used for `completed_at`. */
  datatype WalletOperation =
    | DepositOperation(deposit: DepositRequest, transactionId: string, now: int)
    | WithdrawOperation(withdrawal: WithdrawalRequest, transactionId: string, now: int)

  /** The result of a locked operation: the store after it, the lock provider, and the
      transaction row returned or the exception thrown. */
  datatype Outcome = Outcome(store: Store, provider: Provider, result: Result<Transaction, Error>)

  /** The deposit callback, given the wallet row re-read under the row lock. */
  function DepositBody(st: Store, walletId: WalletId, wallet: Wallet, req: DepositRequest, transactionId: string, now: int): (r: Result<Store, Error>)
    requires transactionId in st.transactions
    requires walletId in st.wallets && wallet == st.wallets[walletId]
    ensures r.Failure? <==> wallet.status != Active
    ensures r.Failure? ==> r.error == WalletNotAvailable
    ensures r.Success? ==>
              && Applied(st, r.value, walletId, req.amount, Credit, req.amount, transactionId, now)
              && r.value.deposits == st.deposits + [DepositRecord(|st.deposits| + 1, transactionId, walletId, req.amount,
                                                                   req.paymentMethod.GetOr(DefaultMethod), req.paymentReference)]
              && r.value.withdrawals == st.withdrawals && r.value.transfers == st.transfers
              && r.value.transactions == st.transactions[transactionId := st.transactions[transactionId].(status := Completed, completedAt := Some(now))]
              && UsedKeys(r.value) == UsedKeys(st)
  {
    var processing := SetStatus(st, transactionId, Processing);
    if wallet.status != Active then Failure(WalletNotAvailable)
    else
      PairIsExact(wallet.balance, req.amount);
      var newBalance := CalculateWithPrecision("add", [wallet.balance, req.amount]).value;
      var credited := processing.(wallets := processing.wallets[walletId := wallet.(balance := newBalance)]);
      var via := req.paymentMethod.GetOr(DefaultMethod);
      var record := DepositRecord(|credited.deposits| + 1, transactionId, walletId, req.amount, via, req.paymentReference);
      var recorded := credited.(deposits := credited.deposits + [record]);
      var log := LegerEntryLog(recorded.ledgers, walletId, req.amount, "credit", transactionId,
                               DepositRef, record.id, Some("Deposit via " + via));
      assert log.Success?;
      var logged := recorded.(ledgers := log.value.ledgers);
      Success(UpdateTransaction(logged, transactionId, Completed, Some(now)))
  }

  /** The withdrawal callback, given the wallet row re-read under the row lock. */
  function WithdrawBody(st: Store, walletId: WalletId, wallet: Wallet, req: WithdrawalRequest, transactionId: string, now: int): (r: Result<Store, Error>)
    requires transactionId in st.transactions
    requires walletId in st.wallets && wallet == st.wallets[walletId]
    ensures r.Failure? <==> wallet.status != Active || wallet.balance < req.amount
    ensures wallet.status != Active ==> r == Failure(WalletNotAvailable)
    ensures wallet.status == Active && wallet.balance < req.amount ==> r == Failure(InsufficientBalance)
    ensures r.Success? ==>
              && Applied(st, r.value, walletId, -req.amount, Debit, req.amount, transactionId, now)
              && r.value.withdrawals == st.withdrawals + [WithdrawalRecord(|st.withdrawals| + 1, transactionId, walletId, req.amount,
                                                                           req.withdrawalMethod.GetOr(DefaultMethod), req.withdrawalReference)]
              && r.value.deposits == st.deposits && r.value.transfers == st.transfers
              && r.value.transactions == st.transactions[transactionId := st.transactions[transactionId].(status := Completed, completedAt := Some(now))]
              && UsedKeys(r.value) == UsedKeys(st)
  {
    var processing := SetStatus(st, transactionId, Processing);
    if wallet.status != Active then Failure(WalletNotAvailable)
    else if wallet.balance < req.amount then Failure(InsufficientBalance)
    else
      PairIsExact(wallet.balance, req.amount);
      var newBalance := CalculateWithPrecision("subtract", [wallet.balance, req.amount]).value;
      var debited := processing.(wallets := processing.wallets[walletId := wallet.(balance := newBalance)]);
      var via := req.withdrawalMethod.GetOr(DefaultMethod);
      var record := WithdrawalRecord(|debited.withdrawals| + 1, transactionId, walletId, req.amount, via, req.withdrawalReference);
      var recorded := debited.(withdrawals := debited.withdrawals + [record]);
      var log := LegerEntryLog(recorded.ledgers, walletId, req.amount, "debit", transactionId,
                               WithdrawalRef, record.id, Some("Withdrawal via " + via));
      assert log.Success?;
      var logged := recorded.(ledgers := log.value.ledgers);
      Success(UpdateTransaction(logged, transactionId, Completed, Some(now)))
  }

  function OperationTransactionId(op: WalletOperation): string {
    match op
    case DepositOperation(_, id, _) => id
    case WithdrawOperation(_, id, _) => id
  }

  /** Calls the callback. */
  function RunOperation(op: WalletOperation, st: Store, walletId: WalletId, wallet: Wallet): (r: Result<Store, Error>)
    requires OperationTransactionId(op) in st.transactions
    requires walletId in st.wallets && wallet == st.wallets[walletId]
    ensures r.Success? ==> OperationTransactionId(op) in r.value.transactions
  {
    match op
    case DepositOperation(req, id, now) => DepositBody(st, walletId, wallet, req, id, now)
    case WithdrawOperation(req, id, now) => WithdrawBody(st, walletId, wallet, req, id, now)
  }

  /** `executeWithWalletLock`. Each attempt makes a fresh lock handle. When the lock is
      obtained the wallet row is re-read and the callback runs inside a storage
      transaction, whose failure rolls every write back; otherwise the next attempt
      follows, up to the third. Every attempt's handle is released on the way out, which
      for a handle that never obtained its lock changes nothing. */
  function ExecuteWithWalletLock(s: Store, p: Provider, walletId: WalletId, op: WalletOperation, attempt: nat): (r: Outcome)
    requires Valid(p)
    requires OperationTransactionId(op) in s.transactions
    requires 1 <= attempt <= MaxRetryAttempts
    decreases MaxRetryAttempts - attempt
    ensures Valid(r.provider) && r.provider.held == p.held
    ensures r.result.Failure? ==> r.store == s
    ensures !AcquiredWithin(p.held, WalletLock(walletId), p.outcomes, MaxRetryAttempts - attempt + 1) ==>
              r.result == Failure(WalletLocked)
    ensures AcquiredWithin(p.held, WalletLock(walletId), p.outcomes, MaxRetryAttempts - attempt + 1) ==>
              if walletId !in s.wallets then r.result == Failure(WalletRowMissing)
              else
                var body := RunOperation(op, s, walletId, s.wallets[walletId]);
                && (body.Failure? ==> r.result == Failure(body.error))
                && (body.Success? ==> r.store == body.value &&
                                      r.result == Success(body.value.transactions[OperationTransactionId(op)]))
  {
    var a := TryAcquire(p, WalletLock(walletId));
    if a.obtained then
      var body := if walletId !in s.wallets then Failure(WalletRowMissing)
                  else RunOperation(op, s, walletId, s.wallets[walletId]);
      var released := Release(a.provider, a.handle);
      match body
      case Success(st) => Outcome(st, released, Success(st.transactions[OperationTransactionId(op)]))
      case Failure(e) => Outcome(s, released, Failure(e))
    else if attempt < MaxRetryAttempts then
      var retried := ExecuteWithWalletLock(s, a.provider, walletId, op, attempt + 1);
      Outcome(retried.store, Release(retried.provider, a.handle), retried.result)
    else
      Outcome(s, Release(a.provider, a.handle), Failure(WalletLocked))
  }

  /** The pending row a deposit or withdrawal inserts before taking the wallet lock. */
  function PendingRow(transactionId: string, t: TransactionType, key: string, amount: Cents): Transaction {
    Transaction(transactionId, t, Some(key), amount, 0, Pending, None)
  }

  /** Whether the idempotency guard admits `key` against the current rows. */
  predicate Admitted(s: Store, p: Provider, key: string)
    requires Valid(p)
  {
    CheckIdempotent(key, UsedKeys(s), UsedKeys(s), p).result.Success?
  }

  /** Whether, after the guard, one of the three attempts obtains the wallet's lock. */
  predicate WalletLockObtained(s: Store, p: Provider, key: string, walletId: WalletId)
    requires Valid(p)
  {
    var g := CheckIdempotent(key, UsedKeys(s), UsedKeys(s), p);
    AcquiredWithin(g.provider.held, WalletLock(walletId), g.provider.outcomes, MaxRetryAttempts)
  }

  /** What a completed single-wallet operation leaves behind: the wallet's balance moved
      by `delta`, one entry of type `t` for `amount` appended to that wallet's ledger
      starting from its previous last balance, no other wallet or ledger touched, and the
      row completed at `now`. */
  ghost predicate Applied(s: Store, r: Store, walletId: WalletId, delta: Cents, t: EntryType, amount: Cents, transactionId: string, now: int)
    requires walletId in s.wallets
  {
    && walletId in r.wallets
    && r.wallets == s.wallets[walletId := s.wallets[walletId].(balance := s.wallets[walletId].balance + delta)]
    && (var prior := EntriesOf(s.ledgers, walletId);
        var es := EntriesOf(r.ledgers, walletId);
        && |es| == |prior| + 1 && es[..|prior|] == prior
        && es[|prior|].entryType == t && es[|prior|].amount == amount
        && es[|prior|].balanceBefore == LastBalance(prior)
        && es[|prior|].transactionId == transactionId
        && es[|prior|].walletId == walletId && FollowsRule(es[|prior|]))
    && (forall w :: w != walletId ==> EntriesOf(r.ledgers, w) == EntriesOf(s.ledgers, w))
    && transactionId in r.transactions
    && r.transactions[transactionId].status == Completed
    && r.transactions[transactionId].completedAt == Some(now)
  }

  /** `deposit`. `transactionId` is the UUID the service generates and `now` the clock
      reading it stores as `completed_at`. */
  function Deposit(s: Store, p: Provider, req: DepositRequest, transactionId: string, now: int): (r: Outcome)
    requires Valid(p)
    requires transactionId !in s.transactions
    ensures Valid(r.provider) && r.provider.held == p.held
    ensures req.idempotencyKey in UsedKeys(s) ==> r == Outcome(s, p, Failure(DuplicateTransaction))
    ensures !Admitted(s, p, req.idempotencyKey) ==>
              r.store == s && r.result.Failure? &&
              (r.result.error == DuplicateTransaction || r.result.error == ConcurrentRequest)
    ensures Admitted(s, p, req.idempotencyKey) && r.result.Failure? ==>
              && r.store == InsertTransaction(s, PendingRow(transactionId, DepositTransaction, req.idempotencyKey, req.amount).(status := Failed))
              && r.store.wallets == s.wallets && r.store.ledgers == s.ledgers && r.store.deposits == s.deposits
    ensures Admitted(s, p, req.idempotencyKey) && !WalletLockObtained(s, p, req.idempotencyKey, req.walletId) ==>
              r.result == Failure(WalletLocked)
    ensures Admitted(s, p, req.idempotencyKey) && WalletLockObtained(s, p, req.idempotencyKey, req.walletId) ==>
              && (req.walletId !in s.wallets ==> r.result == Failure(WalletRowMissing))
              && (req.walletId in s.wallets && s.wallets[req.walletId].status != Active ==> r.result == Failure(WalletNotAvailable))
    ensures r.result.Success? <==>
              && Admitted(s, p, req.idempotencyKey) && WalletLockObtained(s, p, req.idempotencyKey, req.walletId)
              && req.walletId in s.wallets && s.wallets[req.walletId].status == Active
    ensures r.result.Success? ==> transactionId in r.store.transactions && r.result.value == r.store.transactions[transactionId]
  {
    var guard := CheckIdempotent(req.idempotencyKey, UsedKeys(s), UsedKeys(s), p);
    if guard.result.Failure? then Outcome(s, guard.provider, Failure(guard.result.error))
    else DepositLocked(s, guard.provider, req, transactionId, now)
  }

  /** `deposit` once the guard has passed: the pending row is inserted, the callback runs
      under the wallet's lock, and a failure leaves the row marked failed. */
  function DepositLocked(s: Store, p: Provider, req: DepositRequest, transactionId: string, now: int): (r: Outcome)
    requires Valid(p)
    requires transactionId !in s.transactions
    ensures Valid(r.provider) && r.provider.held == p.held
    ensures r.result.Failure? ==>
              && r.store == InsertTransaction(s, PendingRow(transactionId, DepositTransaction, req.idempotencyKey, req.amount).(status := Failed))
              && r.store.wallets == s.wallets && r.store.ledgers == s.ledgers && r.store.deposits == s.deposits
    ensures !AcquiredWithin(p.held, WalletLock(req.walletId), p.outcomes, MaxRetryAttempts) ==> r.result == Failure(WalletLocked)
    ensures AcquiredWithin(p.held, WalletLock(req.walletId), p.outcomes, MaxRetryAttempts) ==>
              && (req.walletId !in s.wallets ==> r.result == Failure(WalletRowMissing))
              && (req.walletId in s.wallets && s.wallets[req.walletId].status != Active ==> r.result == Failure(WalletNotAvailable))
    ensures r.result.Success? <==>
              && AcquiredWithin(p.held, WalletLock(req.walletId), p.outcomes, MaxRetryAttempts)
              && req.walletId in s.wallets && s.wallets[req.walletId].status == Active
    ensures r.result.Success? ==> transactionId in r.store.transactions && r.result.value == r.store.transactions[transactionId]
  {
    var row := PendingRow(transactionId, DepositTransaction, req.idempotencyKey, req.amount);
    var pending := InsertTransaction(s, row);
    FailInserted(s, row);
    var locked := ExecuteWithWalletLock(pending, p, req.walletId, DepositOperation(req, transactionId, now), 1);
    match locked.result
    case Success(t) => Outcome(locked.store, locked.provider, Success(t))
    case Failure(e) => Outcome(SetStatus(pending, transactionId, Failed), locked.provider, Failure(e))
  }

  /** A locked run that succeeds is the callback's own result. */
  lemma LockedRunsBody(s: Store, p: Provider, walletId: WalletId, op: WalletOperation)
    requires Valid(p)
    requires OperationTransactionId(op) in s.transactions
    requires ExecuteWithWalletLock(s, p, walletId, op, 1).result.Success?
    ensures var o := ExecuteWithWalletLock(s, p, walletId, op, 1);
            && walletId in s.wallets
            && RunOperation(op, s, walletId, s.wallets[walletId]).Success?
            && o.store == RunOperation(op, s, walletId, s.wallets[walletId]).value
            && o.result == Success(o.store.transactions[OperationTransactionId(op)])
  {
  }

  /** `Applied` looks at the store before only through its wallets and ledgers. */
  lemma AppliedSameBooks(s: Store, s': Store, r: Store, walletId: WalletId, delta: Cents, t: EntryType,
                         amount: Cents, transactionId: string, now: int)
    requires walletId in s.wallets
    requires s'.wallets == s.wallets && s'.ledgers == s.ledgers
    requires Applied(s, r, walletId, delta, t, amount, transactionId, now)
    ensures Applied(s', r, walletId, delta, t, amount, transactionId, now)
  {
  }

  /** Everything a successful deposit leaves behind, as one fact about its outcome. */
  ghost predicate Deposited(s: Store, o: Outcome, req: DepositRequest, transactionId: string, now: int) {
    && req.walletId in s.wallets
    && o.result.Success?
    && Applied(s, o.store, req.walletId, req.amount, Credit, req.amount, transactionId, now)
    && o.store.deposits == s.deposits + [DepositRecord(|s.deposits| + 1, transactionId, req.walletId, req.amount,
                                                        req.paymentMethod.GetOr(DefaultMethod), req.paymentReference)]
    && o.store.withdrawals == s.withdrawals && o.store.transfers == s.transfers
    && o.result.value == PendingRow(transactionId, DepositTransaction, req.idempotencyKey, req.amount).(status := Completed, completedAt := Some(now))
    && o.store.transactions == s.transactions[transactionId := o.result.value]
    && UsedKeys(o.store) == UsedKeys(s) + {req.idempotencyKey}
  }

  /** A deposit past the guard that succeeds leaves what `Deposited` describes. */
  lemma DepositLockedEffects(s: Store, p: Provider, req: DepositRequest, transactionId: string, now: int)
    requires Valid(p)
    requires transactionId !in s.transactions
    requires DepositLocked(s, p, req, transactionId, now).result.Success?
    ensures Deposited(s, DepositLocked(s, p, req, transactionId, now), req, transactionId, now)
  {
    var row := PendingRow(transactionId, DepositTransaction, req.idempotencyKey, req.amount);
    var pending := InsertTransaction(s, row);
    var op := DepositOperation(req, transactionId, now);
    var locked := ExecuteWithWalletLock(pending, p, req.walletId, op, 1);
    assert DepositLocked(s, p, req, transactionId, now) == Outcome(locked.store, locked.provider, locked.result);
    LockedRunsBody(pending, p, req.walletId, op);
    DepositBodyEffects(s, req, transactionId, now, locked);
  }

  /** What the deposit callback leaves, run on the store with the pending row inserted. */
  lemma DepositBodyEffects(s: Store, req: DepositRequest, transactionId: string, now: int, o: Outcome)
    requires transactionId !in s.transactions
    requires var pending := InsertTransaction(s, PendingRow(transactionId, DepositTransaction, req.idempotencyKey, req.amount));
             && req.walletId in s.wallets
             && DepositBody(pending, req.walletId, pending.wallets[req.walletId], req, transactionId, now).Success?
             && o.store == DepositBody(pending, req.walletId, pending.wallets[req.walletId], req, transactionId, now).value
             && o.result == Success(o.store.transactions[transactionId])
    ensures Deposited(s, o, req, transactionId, now)
  {
    var row := PendingRow(transactionId, DepositTransaction, req.idempotencyKey, req.amount);
    var pending := InsertTransaction(s, row);
    var body := DepositBody(pending, req.walletId, pending.wallets[req.walletId], req, transactionId, now);
    assert pending.transactions[transactionId] == row;
    assert o.store.transactions == s.transactions[transactionId := row.(status := Completed, completedAt := Some(now))];
    assert UsedKeys(o.store) == UsedKeys(pending);
    AppliedSameBooks(pending, s, o.store, req.walletId, req.amount, Credit, req.amount, transactionId, now);
  }

  /** A deposit that succeeds adds the amount to the wallet, appends one credit entry
      continuing the wallet's chain, records the deposit, and completes a row carrying the
      request's key, which no later request can reuse. */
  lemma DepositEffects(s: Store, p: Provider, req: DepositRequest, transactionId: string, now: int)
    requires Valid(p)
    requires transactionId !in s.transactions
    requires Deposit(s, p, req, transactionId, now).result.Success?
    ensures var r := Deposit(s, p, req, transactionId, now);
            && req.walletId in s.wallets
            && Applied(s, r.store, req.walletId, req.amount, Credit, req.amount, transactionId, now)
            && r.store.deposits == s.deposits + [DepositRecord(|s.deposits| + 1, transactionId, req.walletId, req.amount,
                                                                req.paymentMethod.GetOr(DefaultMethod), req.paymentReference)]
            && r.store.withdrawals == s.withdrawals && r.store.transfers == s.transfers
            && r.result.value == PendingRow(transactionId, DepositTransaction, req.idempotencyKey, req.amount).(status := Completed, completedAt := Some(now))
            && UsedKeys(r.store) == UsedKeys(s) + {req.idempotencyKey}
            && SameAccounts(s.wallets, r.store.wallets)
  {
    DepositSucceeded(s, p, req, transactionId, now);
    DepositedAccounts(s, Deposit(s, p, req, transactionId, now), req, transactionId, now);
  }

  /** A successful deposit leaves what `Deposited` describes. */
  lemma DepositSucceeded(s: Store, p: Provider, req: DepositRequest, transactionId: string, now: int)
    requires Valid(p)
    requires transactionId !in s.transactions
    requires Deposit(s, p, req, transactionId, now).result.Success?
    ensures Deposited(s, Deposit(s, p, req, transactionId, now), req, transactionId, now)
  {
    var guard := CheckIdempotent(req.idempotencyKey, UsedKeys(s), UsedKeys(s), p);
    assert Deposit(s, p, req, transactionId, now) == DepositLocked(s, guard.provider, req, transactionId, now);
    DepositLockedEffects(s, guard.provider, req, transactionId, now);
  }

  lemma DepositedAccounts(s: Store, o: Outcome, req: DepositRequest, transactionId: string, now: int)
    requires Deposited(s, o, req, transactionId, now)
    ensures SameAccounts(s.wallets, o.store.wallets)
  {
  }

  lemma WithdrawnAccounts(s: Store, o: Outcome, req: WithdrawalRequest, transactionId: string, now: int)
    requires Withdrawn(s, o, req, transactionId, now)
    ensures SameAccounts(s.wallets, o.store.wallets) && o.store.wallets[req.walletId].balance >= 0
  {
  }

  /** `withdraw`, with the same parameters as a deposit. */
  function Withdraw(s: Store, p: Provider, req: WithdrawalRequest, transactionId: string, now: int): (r: Outcome)
    requires Valid(p)
    requires transactionId !in s.transactions
    ensures Valid(r.provider) && r.provider.held == p.held
    ensures req.idempotencyKey in UsedKeys(s) ==> r == Outcome(s, p, Failure(DuplicateTransaction))
    ensures !Admitted(s, p, req.idempotencyKey) ==>
              r.store == s && r.result.Failure? &&
              (r.result.error == DuplicateTransaction || r.result.error == ConcurrentRequest)
    ensures Admitted(s, p, req.idempotencyKey) && r.result.Failure? ==>
              && r.store == InsertTransaction(s, PendingRow(transactionId, WithdrawalTransaction, req.idempotencyKey, req.amount).(status := Failed))
              && r.store.wallets == s.wallets && r.store.ledgers == s.ledgers && r.store.withdrawals == s.withdrawals
              && r.store.transactions[transactionId].completedAt.None?
    ensures Admitted(s, p, req.idempotencyKey) && !WalletLockObtained(s, p, req.idempotencyKey, req.walletId) ==>
              r.result == Failure(WalletLocked)
    ensures Admitted(s, p, req.idempotencyKey) && WalletLockObtained(s, p, req.idempotencyKey, req.walletId) ==>
              && (req.walletId !in s.wallets ==> r.result == Failure(WalletRowMissing))
              && (req.walletId in s.wallets && s.wallets[req.walletId].status != Active ==> r.result == Failure(WalletNotAvailable))
              && (req.walletId in s.wallets && s.wallets[req.walletId].status == Active && s.wallets[req.walletId].balance < req.amount ==>
                    r.result == Failure(InsufficientBalance))
    ensures r.result.Success? <==>
              && Admitted(s, p, req.idempotencyKey) && WalletLockObtained(s, p, req.idempotencyKey, req.walletId)
              && req.walletId in s.wallets && s.wallets[req.walletId].status == Active
              && s.wallets[req.walletId].balance >= req.amount
    ensures r.result.Success? ==> transactionId in r.store.transactions && r.result.value == r.store.transactions[transactionId]
  {
    var guard := CheckIdempotent(req.idempotencyKey, UsedKeys(s), UsedKeys(s), p);
    if guard.result.Failure? then Outcome(s, guard.provider, Failure(guard.result.error))
    else WithdrawLocked(s, guard.provider, req, transactionId, now)
  }

  /** `withdraw` once the guard has passed: the pending row is inserted, the callback runs
      under the wallet's lock, and a failure leaves the row marked failed. */
  function WithdrawLocked(s: Store, p: Provider, req: WithdrawalRequest, transactionId: string, now: int): (r: Outcome)
    requires Valid(p)
    requires transactionId !in s.transactions
    ensures Valid(r.provider) && r.provider.held == p.held
    ensures r.result.Failure? ==>
              && r.store == InsertTransaction(s, PendingRow(transactionId, WithdrawalTransaction, req.idempotencyKey, req.amount).(status := Failed))
              && r.store.wallets == s.wallets && r.store.ledgers == s.ledgers && r.store.withdrawals == s.withdrawals
              && r.store.transactions[transactionId].completedAt.None?
    ensures !AcquiredWithin(p.held, WalletLock(req.walletId), p.outcomes, MaxRetryAttempts) ==> r.result == Failure(WalletLocked)
    ensures AcquiredWithin(p.held, WalletLock(req.walletId), p.outcomes, MaxRetryAttempts) ==>
              && (req.walletId !in s.wallets ==> r.result == Failure(WalletRowMissing))
              && (req.walletId in s.wallets && s.wallets[req.walletId].status != Active ==> r.result == Failure(WalletNotAvailable))
              && (req.walletId in s.wallets && s.wallets[req.walletId].status == Active && s.wallets[req.walletId].balance < req.amount ==>
                    r.result == Failure(InsufficientBalance))
    ensures r.result.Success? <==>
              && AcquiredWithin(p.held, WalletLock(req.walletId), p.outcomes, MaxRetryAttempts)
              && req.walletId in s.wallets && s.wallets[req.walletId].status == Active
              && s.wallets[req.walletId].balance >= req.amount
    ensures r.result.Success? ==> transactionId in r.store.transactions && r.result.value == r.store.transactions[transactionId]
  {
    var row := PendingRow(transactionId, WithdrawalTransaction, req.idempotencyKey, req.amount);
    var pending := InsertTransaction(s, row);
    FailInserted(s, row);
    var locked := ExecuteWithWalletLock(pending, p, req.walletId, WithdrawOperation(req, transactionId, now), 1);
    match locked.result
    case Success(t) => Outcome(locked.store, locked.provider, Success(t))
    case Failure(e) => Outcome(UpdateTransaction(pending, transactionId, Failed, None), locked.provider, Failure(e))
  }

  /** Everything a successful withdrawal leaves behind, as one fact about its outcome. */
  ghost predicate Withdrawn(s: Store, o: Outcome, req: WithdrawalRequest, transactionId: string, now: int) {
    && req.walletId in s.wallets
    && o.result.Success?
    && Applied(s, o.store, req.walletId, -req.amount, Debit, req.amount, transactionId, now)
    && s.wallets[req.walletId].balance >= req.amount
    && o.store.withdrawals == s.withdrawals + [WithdrawalRecord(|s.withdrawals| + 1, transactionId, req.walletId, req.amount,
                                                                  req.withdrawalMethod.GetOr(DefaultMethod), req.withdrawalReference)]
    && o.store.deposits == s.deposits && o.store.transfers == s.transfers
    && o.result.value == PendingRow(transactionId, WithdrawalTransaction, req.idempotencyKey, req.amount).(status := Completed, completedAt := Some(now))
    && o.store.transactions == s.transactions[transactionId := o.result.value]
    && UsedKeys(o.store) == UsedKeys(s) + {req.idempotencyKey}
  }

  /** A withdrawal past the guard that succeeds leaves what `Withdrawn` describes. */
  lemma WithdrawLockedEffects(s: Store, p: Provider, req: WithdrawalRequest, transactionId: string, now: int)
    requires Valid(p)
    requires transactionId !in s.transactions
    requires WithdrawLocked(s, p, req, transactionId, now).result.Success?
    ensures Withdrawn(s, WithdrawLocked(s, p, req, transactionId, now), req, transactionId, now)
  {
    var row := PendingRow(transactionId, WithdrawalTransaction, req.idempotencyKey, req.amount);
    var pending := InsertTransaction(s, row);
    var op := WithdrawOperation(req, transactionId, now);
    var locked := ExecuteWithWalletLock(pending, p, req.walletId, op, 1);
    assert WithdrawLocked(s, p, req, transactionId, now) == Outcome(locked.store, locked.provider, locked.result);
    LockedRunsBody(pending, p, req.walletId, op);
    WithdrawBodyEffects(s, req, transactionId, now, locked);
  }

  /** What the withdraw callback leaves, run on the store with the pending row inserted. */
  lemma WithdrawBodyEffects(s: Store, req: WithdrawalRequest, transactionId: string, now: int, o: Outcome)
    requires transactionId !in s.transactions
    requires var pending := InsertTransaction(s, PendingRow(transactionId, WithdrawalTransaction, req.idempotencyKey, req.amount));
             && req.walletId in s.wallets
             && WithdrawBody(pending, req.walletId, pending.wallets[req.walletId], req, transactionId, now).Success?
             && o.store == WithdrawBody(pending, req.walletId, pending.wallets[req.walletId], req, transactionId, now).value
             && o.result == Success(o.store.transactions[transactionId])
    ensures Withdrawn(s, o, req, transactionId, now)
  {
    var row := PendingRow(transactionId, WithdrawalTransaction, req.idempotencyKey, req.amount);
    var pending := InsertTransaction(s, row);
    var body := WithdrawBody(pending, req.walletId, pending.wallets[req.walletId], req, transactionId, now);
    assert pending.transactions[transactionId] == row;
    assert o.store.transactions == s.transactions[transactionId := row.(status := Completed, completedAt := Some(now))];
    assert UsedKeys(o.store) == UsedKeys(pending);
    AppliedSameBooks(pending, s, o.store, req.walletId, -req.amount, Debit, req.amount, transactionId, now);
  }

  /** A withdrawal that succeeds takes the amount from the wallet without taking it below
      zero, appends one debit entry continuing the wallet's chain, records the withdrawal,
      and completes a row carrying the request's key. */
  lemma WithdrawEffects(s: Store, p: Provider, req: WithdrawalRequest, transactionId: string, now: int)
    requires Valid(p)
    requires transactionId !in s.transactions
    requires Withdraw(s, p, req, transactionId, now).result.Success?
    ensures var r := Withdraw(s, p, req, transactionId, now);
            && req.walletId in s.wallets
            && Applied(s, r.store, req.walletId, -req.amount, Debit, req.amount, transactionId, now)
            && r.store.wallets[req.walletId].balance >= 0
            && r.store.withdrawals == s.withdrawals + [WithdrawalRecord(|s.withdrawals| + 1, transactionId, req.walletId, req.amount,
                                                                          req.withdrawalMethod.GetOr(DefaultMethod), req.withdrawalReference)]
            && r.store.deposits == s.deposits && r.store.transfers == s.transfers
            && r.result.value == PendingRow(transactionId, WithdrawalTransaction, req.idempotencyKey, req.amount).(status := Completed, completedAt := Some(now))
            && UsedKeys(r.store) == UsedKeys(s) + {req.idempotencyKey}
            && SameAccounts(s.wallets, r.store.wallets)
  {
    WithdrawSucceeded(s, p, req, transactionId, now);
    WithdrawnAccounts(s, Withdraw(s, p, req, transactionId, now), req, transactionId, now);
  }

  /** A successful withdrawal leaves what `Withdrawn` describes. */
  lemma WithdrawSucceeded(s: Store, p: Provider, req: WithdrawalRequest, transactionId: string, now: int)
    requires Valid(p)
    requires transactionId !in s.transactions
    requires Withdraw(s, p, req, transactionId, now).result.Success?
    ensures Withdrawn(s, Withdraw(s, p, req, transactionId, now), req, transactionId, now)
  {
    var guard := CheckIdempotent(req.idempotencyKey, UsedKeys(s), UsedKeys(s), p);
    assert Withdraw(s, p, req, transactionId, now) == WithdrawLocked(s, guard.provider, req, transactionId, now);
    WithdrawLockedEffects(s, guard.provider, req, transactionId, now);
  }

  /** A successful deposit leaves exactly one new transaction row, the one it returns. */
  lemma DepositRowStored(s: Store, p: Provider, req: DepositRequest, transactionId: string, now: int)
    requires Valid(p)
    requires transactionId !in s.transactions
    requires Deposit(s, p, req, transactionId, now).result.Success?
    ensures var r := Deposit(s, p, req, transactionId, now);
            r.store.transactions == s.transactions[transactionId := r.result.value]
  {
    var guard := CheckIdempotent(req.idempotencyKey, UsedKeys(s), UsedKeys(s), p);
    assert Deposit(s, p, req, transactionId, now) == DepositLocked(s, guard.provider, req, transactionId, now);
    DepositLockedEffects(s, guard.provider, req, transactionId, now);
  }

  /** A successful withdrawal leaves exactly one new transaction row, the one it returns. */
  lemma WithdrawRowStored(s: Store, p: Provider, req: WithdrawalRequest, transactionId: string, now: int)
    requires Valid(p)
    requires transactionId !in s.transactions
    requires Withdraw(s, p, req, transactionId, now).result.Success?
    ensures var r := Withdraw(s, p, req, transactionId, now);
            r.store.transactions == s.transactions[transactionId := r.result.value]
  {
    var guard := CheckIdempotent(req.idempotencyKey, UsedKeys(s), UsedKeys(s), p);
    assert Withdraw(s, p, req, transactionId, now) == WithdrawLocked(s, guard.provider, req, transactionId, now);
    WithdrawLockedEffects(s, guard.provider, req, transactionId, now);
  }
}

=== FILE: transfers.dfy ===
/** TransferService: a transfer between two wallets, run under both wallets' named locks,
    taken in ascending id order, inside one storage transaction. */
module TransferService {
  import opened Outcomes
  import opened Money
  import opened Ledger
  import opened Store
  import opened Locks
  import opened Errors
  import opened Idempotency
  import opened FeeCalculator
  import opened TransactionService

  /** No wallet id occurs twice. */
  predicate Distinct(ids: seq<WalletId>) {
    forall i, j :: 0 <= i < j < |ids| ==> ids[i] != ids[j]
  }

  /** The oracle grants each of the next `n` attempts. */
  predicate Granted(outcomes: seq<bool>, n: nat) {
    forall i :: 0 <= i < n && i < |outcomes| ==> outcomes[i]
  }

  /** One pass of the acquisition loop. */
  datatype LockRound = LockRound(obtained: bool, handles: seq<Handle>, provider: Provider)

  /** One pass of the `foreach` in `executeWithMultipleWalletLocks`: each wallet's lock is
      tried in the given order and the pass stops at the first one refused. `handles` are
      the locks obtained so far, in order. */
  function AcquireInOrder(p: Provider, ids: seq<WalletId>): (r: LockRound)
    requires Valid(p)
    decreases |ids|
    ensures Valid(r.provider) && r.provider.nextOwner >= p.nextOwner
    ensures OwnsAll(r.provider.held, r.handles)
    ensures r.provider.held - Names(r.handles) == p.held
    ensures forall i :: 0 <= i < |r.handles| ==> r.handles[i].owner >= p.nextOwner
    ensures r.obtained <==>
              Distinct(ids) && (forall i :: 0 <= i < |ids| ==> WalletLock(ids[i]) !in p.held) && Granted(p.outcomes, |ids|)
    ensures r.obtained ==> Names(r.handles) == set i | 0 <= i < |ids| :: WalletLock(ids[i])
  {
    if |ids| == 0 then LockRound(true, [], p)
    else
      var a := TryAcquire(p, WalletLock(ids[0]));
      if !a.obtained then
        assert !(WalletLock(ids[0]) !in p.held && Granted(p.outcomes, |ids|)) by {
          if WalletLock(ids[0]) !in p.held && |p.outcomes| > 0 { assert !p.outcomes[0]; }
        }
        LockRound(false, [], a.provider)
      else
        var rest := AcquireInOrder(a.provider, ids[1..]);
        RoundStep(p, ids, a, rest);
        LockRound(rest.obtained, [a.handle] + rest.handles, rest.provider)
  }

  /** The inductive step of `AcquireInOrder`: the first lock obtained, then the rest. */
  lemma RoundStep(p: Provider, ids: seq<WalletId>, a: Acquired, rest: LockRound)
    requires Valid(p) && |ids| > 0
    requires a == TryAcquire(p, WalletLock(ids[0])) && a.obtained
    requires Valid(rest.provider) && rest.provider.nextOwner >= a.provider.nextOwner
    requires OwnsAll(rest.provider.held, rest.handles)
    requires rest.provider.held - Names(rest.handles) == a.provider.held
    requires forall i :: 0 <= i < |rest.handles| ==> rest.handles[i].owner >= a.provider.nextOwner
    requires rest.obtained <==>
               Distinct(ids[1..]) && (forall i :: 0 <= i < |ids[1..]| ==> WalletLock(ids[1..][i]) !in a.provider.held)
               && Granted(a.provider.outcomes, |ids[1..]|)
    requires rest.obtained ==> Names(rest.handles) == set i | 0 <= i < |ids[1..]| :: WalletLock(ids[1..][i])
    ensures var hs := [a.handle] + rest.handles;
            && OwnsAll(rest.provider.held, hs)
            && rest.provider.held - Names(hs) == p.held
            && (forall i :: 0 <= i < |hs| ==> hs[i].owner >= p.nextOwner)
            && (rest.obtained <==>
                  Distinct(ids) && (forall i :: 0 <= i < |ids| ==> WalletLock(ids[i]) !in p.held) && Granted(p.outcomes, |ids|))
            && (rest.obtained ==> Names(hs) == set i | 0 <= i < |ids| :: WalletLock(ids[i]))
  {
    RoundHandles(p, WalletLock(ids[0]), a, rest);
    RoundCondition(p, ids, a);
    if rest.obtained {
      RoundNames(ids, [a.handle] + rest.handles, rest.handles);
    }
  }

  /** The handles of a pass: the first lock's handle, then those of the rest of the pass. */
  lemma RoundHandles(p: Provider, n0: LockName, a: Acquired, rest: LockRound)
    requires Valid(p)
    requires a == TryAcquire(p, n0) && a.obtained
    requires Valid(rest.provider) && rest.provider.nextOwner >= a.provider.nextOwner
    requires OwnsAll(rest.provider.held, rest.handles)
    requires rest.provider.held - Names(rest.handles) == a.provider.held
    requires forall i :: 0 <= i < |rest.handles| ==> rest.handles[i].owner >= a.provider.nextOwner
    ensures var hs := [a.handle] + rest.handles;
            && OwnsAll(rest.provider.held, hs)
            && rest.provider.held - Names(hs) == p.held
            && (forall i :: 0 <= i < |hs| ==> hs[i].owner >= p.nextOwner)
  {
    var hs := [a.handle] + rest.handles;
    assert a.provider.held == p.held[n0 := p.nextOwner];
    assert Names(hs) == {n0} + Names(rest.handles) by {
      assert hs[0].name == n0;
      forall n | n in Names(hs) ensures n in {n0} + Names(rest.handles) {
        var i :| 0 <= i < |hs| && hs[i].name == n;
        if i > 0 { assert hs[i] == rest.handles[i - 1]; }
      }
      forall n | n in Names(rest.handles) ensures n in Names(hs) {
        var i :| 0 <= i < |rest.handles| && rest.handles[i].name == n;
        assert hs[i + 1] == rest.handles[i];
      }
    }
    // the first lock stays with its owner, because the rest only adds locks
    assert n0 in rest.provider.held && rest.provider.held[n0] == p.nextOwner by {
      assert n0 in a.provider.held;
    }
    forall i, j | 0 <= i < j < |hs| ensures hs[i].name != hs[j].name {
      if i == 0 {
        assert hs[j] == rest.handles[j - 1];
        assert rest.provider.held[hs[j].name] == hs[j].owner >= a.provider.nextOwner;
      } else {
        assert hs[i] == rest.handles[i - 1] && hs[j] == rest.handles[j - 1];
      }
    }
    forall i | 0 <= i < |hs| ensures hs[i].name in rest.provider.held && rest.provider.held[hs[i].name] == hs[i].owner {
      if i > 0 { assert hs[i] == rest.handles[i - 1]; }
    }
    assert rest.provider.held - Names(hs) == p.held by {
      assert rest.provider.held - Names(hs) == (rest.provider.held - Names(rest.handles)) - {n0};
      assert p.held == a.provider.held - {n0} by {
        assert n0 !in p.held;
      }
    }
    forall i | 0 <= i < |hs| ensures hs[i].owner >= p.nextOwner {
      if i > 0 { assert hs[i] == rest.handles[i - 1]; }
    }
  }

  /** A pass obtains every lock iff it obtains the first and then all the others. */
  lemma RoundCondition(p: Provider, ids: seq<WalletId>, a: Acquired)
    requires Valid(p) && |ids| > 0
    requires a == TryAcquire(p, WalletLock(ids[0])) && a.obtained
    ensures (Distinct(ids[1..]) && (forall i :: 0 <= i < |ids[1..]| ==> WalletLock(ids[1..][i]) !in a.provider.held)
               && Granted(a.provider.outcomes, |ids[1..]|))
            <==>
            (Distinct(ids) && (forall i :: 0 <= i < |ids| ==> WalletLock(ids[i]) !in p.held) && Granted(p.outcomes, |ids|))
  {
    var n0 := WalletLock(ids[0]);
    var tail := ids[1..];
    assert a.provider.held == p.held[n0 := p.nextOwner];
    assert Granted(p.outcomes, |ids|) <==> NextOutcome(p.outcomes) && Granted(RestOutcomes(p.outcomes), |tail|) by {
      if |p.outcomes| > 0 {
        forall i | 0 <= i < |tail| && i < |RestOutcomes(p.outcomes)|
          ensures RestOutcomes(p.outcomes)[i] == p.outcomes[i + 1] {}
      }
    }
    assert a.provider.outcomes == RestOutcomes(p.outcomes);
    assert (forall i :: 0 <= i < |tail| ==> WalletLock(tail[i]) !in a.provider.held) <==>
           (forall i :: 0 <= i < |tail| ==> WalletLock(tail[i]) !in p.held && tail[i] != ids[0]);
    assert Distinct(ids) <==> Distinct(tail) && (forall i :: 0 <= i < |tail| ==> tail[i] != ids[0]) by {
      if Distinct(tail) && (forall i :: 0 <= i < |tail| ==> tail[i] != ids[0]) {
        forall i, j | 0 <= i < j < |ids| ensures ids[i] != ids[j] {
          assert ids[j] == tail[j - 1];
          if i > 0 { assert ids[i] == tail[i - 1]; }
        }
      }
    }
    assert (forall i :: 0 <= i < |ids| ==> WalletLock(ids[i]) !in p.held) <==>
           n0 !in p.held && (forall i :: 0 <= i < |tail| ==> WalletLock(tail[i]) !in p.held) by {
      if n0 !in p.held && (forall i :: 0 <= i < |tail| ==> WalletLock(tail[i]) !in p.held) {
        forall i | 0 <= i < |ids| ensures WalletLock(ids[i]) !in p.held {
          if i > 0 { assert ids[i] == tail[i - 1]; }
        }
      }
    }
  }

  /** The locks a successful pass names are those of all its wallets. */
  lemma RoundNames(ids: seq<WalletId>, hs: seq<Handle>, restHandles: seq<Handle>)
    requires |ids| > 0 && |hs| > 0 && hs == [hs[0]] + restHandles
    requires hs[0].name == WalletLock(ids[0])
    requires Names(restHandles) == set i | 0 <= i < |ids[1..]| :: WalletLock(ids[1..][i])
    ensures Names(hs) == set i | 0 <= i < |ids| :: WalletLock(ids[i])
  {
    var tail := ids[1..];
    forall n | n in Names(hs) ensures n in set i | 0 <= i < |ids| :: WalletLock(ids[i]) {
      var k :| 0 <= k < |hs| && hs[k].name == n;
      if k > 0 {
        assert hs[k] == restHandles[k - 1];
        assert n in Names(restHandles);
        var i :| 0 <= i < |tail| && WalletLock(tail[i]) == n;
        assert ids[i + 1] == tail[i];
      }
    }
    forall i | 0 <= i < |ids| ensures WalletLock(ids[i]) in Names(hs) {
      if i > 0 {
        assert ids[i] == tail[i - 1];
        assert WalletLock(tail[i - 1]) in Names(restHandles);
        var k :| 0 <= k < |restHandles| && restHandles[k].name == WalletLock(tail[i - 1]);
        assert hs[k + 1] == restHandles[k];
      }
    }
  }

  /** Whether one of `tries` passes obtains every lock. A pass that is refused releases
      what it obtained before the next one starts. */
  predicate RoundsSucceedWithin(p: Provider, ids: seq<WalletId>, tries: nat)
    requires Valid(p)
    decreases tries
  {
    && tries > 0
    && var round := AcquireInOrder(p, ids);
       round.obtained || RoundsSucceedWithin(ReleaseAll(round.provider, round.handles), ids, tries - 1)
  }

  /** `sort($walletIds)` on the sender's and the receiver's ids: every transfer between
      the same two wallets takes their locks in the same order, whichever way it goes. */
  function LockOrder(a: WalletId, b: WalletId): (ids: seq<WalletId>)
    ensures |ids| == 2 && ids[0] <= ids[1]
    ensures multiset(ids) == multiset{a, b}
  {
    if a <= b then [a, b] else [b, a]
  }

  /** Two transfers in opposite directions between the same wallets lock in the same order. */
  lemma OppositeTransfersLockAlike(a: WalletId, b: WalletId)
    ensures LockOrder(a, b) == LockOrder(b, a)
  {
  }

  /** What the transfer callback captures. */
  datatype TransferCall = TransferCall(
    senderWalletId: WalletId, receiverWalletId: WalletId, amount: Cents, transactionId: string, now: int)

  /** The balances and ledgers a completed transfer leaves: the sender loses the amount
      and the fee, the receiver gains the amount, the sender's ledger gains a debit of the
      amount and then a fee entry, the receiver's a credit, each continuing its chain, and
      nothing else changes. */
  ghost predicate Transferred(wallets: map<WalletId, Wallet>, ledgers: Ledgers, transfers: seq<TransferRecord>, r: Store, call: TransferCall)
    requires call.senderWalletId in wallets && call.receiverWalletId in wallets
  {
    var sid := call.senderWalletId;
    var rid := call.receiverWalletId;
    var fee := CalculateTransferFee(call.amount);
    var sender := wallets[sid];
    var receiver := wallets[rid];
    var refId := |transfers| + 1;
    && r.wallets == wallets[sid := sender.(balance := sender.balance - (call.amount + fee))]
                           [rid := receiver.(balance := receiver.balance + call.amount)]
    && r.transfers == transfers + [TransferRecord(refId, call.transactionId, sid, rid, call.amount, fee)]
    && (var ps := EntriesOf(ledgers, sid);
        var es := EntriesOf(r.ledgers, sid);
        && |es| == |ps| + 2 && es[..|ps|] == ps
        && es[|ps|].entryType == Debit && es[|ps|].amount == call.amount
        && es[|ps|].balanceBefore == LastBalance(ps)
        && es[|ps| + 1].entryType == Fee && es[|ps| + 1].amount == fee
        && es[|ps| + 1].balanceBefore == es[|ps|].balanceAfter
        && es[|ps|].referenceId == refId && es[|ps| + 1].referenceId == refId
        && es[|ps|].transactionId == call.transactionId && es[|ps| + 1].transactionId == call.transactionId
        && es[|ps|].walletId == sid && es[|ps| + 1].walletId == sid
        && es[|ps|].referenceType == TransferRef && es[|ps| + 1].referenceType == TransferRef
        && FollowsRule(es[|ps|]) && FollowsRule(es[|ps| + 1]))
    && (var ps := EntriesOf(ledgers, rid);
        var es := EntriesOf(r.ledgers, rid);
        && |es| == |ps| + 1 && es[..|ps|] == ps
        && es[|ps|].entryType == Credit && es[|ps|].amount == call.amount
        && es[|ps|].balanceBefore == LastBalance(ps)
        && es[|ps|].referenceId == refId && es[|ps|].transactionId == call.transactionId
        && es[|ps|].walletId == rid && es[|ps|].referenceType == TransferRef && FollowsRule(es[|ps|]))
    && (forall w :: w != sid && w != rid ==> EntriesOf(r.ledgers, w) == EntriesOf(ledgers, w))
  }

  /** `createTransferLedgerEntries`: the sender's debit, the fee entry (written whatever
      the fee, zero included), and the receiver's credit. */
  function CreateTransferLedgerEntries(ledgers: Ledgers, sender: WalletId, senderNumber: string,
                                       receiver: WalletId, receiverNumber: string, t: TransferRecord): (r: Ledgers)
    requires sender != receiver
    ensures var ps := EntriesOf(ledgers, sender);
            var es := EntriesOf(r, sender);
            && |es| == |ps| + 2 && es[..|ps|] == ps
            && es[|ps|].entryType == Debit && es[|ps|].amount == t.amount
            && es[|ps|].balanceBefore == LastBalance(ps)
            && es[|ps| + 1].entryType == Fee && es[|ps| + 1].amount == t.fee
            && es[|ps| + 1].balanceBefore == es[|ps|].balanceAfter
            && es[|ps|].referenceId == t.id && es[|ps| + 1].referenceId == t.id
            && es[|ps|].transactionId == t.transactionId && es[|ps| + 1].transactionId == t.transactionId
            && es[|ps|].walletId == sender && es[|ps| + 1].walletId == sender
            && FollowsRule(es[|ps|]) && FollowsRule(es[|ps| + 1])
            && es[|ps|].referenceType == TransferRef && es[|ps| + 1].referenceType == TransferRef
            && es[|ps|].description == Some("Transfer to wallet " + receiverNumber)
            && es[|ps| + 1].description == Some("Transfer fee")
    ensures var ps := EntriesOf(ledgers, receiver);
            var es := EntriesOf(r, receiver);
            && |es| == |ps| + 1 && es[..|ps|] == ps
            && es[|ps|].entryType == Credit && es[|ps|].amount == t.amount
            && es[|ps|].balanceBefore == LastBalance(ps)
            && es[|ps|].referenceId == t.id && es[|ps|].transactionId == t.transactionId
            && es[|ps|].walletId == receiver && FollowsRule(es[|ps|])
            && es[|ps|].referenceType == TransferRef
            && es[|ps|].description == Some("Transfer from wallet " + senderNumber)
    ensures forall w :: w != sender && w != receiver ==> EntriesOf(r, w) == EntriesOf(ledgers, w)
  {
    var debit := LegerEntryLog(ledgers, sender, t.amount, "debit", t.transactionId, TransferRef, t.id,
                               Some("Transfer to wallet " + receiverNumber));
    assert debit.Success?;
    var fee := LegerEntryLog(debit.value.ledgers, sender, t.fee, "fee", t.transactionId, TransferRef, t.id,
                             Some("Transfer fee"));
    assert fee.Success?;
    var credit := LegerEntryLog(fee.value.ledgers, receiver, t.amount, "credit", t.transactionId, TransferRef, t.id,
                                Some("Transfer from wallet " + senderNumber));
    assert credit.Success?;
    var ps := EntriesOf(ledgers, sender);
    assert EntriesOf(fee.value.ledgers, sender) == ps + [debit.value.entry] + [fee.value.entry];
    assert (ps + [debit.value.entry] + [fee.value.entry])[..|ps|] == ps;
    credit.value.ledgers
  }

  /** The transfer callback, given both wallet rows re-read under row locks. */
  function TransferBody(st: Store, call: TransferCall): (r: Result<Store, Error>)
    requires call.transactionId in st.transactions
    requires call.senderWalletId in st.wallets && call.receiverWalletId in st.wallets
    requires call.senderWalletId != call.receiverWalletId
    ensures r.Failure? <==> st.wallets[call.senderWalletId].balance < call.amount + CalculateTransferFee(call.amount)
    ensures r.Failure? ==> r.error == InsufficientBalance
    ensures r.Success? ==>
              && Transferred(st.wallets, st.ledgers, st.transfers, r.value, call)
              && r.value.deposits == st.deposits && r.value.withdrawals == st.withdrawals
              && r.value.transactions == st.transactions[call.transactionId := st.transactions[call.transactionId]
                   .(status := Completed, fee := CalculateTransferFee(call.amount), completedAt := Some(call.now))]
              && UsedKeys(r.value) == UsedKeys(st)
  {
    var processing := SetStatus(st, call.transactionId, Processing);
    var fee := CalculateTransferFee(call.amount);
    PairIsExact(call.amount, fee);
    var totalDebit := CalculateWithPrecision("add", [call.amount, fee]).value;
    var charged := SetFee(processing, call.transactionId, fee);
    if st.wallets[call.senderWalletId].balance < totalDebit then Failure(InsufficientBalance)
    else Success(SettleTransfer(charged, call))
  }

  /** The two balance updates of the callback, each a bcmath step at scale 2: the sender
      loses amount plus fee and the receiver gains the amount. */
  function MoveBalances(wallets: map<WalletId, Wallet>, call: TransferCall): (r: map<WalletId, Wallet>)
    requires call.senderWalletId in wallets && call.receiverWalletId in wallets
    ensures var sid := call.senderWalletId;
            var rid := call.receiverWalletId;
            var total := call.amount + CalculateTransferFee(call.amount);
            r == wallets[sid := wallets[sid].(balance := wallets[sid].balance - total)]
                        [rid := wallets[rid].(balance := wallets[rid].balance + call.amount)]
  {
    var sid := call.senderWalletId;
    var rid := call.receiverWalletId;
    var sender := wallets[sid];
    var receiver := wallets[rid];
    var fee := CalculateTransferFee(call.amount);
    PairIsExact(call.amount, fee);
    PairIsExact(sender.balance, call.amount + fee);
    PairIsExact(receiver.balance, call.amount);
    var totalDebit := CalculateWithPrecision("add", [call.amount, fee]).value;
    var debited := wallets[sid := sender.(balance := CalculateWithPrecision("subtract", [sender.balance, totalDebit]).value)];
    debited[rid := receiver.(balance := CalculateWithPrecision("add", [receiver.balance, call.amount]).value)]
  }

  /** The rest of the callback once the balance covers amount and fee: both balances move,
      the transfer record and its three entries are written, and the row is completed. */
  function SettleTransfer(charged: Store, call: TransferCall): (r: Store)
    requires call.transactionId in charged.transactions
    requires call.senderWalletId in charged.wallets && call.receiverWalletId in charged.wallets
    requires call.senderWalletId != call.receiverWalletId
    requires charged.wallets[call.senderWalletId].balance >= call.amount + CalculateTransferFee(call.amount)
    ensures Transferred(charged.wallets, charged.ledgers, charged.transfers, r, call)
    ensures r.deposits == charged.deposits && r.withdrawals == charged.withdrawals
    ensures r.transactions == charged.transactions[call.transactionId := charged.transactions[call.transactionId]
              .(status := Completed, completedAt := Some(call.now))]
    ensures UsedKeys(r) == UsedKeys(charged)
  {
    var sid := call.senderWalletId;
    var rid := call.receiverWalletId;
    var sender := charged.wallets[sid];
    var receiver := charged.wallets[rid];
    var fee := CalculateTransferFee(call.amount);
    var record := TransferRecord(|charged.transfers| + 1, call.transactionId, sid, rid, call.amount, fee);
    var moved := charged.(wallets := MoveBalances(charged.wallets, call), transfers := charged.transfers + [record]);
    var logged := moved.(ledgers := CreateTransferLedgerEntries(moved.ledgers, sid, sender.walletNumber, rid, receiver.walletNumber, record));
    UpdateTransaction(logged, call.transactionId, Completed, Some(call.now))
  }

  /** `executeWithMultipleWalletLocks` as the transfer calls it. When a pass obtains
      every lock, both rows are re-read and the callback runs inside a storage
      transaction whose failure rolls every write back; when a pass is refused it releases
      what it holds and the next pass follows, up to the third. Every pass's handles are
      released again on the way out, which changes nothing for handles already released. */
  function ExecuteWithMultipleWalletLocks(s: Store, p: Provider, ids: seq<WalletId>, call: TransferCall, attempt: nat): (r: Outcome)
    requires Valid(p)
    requires call.transactionId in s.transactions
    requires ids == LockOrder(call.senderWalletId, call.receiverWalletId)
    requires 1 <= attempt <= MaxRetryAttempts
    decreases MaxRetryAttempts - attempt
    ensures Valid(r.provider) && r.provider.held == p.held
    ensures r.result.Failure? ==> r.store == s
    ensures !RoundsSucceedWithin(p, ids, MaxRetryAttempts - attempt + 1) ==> r.result == Failure(WalletLocked)
    ensures RoundsSucceedWithin(p, ids, MaxRetryAttempts - attempt + 1) ==>
              && call.senderWalletId != call.receiverWalletId
              && if call.senderWalletId !in s.wallets || call.receiverWalletId !in s.wallets then r.result == Failure(WalletRowMissing)
                 else
                   var body := TransferBody(s, call);
                   && (body.Failure? ==> r.result == Failure(body.error))
                   && (body.Success? ==> r.store == body.value &&
                                         r.result == Success(body.value.transactions[call.transactionId]))
  {
    var round := AcquireInOrder(p, ids);
    ReleaseOwned(round.provider, round.handles);
    var freed := ReleaseAll(round.provider, round.handles);
    assert freed.held == p.held;
    if round.obtained then
      assert ids[0] != ids[1];
      var body := if call.senderWalletId !in s.wallets || call.receiverWalletId !in s.wallets then Failure(WalletRowMissing)
                  else TransferBody(s, call);
      match body
      case Success(st) => Outcome(st, freed, Success(st.transactions[call.transactionId]))
      case Failure(e) => Outcome(s, freed, Failure(e))
    else if attempt < MaxRetryAttempts then
      var retried := ExecuteWithMultipleWalletLocks(s, freed, ids, call, attempt + 1);
      ReleaseUnownedIsNoOp(retried.provider, round.handles);
      Outcome(retried.store, ReleaseAll(retried.provider, round.handles), retried.result)
    else
      Outcome(s, freed, Failure(WalletLocked))
  }

  /** The transactions row a transfer inserts: it carries no idempotency key. */
  function TransferRow(transactionId: string, amount: Cents): Transaction {
    Transaction(transactionId, TransferTransaction, None, amount, 0, Pending, None)
  }

  /** The receiver `getByKey('wallet_number', ...)->first()` finds, when it is active. */
  function ActiveReceiver(wallets: map<WalletId, Wallet>, receiverWalletNumber: string): (r: Option<WalletId>)
    requires UniqueNumbers(wallets)
    ensures r.Some? <==> exists id :: id in wallets && wallets[id].walletNumber == receiverWalletNumber && wallets[id].status == Active
    ensures r.Some? ==> r.value in wallets && wallets[r.value].walletNumber == receiverWalletNumber
  {
    match FindByNumber(wallets, receiverWalletNumber)
    case None => None
    case Some(id) => if wallets[id].status == Active then Some(id) else None
  }

  /** Whether, after the guard, one of the three passes obtains both wallets' locks. */
  predicate TransferLocksObtained(s: Store, p: Provider, key: string, senderWalletId: WalletId, receiverWalletId: WalletId)
    requires Valid(p)
  {
    var g := CheckIdempotent(key, UsedKeys(s), UsedKeys(s), p);
    RoundsSucceedWithin(g.provider, LockOrder(senderWalletId, receiverWalletId), MaxRetryAttempts)
  }

  /** `executeTransfer`. `transactionId` is the UUID the service generates and `now` the
      clock reading stored as `completed_at`. The sender's status is never looked at. */
  function ExecuteTransfer(s: Store, p: Provider, senderWalletId: WalletId, receiverWalletNumber: string,
                           amount: Cents, key: string, transactionId: string, now: int): (r: Outcome)
    requires Valid(p)
    requires UniqueNumbers(s.wallets)
    requires transactionId !in s.transactions
    ensures Valid(r.provider) && r.provider.held == p.held
    ensures UsedKeys(r.store) == UsedKeys(s)
    ensures key in UsedKeys(s) ==> r == Outcome(s, p, Failure(DuplicateTransaction))
    ensures !Admitted(s, p, key) ==>
              r.store == s && r.result.Failure? &&
              (r.result.error == DuplicateTransaction || r.result.error == ConcurrentRequest)
    ensures Admitted(s, p, key) && r.result.Failure? ==>
              r.store == InsertTransaction(s, TransferRow(transactionId, amount).(status := Failed))
    ensures Admitted(s, p, key) && ActiveReceiver(s.wallets, receiverWalletNumber).None? ==> r.result == Failure(WalletNotFound)
    ensures Admitted(s, p, key) && ActiveReceiver(s.wallets, receiverWalletNumber).Some? &&
            !TransferLocksObtained(s, p, key, senderWalletId, ActiveReceiver(s.wallets, receiverWalletNumber).value) ==>
              r.result == Failure(WalletLocked)
    ensures r.result.Success? <==>
              && Admitted(s, p, key)
              && ActiveReceiver(s.wallets, receiverWalletNumber).Some?
              && TransferLocksObtained(s, p, key, senderWalletId, ActiveReceiver(s.wallets, receiverWalletNumber).value)
              && senderWalletId in s.wallets
              && s.wallets[senderWalletId].balance >= amount + CalculateTransferFee(amount)
    ensures r.result.Success? ==> transactionId in r.store.transactions && r.result.value == r.store.transactions[transactionId]
  {
    var guard := CheckIdempotent(key, UsedKeys(s), UsedKeys(s), p);
    if guard.result.Failure? then Outcome(s, guard.provider, Failure(guard.result.error))
    else
      var pending := InsertTransaction(s, TransferRow(transactionId, amount));
      FailInserted(s, TransferRow(transactionId, amount));
      match ActiveReceiver(pending.wallets, receiverWalletNumber)
      case None => Outcome(SetStatus(pending, transactionId, Failed), guard.provider, Failure(WalletNotFound))
      case Some(receiverWalletId) =>
        TransferToReceiver(s, guard.provider, TransferCall(senderWalletId, receiverWalletId, amount, transactionId, now))
  }

  /** `executeTransfer` once the guard has passed and the receiver is found: the pending
      row is inserted, the callback runs under both locks, and a failure leaves the row
      marked failed. */
  function TransferToReceiver(s: Store, p: Provider, call: TransferCall): (r: Outcome)
    requires Valid(p)
    requires call.transactionId !in s.transactions
    requires call.receiverWalletId in s.wallets
    ensures Valid(r.provider) && r.provider.held == p.held
    ensures UsedKeys(r.store) == UsedKeys(s)
    ensures r.result.Failure? ==> r.store == InsertTransaction(s, TransferRow(call.transactionId, call.amount).(status := Failed))
    ensures !RoundsSucceedWithin(p, LockOrder(call.senderWalletId, call.receiverWalletId), MaxRetryAttempts) ==>
              r.result == Failure(WalletLocked)
    ensures r.result.Success? <==>
              && RoundsSucceedWithin(p, LockOrder(call.senderWalletId, call.receiverWalletId), MaxRetryAttempts)
              && call.senderWalletId in s.wallets
              && s.wallets[call.senderWalletId].balance >= call.amount + CalculateTransferFee(call.amount)
    ensures r.result.Success? ==> call.transactionId in r.store.transactions && r.result.value == r.store.transactions[call.transactionId]
  {
    var pending := InsertTransaction(s, TransferRow(call.transactionId, call.amount));
    FailInserted(s, TransferRow(call.transactionId, call.amount));
    var locked := ExecuteWithMultipleWalletLocks(pending, p, LockOrder(call.senderWalletId, call.receiverWalletId), call, 1);
    LockedTransfer(pending, p, call);
    match locked.result
    case Success(t) => Outcome(locked.store, locked.provider, Success(t))
    case Failure(e) => Outcome(SetStatus(pending, call.transactionId, Failed), locked.provider, Failure(e))
  }

  /** What the locked callback returns for a transfer whose receiver exists. */
  lemma LockedTransfer(pending: Store, p: Provider, call: TransferCall)
    requires Valid(p)
    requires call.transactionId in pending.transactions
    requires call.receiverWalletId in pending.wallets
    ensures var ids := LockOrder(call.senderWalletId, call.receiverWalletId);
            var locked := ExecuteWithMultipleWalletLocks(pending, p, ids, call, 1);
            && (locked.result.Success? <==>
                  && RoundsSucceedWithin(p, ids, MaxRetryAttempts)
                  && call.senderWalletId in pending.wallets
                  && pending.wallets[call.senderWalletId].balance >= call.amount + CalculateTransferFee(call.amount))
            && (locked.result.Success? ==>
                  && UsedKeys(locked.store) == UsedKeys(pending)
                  && call.transactionId in locked.store.transactions
                  && locked.result.value == locked.store.transactions[call.transactionId])
  {
    var ids := LockOrder(call.senderWalletId, call.receiverWalletId);
    var locked := ExecuteWithMultipleWalletLocks(pending, p, ids, call, 1);
    if RoundsSucceedWithin(p, ids, MaxRetryAttempts) && call.senderWalletId in pending.wallets {
      var body := TransferBody(pending, call);
      if body.Success? {
        assert locked.store == body.value;
      }
    }
  }

  /** A transfer that succeeds moves the amount from sender to receiver, charges the fee
      to the sender, writes exactly three ledger entries and the transfer record, and
      completes a row that carries the fee but no idempotency key. */
  lemma TransferEffects(s: Store, p: Provider, senderWalletId: WalletId, receiverWalletNumber: string,
                        amount: Cents, key: string, transactionId: string, now: int)
    requires Valid(p) && UniqueNumbers(s.wallets) && transactionId !in s.transactions
    requires ExecuteTransfer(s, p, senderWalletId, receiverWalletNumber, amount, key, transactionId, now).result.Success?
    ensures var r := ExecuteTransfer(s, p, senderWalletId, receiverWalletNumber, amount, key, transactionId, now);
            var receiverWalletId := ActiveReceiver(s.wallets, receiverWalletNumber).value;
            && senderWalletId in s.wallets && senderWalletId != receiverWalletId
            && Transferred(s.wallets, s.ledgers, s.transfers, r.store, TransferCall(senderWalletId, receiverWalletId, amount, transactionId, now))
            && r.store.deposits == s.deposits && r.store.withdrawals == s.withdrawals
            && r.result.value == TransferRow(transactionId, amount).(status := Completed, fee := CalculateTransferFee(amount), completedAt := Some(now))
  {
    var guard := CheckIdempotent(key, UsedKeys(s), UsedKeys(s), p);
    var pending := InsertTransaction(s, TransferRow(transactionId, amount));
    var receiverWalletId := ActiveReceiver(pending.wallets, receiverWalletNumber).value;
    var call := TransferCall(senderWalletId, receiverWalletId, amount, transactionId, now);
    var locked := ExecuteWithMultipleWalletLocks(pending, guard.provider, LockOrder(senderWalletId, receiverWalletId), call, 1);
    assert ExecuteTransfer(s, p, senderWalletId, receiverWalletNumber, amount, key, transactionId, now)
           == Outcome(locked.store, locked.provider, locked.result);
    var body := TransferBody(pending, call);
    assert locked.store == body.value;
  }

  /** A transfer changes balances only. */
  lemma TransferredSameAccounts(wallets: map<WalletId, Wallet>, ledgers: Ledgers, transfers: seq<TransferRecord>,
                                r: Store, call: TransferCall)
    requires call.senderWalletId in wallets && call.receiverWalletId in wallets
    requires Transferred(wallets, ledgers, transfers, r, call)
    ensures SameAccounts(wallets, r.wallets)
  {
  }

  /** Money is conserved between the two wallets except for the fee, which leaves the
      system; every other wallet keeps its balance and the sender does not go below zero. */
  lemma TransferConservesMoney(wallets: map<WalletId, Wallet>, ledgers: Ledgers, transfers: seq<TransferRecord>,
                               r: Store, call: TransferCall)
    requires call.senderWalletId in wallets && call.receiverWalletId in wallets
    requires call.senderWalletId != call.receiverWalletId
    requires wallets[call.senderWalletId].balance >= call.amount + CalculateTransferFee(call.amount)
    requires Transferred(wallets, ledgers, transfers, r, call)
    ensures var sid := call.senderWalletId;
            var rid := call.receiverWalletId;
            && r.wallets.Keys == wallets.Keys
            && r.wallets[sid].balance + r.wallets[rid].balance
               == wallets[sid].balance + wallets[rid].balance - CalculateTransferFee(call.amount)
            && r.wallets[sid].balance >= 0
            && forall w :: w in wallets && w != sid && w != rid ==> r.wallets[w] == wallets[w]
  {
  }

  /** The fee entry is written even when the fee is zero: a transfer of at most 25.00
      appends a fee entry of 0.00 after the debit, and that entry leaves the balance as it was. */
  lemma ZeroFeeEntryWritten(s: Store, p: Provider, senderWalletId: WalletId, receiverWalletNumber: string,
                            amount: Cents, key: string, transactionId: string, now: int)
    requires Valid(p) && UniqueNumbers(s.wallets) && transactionId !in s.transactions
    requires amount <= TransferThreshold
    requires ExecuteTransfer(s, p, senderWalletId, receiverWalletNumber, amount, key, transactionId, now).result.Success?
    ensures var r := ExecuteTransfer(s, p, senderWalletId, receiverWalletNumber, amount, key, transactionId, now);
            FreeFeeEntry(EntriesOf(s.ledgers, senderWalletId), EntriesOf(r.store.ledgers, senderWalletId))
  {
    TransferEffects(s, p, senderWalletId, receiverWalletNumber, amount, key, transactionId, now);
    var r := ExecuteTransfer(s, p, senderWalletId, receiverWalletNumber, amount, key, transactionId, now);
    var receiverWalletId := ActiveReceiver(s.wallets, receiverWalletNumber).value;
    ZeroFeeStep(s.wallets, s.ledgers, s.transfers, r.store, TransferCall(senderWalletId, receiverWalletId, amount, transactionId, now));
  }

  /** The sender's second new entry, for a transfer that costs nothing. */
  lemma ZeroFeeStep(wallets: map<WalletId, Wallet>, ledgers: Ledgers, transfers: seq<TransferRecord>,
                    r: Store, call: TransferCall)
    requires call.senderWalletId in wallets && call.receiverWalletId in wallets
    requires call.amount <= TransferThreshold
    requires Transferred(wallets, ledgers, transfers, r, call)
    ensures FreeFeeEntry(EntriesOf(ledgers, call.senderWalletId), EntriesOf(r.ledgers, call.senderWalletId))
  {
  }

  /** The sender's ledger grew by two entries, the second a fee entry of 0.00 that leaves
      the balance where it was. */
  predicate FreeFeeEntry(ps: seq<Entry>, es: seq<Entry>) {
    && |es| == |ps| + 2
    && es[|ps| + 1].entryType == Fee && es[|ps| + 1].amount == 0
    && es[|ps| + 1].balanceAfter == es[|ps| + 1].balanceBefore
  }

  /** A pass over the same wallet twice never obtains every lock, so no number of passes does. */
  lemma {:induction false} RepeatedWalletNeverLocks(p: Provider, ids: seq<WalletId>, tries: nat)
    requires Valid(p)
    requires !Distinct(ids)
    ensures !RoundsSucceedWithin(p, ids, tries)
    decreases tries
  {
    if tries > 0 {
      var round := AcquireInOrder(p, ids);
      RepeatedWalletNeverLocks(ReleaseAll(round.provider, round.handles), ids, tries - 1);
    }
  }

  /** A wallet whose lock another worker keeps for the whole time is never obtained. */
  lemma {:induction false} HeldWalletNeverLocks(p: Provider, ids: seq<WalletId>, i: nat, tries: nat)
    requires Valid(p)
    requires i < |ids| && WalletLock(ids[i]) in p.held
    ensures !RoundsSucceedWithin(p, ids, tries)
    decreases tries
  {
    if tries > 0 {
      var round := AcquireInOrder(p, ids);
      ReleaseOwned(round.provider, round.handles);
      HeldWalletNeverLocks(ReleaseAll(round.provider, round.handles), ids, i, tries - 1);
    }
  }

  /** A transfer from a wallet to its own number always ends in `WalletLocked`: the
      sorted ids name the same lock twice and the second attempt finds it held. */
  lemma SelfTransferIsLocked(s: Store, p: Provider, senderWalletId: WalletId, receiverWalletNumber: string,
                             amount: Cents, key: string, transactionId: string, now: int)
    requires Valid(p) && UniqueNumbers(s.wallets) && transactionId !in s.transactions
    requires Admitted(s, p, key)
    requires ActiveReceiver(s.wallets, receiverWalletNumber) == Some(senderWalletId)
    ensures var r := ExecuteTransfer(s, p, senderWalletId, receiverWalletNumber, amount, key, transactionId, now);
            && r.result == Failure(WalletLocked)
            && r.store.wallets == s.wallets && r.store.ledgers == s.ledgers
  {
    var g := CheckIdempotent(key, UsedKeys(s), UsedKeys(s), p);
    assert !Distinct(LockOrder(senderWalletId, senderWalletId));
    RepeatedWalletNeverLocks(g.provider, LockOrder(senderWalletId, senderWalletId), MaxRetryAttempts);
  }

  /** The sender's status is never checked: a suspended sender whose transfer is otherwise
      admissible completes it. */
  lemma SuspendedSenderCanTransfer(s: Store, p: Provider, senderWalletId: WalletId, receiverWalletNumber: string,
                                   amount: Cents, key: string, transactionId: string, now: int)
    requires Valid(p) && UniqueNumbers(s.wallets) && transactionId !in s.transactions
    requires senderWalletId in s.wallets && s.wallets[senderWalletId].status == Suspended
    requires s.wallets[senderWalletId].balance >= amount + CalculateTransferFee(amount)
    requires Admitted(s, p, key)
    requires ActiveReceiver(s.wallets, receiverWalletNumber).Some?
    requires TransferLocksObtained(s, p, key, senderWalletId, ActiveReceiver(s.wallets, receiverWalletNumber).value)
    ensures ExecuteTransfer(s, p, senderWalletId, receiverWalletNumber, amount, key, transactionId, now).result.Success?
  {
  }

  /** The transfer's key is never stored, so after a completed transfer the same key
      still passes the guard's first lookup. */
  lemma TransferKeyStaysUnused(s: Store, p: Provider, senderWalletId: WalletId, receiverWalletNumber: string,
                               amount: Cents, key: string, transactionId: string, now: int)
    requires Valid(p) && UniqueNumbers(s.wallets) && transactionId !in s.transactions
    requires key !in UsedKeys(s)
    ensures key !in UsedKeys(ExecuteTransfer(s, p, senderWalletId, receiverWalletNumber, amount, key, transactionId, now).store)
  {
  }

  /** A successful transfer leaves exactly one new transaction row, the one it returns. */
  lemma TransferRowStored(s: Store, p: Provider, senderWalletId: WalletId, receiverWalletNumber: string,
                          amount: Cents, key: string, transactionId: string, now: int)
    requires Valid(p) && UniqueNumbers(s.wallets) && transactionId !in s.transactions
    requires ExecuteTransfer(s, p, senderWalletId, receiverWalletNumber, amount, key, transactionId, now).result.Success?
    ensures var r := ExecuteTransfer(s, p, senderWalletId, receiverWalletNumber, amount, key, transactionId, now);
            r.store.transactions == s.transactions[transactionId := r.result.value]
  {
    var guard := CheckIdempotent(key, UsedKeys(s), UsedKeys(s), p);
    var pending := InsertTransaction(s, TransferRow(transactionId, amount));
    var receiverWalletId := ActiveReceiver(pending.wallets, receiverWalletNumber).value;
    var call := TransferCall(senderWalletId, receiverWalletId, amount, transactionId, now);
    var locked := ExecuteWithMultipleWalletLocks(pending, guard.provider, LockOrder(senderWalletId, receiverWalletId), call, 1);
    assert ExecuteTransfer(s, p, senderWalletId, receiverWalletNumber, amount, key, transactionId, now)
           == Outcome(locked.store, locked.provider, locked.result);
    var body := TransferBody(pending, call);
    assert locked.store == body.value;
    var completed := pending.transactions[transactionId]
                       .(status := Completed, fee := CalculateTransferFee(amount), completedAt := Some(now));
    assert body.value.transactions == pending.transactions[transactionId := completed];
    assert locked.result == Success(completed);
    OverwriteTwice(s.transactions, transactionId, TransferRow(transactionId, amount), completed);
  }

  lemma OverwriteTwice<K, V>(m: map<K, V>, k: K, a: V, b: V)
    ensures m[k := a][k := b] == m[k := b]
  {
  }
}

=== FILE: validators.dfy ===
/** Two string rules outside the money path: the shape check an idempotent request
    applies to its `X-Idempotency-Key` header, and the CamelCase to snake_case
    conversion a CRUD service applies to its entity name. */
module Validators {
  import opened Outcomes

  // ---------------------------------------------------------------------------
  // Idempotency key header
  // ---------------------------------------------------------------------------

  /** One entry of the array of field errors the request validator returns. */
  datatype FieldError = FieldError(field: string, message: string)

  const KeyHeader: string := "X-Idempotency-Key"
  const RequiredError: FieldError := FieldError(KeyHeader, "Request Key is required.")
  const FormatError: FieldError := FieldError(KeyHeader, "Invalid idempotency key format. Must be a valid UUID.")

  /** The lengths of the hyphen-separated hex groups of the pattern, 8-4-4-4-12. */
  const UuidGroups: seq<nat> := [8, 4, 4, 4, 12]

  /** `[a-f0-9]` under the case-insensitive flag. */
  predicate IsHexDigit(c: char) {
    ('0' <= c <= '9') || ('a' <= c <= 'f') || ('A' <= c <= 'F')
  }

  predicate AllHex(s: string) {
    forall i :: 0 <= i < |s| ==> IsHexDigit(s[i])
  }

  /** A string matching the groups `[a-f0-9]{g0}-[a-f0-9]{g1}-...` exactly, as the
      pattern's concatenation consumes it left to right. */
  predicate MatchGroups(s: string, groups: seq<nat>)
    decreases |groups|
  {
    if |groups| == 0 then false
    else if |groups| == 1 then |s| == groups[0] && AllHex(s)
    else
      && |s| > groups[0]
      && AllHex(s[..groups[0]])
      && s[groups[0]] == '-'
      && MatchGroups(s[groups[0] + 1..], groups[1..])
  }

  /** The anchored pattern: `^` at the start, and `$` either at the very end or just
      before a final newline, which is what `$` means without the dollar-end-only flag. */
  predicate PatternMatches(key: string) {
    || MatchGroups(key, UuidGroups)
    || (|key| > 0 && key[|key| - 1] == '\n' && MatchGroups(key[..|key| - 1], UuidGroups))
  }

  /** The canonical textual UUID layout, position by position: hyphens at 8, 13, 18
      and 23 and a hex digit of either case everywhere else. */
  predicate IsDashPosition(i: int) {
    i == 8 || i == 13 || i == 18 || i == 23
  }

  predicate UuidShape(k: string) {
    && |k| == 36
    && forall i :: 0 <= i < 36 ==> if IsDashPosition(i) then k[i] == '-' else IsHexDigit(k[i])
  }

  /** PHP's truthiness of a string: only "" and "0" are false. */
  predicate Truthy(s: string) {
    s != "" && s != "0"
  }

  /** A hex run followed by the rest of a match is a match of the longer group list. */
  lemma MatchGroupsStep(s: string, groups: seq<nat>)
    requires |groups| >= 2
    ensures MatchGroups(s, groups) <==>
              (|s| > groups[0] && AllHex(s[..groups[0]]) && s[groups[0]] == '-'
               && MatchGroups(s[groups[0] + 1..], groups[1..]))
  {
  }

  /** The pattern's group-by-group reading and the position-by-position layout agree. */
  lemma MatchGroupsIffUuidShape(k: string)
    ensures MatchGroups(k, UuidGroups) <==> UuidShape(k)
  {
    if UuidShape(k) {
      ShapeMatchesGroups(k);
    }
    if MatchGroups(k, UuidGroups) {
      GroupsGiveShape(k);
    }
  }

  /** A string laid out as a UUID matches the five groups. */
  lemma ShapeMatchesGroups(k: string)
    requires UuidShape(k)
    ensures MatchGroups(k, UuidGroups)
  {
    var g := UuidGroups;
    assert g[1..] == [4, 4, 4, 12] && g[1..][1..] == [4, 4, 12];
    assert g[1..][1..][1..] == [4, 12] && g[1..][1..][1..][1..] == [12];
    var k1 := k[9..];
    var k2 := k1[5..];
    var k3 := k2[5..];
    var k4 := k3[5..];
    assert k4 == k[24..];
    assert AllHex(k4) by {
      forall i | 0 <= i < |k4| ensures IsHexDigit(k4[i]) {
        assert k4[i] == k[24 + i];
      }
    }
    assert MatchGroups(k4, [12]);
    assert AllHex(k3[..4]) by {
      forall i | 0 <= i < 4 ensures IsHexDigit(k3[..4][i]) {
        assert k3[..4][i] == k[19 + i];
      }
    }
    assert k3[4] == k[23];
    assert MatchGroups(k3, [4, 12]);
    assert AllHex(k2[..4]) by {
      forall i | 0 <= i < 4 ensures IsHexDigit(k2[..4][i]) {
        assert k2[..4][i] == k[14 + i];
      }
    }
    assert k2[4] == k[18];
    assert MatchGroups(k2, [4, 4, 12]);
    assert AllHex(k1[..4]) by {
      forall i | 0 <= i < 4 ensures IsHexDigit(k1[..4][i]) {
        assert k1[..4][i] == k[9 + i];
      }
    }
    assert k1[4] == k[13];
    assert MatchGroups(k1, [4, 4, 4, 12]);
    assert AllHex(k[..8]) by {
      forall i | 0 <= i < 8 ensures IsHexDigit(k[..8][i]) {
        assert k[..8][i] == k[i];
      }
    }
    MatchGroupsStep(k, g);
  }

  /** A string that matches the five groups is laid out as a UUID. */
  lemma GroupsGiveShape(k: string)
    requires MatchGroups(k, UuidGroups)
    ensures UuidShape(k)
  {
    var g := UuidGroups;
    assert g[1..] == [4, 4, 4, 12] && g[1..][1..] == [4, 4, 12];
    assert g[1..][1..][1..] == [4, 12] && g[1..][1..][1..][1..] == [12];
    MatchGroupsStep(k, g);
    var k1 := k[9..];
    MatchGroupsStep(k1, g[1..]);
    var k2 := k1[5..];
    MatchGroupsStep(k2, g[1..][1..]);
    var k3 := k2[5..];
    MatchGroupsStep(k3, g[1..][1..][1..]);
    var k4 := k3[5..];
    assert |k4| == 12 && AllHex(k4);
    assert |k| == 36;
    forall i | 0 <= i < 36
      ensures if IsDashPosition(i) then k[i] == '-' else IsHexDigit(k[i])
    {
      if i < 8 {
        assert k[i] == k[..8][i];
      } else if 8 < i < 13 {
        assert k[i] == k1[..4][i - 9];
      } else if 13 < i < 18 {
        assert k[i] == k2[..4][i - 14];
      } else if 18 < i < 23 {
        assert k[i] == k3[..4][i - 19];
      } else if 23 < i {
        assert k[i] == k4[i - 24];
      }
    }
  }

  /** The anchored pattern, stated by layout: a UUID, or a UUID and one final newline. */
  lemma PatternMatchesIffShape(k: string)
    ensures PatternMatches(k) <==>
              (UuidShape(k) || (|k| == 37 && k[36] == '\n' && UuidShape(k[..36])))
  {
    MatchGroupsIffUuidShape(k);
    if |k| > 0 {
      MatchGroupsIffUuidShape(k[..|k| - 1]);
    }
  }

  /** `validateIdempotencyKey`: a missing header is required, a truthy header must
      match the UUID pattern, and at most one error is ever returned. */
  function ValidateIdempotencyKey(key: Option<string>): (errors: seq<FieldError>)
    ensures |errors| <= 1
    ensures forall i :: 0 <= i < |errors| ==> errors[i].field == KeyHeader
    ensures key.None? <==> errors == [RequiredError]
    ensures key.Some? ==>
              (errors == [] <==>
                 || !Truthy(key.value)
                 || UuidShape(key.value)
                 || (|key.value| == 37 && key.value[36] == '\n' && UuidShape(key.value[..36])))
  {
    match key
    case None => [RequiredError]
    case Some(k) =>
      PatternMatchesIffShape(k);
      if Truthy(k) && !PatternMatches(k) then [FormatError] else []
  }

  /** A well-formed key passes in any mix of letter cases. */
  lemma AnyCaseUuidAccepted()
    ensures ValidateIdempotencyKey(Some("550e8400-e29b-41d4-a716-446655440000")) == []
    ensures ValidateIdempotencyKey(Some("550E8400-E29B-41D4-A716-446655440000")) == []
  {
    var lower := "550e8400-e29b-41d4-a716-446655440000";
    var upper := "550E8400-E29B-41D4-A716-446655440000";
    assert UuidShape(lower) by {
      forall i | 0 <= i < 36 ensures if IsDashPosition(i) then lower[i] == '-' else IsHexDigit(lower[i]) {}
    }
    assert UuidShape(upper) by {
      forall i | 0 <= i < 36 ensures if IsDashPosition(i) then upper[i] == '-' else IsHexDigit(upper[i]) {}
    }
  }

  /** A truthy key that is not a UUID, with or without a final newline, gets exactly
      the format error. */
  lemma MalformedKeyRejected(k: string)
    requires Truthy(k)
    requires !UuidShape(k)
    requires !(|k| == 37 && k[36] == '\n' && UuidShape(k[..36]))
    ensures ValidateIdempotencyKey(Some(k)) == [FormatError]
  {
  }

  /** The PHP-falsy headers "" and "0" slip through the `$key &&` guard unchecked. */
  lemma FalsyKeysAccepted()
    ensures ValidateIdempotencyKey(Some("")) == []
    ensures ValidateIdempotencyKey(Some("0")) == []
  {
  }

  /** A UUID followed by one newline passes, because `$` also anchors before a final newline. */
  lemma NewlineTerminatedUuidAccepted()
    ensures ValidateIdempotencyKey(Some("550e8400-e29b-41d4-a716-446655440000\n")) == []
  {
    var k := "550e8400-e29b-41d4-a716-446655440000\n";
    assert UuidShape(k[..36]) by {
      forall i | 0 <= i < 36 ensures if IsDashPosition(i) then k[..36][i] == '-' else IsHexDigit(k[..36][i]) {
        assert k[..36][i] == k[i];
      }
    }
  }

  /** A short free-text key gets the format error. */
  lemma FreeTextKeyRejected()
    ensures ValidateIdempotencyKey(Some("not-a-uuid")) == [FormatError]
  {
    MalformedKeyRejected("not-a-uuid");
  }

  // ---------------------------------------------------------------------------
  // Entity names
  // ---------------------------------------------------------------------------

  predicate IsUpper(c: char) {
    'A' <= c <= 'Z'
  }

  predicate IsLower(c: char) {
    'a' <= c <= 'z'
  }

  predicate IsDigit(c: char) {
    '0' <= c <= '9'
  }

  /** A PCRE word character, `\w` without the Unicode flag. */
  predicate IsWordChar(c: char) {
    IsUpper(c) || IsLower(c) || IsDigit(c) || c == '_'
  }

  predicate AlphaNumeric(s: string) {
    forall i :: 0 <= i < |s| ==> IsUpper(s[i]) || IsLower(s[i]) || IsDigit(s[i])
  }

  /** `strtolower` on one byte: only the ASCII capitals change. */
  function Lower(c: char): (d: char)
    ensures !IsUpper(d)
    ensures IsUpper(c) ==> IsLower(d) && d as int == c as int + 32
    ensures !IsUpper(c) ==> d == c
  {
    if IsUpper(c) then (c as int + 32) as char else c
  }

  /** Whether the pattern `\B([A-Z])` matches at position i of the original name: a
      capital with no word boundary before it, that is, not at the start and right
      after a word character. */
  predicate Splits(s: string, i: int) {
    0 < i < |s| && IsUpper(s[i]) && IsWordChar(s[i - 1])
  }

  /** `preg_replace('/\B([A-Z])/', '_$1', ...)`: an underscore before every matching capital. */
  function InsertUnderscores(s: string): (r: string)
    ensures |r| >= |s|
    ensures |s| > 0 ==> |r| > 0 && r[|r| - 1] == s[|s| - 1]
    decreases |s|
  {
    if |s| == 0 then []
    else
      var n := |s| - 1;
      InsertUnderscores(s[..n]) + (if Splits(s, n) then "_" else "") + [s[n]]
  }

  /** `strtolower`: every character lowered in place. */
  function ToLower(s: string): (r: string)
    ensures |r| == |s|
    ensures forall i :: 0 <= i < |s| ==> r[i] == Lower(s[i])
    decreases |s|
  {
    if |s| == 0 then [] else ToLower(s[..|s| - 1]) + [Lower(s[|s| - 1])]
  }

  /** The constructor's entity name: snake_case, all lower case. */
  function EntityName(s: string): (r: string)
    ensures forall i :: 0 <= i < |r| ==> !IsUpper(r[i])
    ensures |r| >= |s|
  {
    ToLower(InsertUnderscores(s))
  }

  function Count(c: char, s: string): nat
    decreases |s|
  {
    if |s| == 0 then 0 else Count(c, s[..|s| - 1]) + (if s[|s| - 1] == c then 1 else 0)
  }

  /** The number of capitals after the first character of a name. */
  function InnerCapitals(s: string): nat
    decreases |s|
  {
    if |s| <= 1 then 0
    else InnerCapitals(s[..|s| - 1]) + (if IsUpper(s[|s| - 1]) then 1 else 0)
  }

  /** A string with every underscore taken out. */
  function DropUnderscores(s: string): string
    decreases |s|
  {
    if |s| == 0 then []
    else DropUnderscores(s[..|s| - 1]) + (if s[|s| - 1] == '_' then [] else [s[|s| - 1]])
  }

  lemma {:induction false} CountAppend(c: char, a: string, b: string)
    ensures Count(c, a + b) == Count(c, a) + Count(c, b)
    decreases |b|
  {
    if |b| > 0 {
      assert (a + b)[..|a + b| - 1] == a + b[..|b| - 1];
      CountAppend(c, a, b[..|b| - 1]);
    } else {
      assert a + b == a;
    }
  }

  lemma {:induction false} DropAppend(a: string, b: string)
    ensures DropUnderscores(a + b) == DropUnderscores(a) + DropUnderscores(b)
    decreases |b|
  {
    if |b| > 0 {
      assert (a + b)[..|a + b| - 1] == a + b[..|b| - 1];
      DropAppend(a, b[..|b| - 1]);
    } else {
      assert a + b == a;
    }
  }

  lemma ToLowerAppend(a: string, b: string)
    ensures ToLower(a + b) == ToLower(a) + ToLower(b)
  {
  }

  /** Lowering never creates or removes an underscore. */
  lemma {:induction false} LowerKeepsUnderscores(s: string)
    ensures Count('_', ToLower(s)) == Count('_', s)
    ensures DropUnderscores(ToLower(s)) == ToLower(DropUnderscores(s))
    decreases |s|
  {
    if |s| > 0 {
      var n := |s| - 1;
      LowerKeepsUnderscores(s[..n]);
      assert ToLower(s)[..n] == ToLower(s[..n]);
      ToLowerAppend(DropUnderscores(s[..n]), if s[n] == '_' then [] else [s[n]]);
    }
  }

  /** Taking the underscores back out of the replacement gives the name with its own
      underscores taken out: the replacement only inserts underscores. */
  lemma {:induction false} InsertOnlyAddsUnderscores(s: string)
    ensures DropUnderscores(InsertUnderscores(s)) == DropUnderscores(s)
    decreases |s|
  {
    if |s| > 0 {
      var n := |s| - 1;
      var mid: string := if Splits(s, n) then "_" else "";
      InsertOnlyAddsUnderscores(s[..n]);
      DropAppend(InsertUnderscores(s[..n]) + mid, [s[n]]);
      DropAppend(InsertUnderscores(s[..n]), mid);
      assert DropUnderscores(mid) == [];
    }
  }

  /** For a name without underscores of its own, deleting the inserted underscores
      from the entity name gives the lowercased name. */
  lemma DroppingUnderscoresGivesLoweredName(s: string)
    requires forall i :: 0 <= i < |s| ==> s[i] != '_'
    ensures DropUnderscores(EntityName(s)) == ToLower(s)
  {
    LowerKeepsUnderscores(InsertUnderscores(s));
    InsertOnlyAddsUnderscores(s);
    NoUnderscoreDropsNothing(s);
  }

  lemma {:induction false} NoUnderscoreDropsNothing(s: string)
    requires forall i :: 0 <= i < |s| ==> s[i] != '_'
    ensures DropUnderscores(s) == s
    decreases |s|
  {
    if |s| > 0 {
      NoUnderscoreDropsNothing(s[..|s| - 1]);
    }
  }

  /** For a letters-and-digits name, the replacement inserts exactly one underscore per
      capital after the first character. */
  lemma {:induction false} InsertCountsInnerCapitals(s: string)
    requires AlphaNumeric(s)
    ensures Count('_', InsertUnderscores(s)) == InnerCapitals(s)
    decreases |s|
  {
    if |s| > 0 {
      var n := |s| - 1;
      var mid: string := if Splits(s, n) then "_" else "";
      InsertCountsInnerCapitals(s[..n]);
      CountAppend('_', InsertUnderscores(s[..n]) + mid, [s[n]]);
      CountAppend('_', InsertUnderscores(s[..n]), mid);
      assert Count('_', [s[n]]) == 0 by {
        assert [s[n]][..0] == [];
      }
      if n > 0 {
        assert IsWordChar(s[n - 1]);
        if IsUpper(s[n]) {
          assert mid == "_" && mid[..0] == [];
        }
      }
    }
  }

  /** The entity name of a letters-and-digits name has one underscore per inner
      capital, and never starts with one. */
  lemma EntityNameUnderscores(s: string)
    requires AlphaNumeric(s)
    ensures Count('_', EntityName(s)) == InnerCapitals(s)
    ensures |s| > 0 ==> EntityName(s)[0] == Lower(s[0]) && EntityName(s)[0] != '_'
  {
    InsertCountsInnerCapitals(s);
    LowerKeepsUnderscores(InsertUnderscores(s));
    if |s| > 0 {
      InsertKeepsFirst(s);
    }
  }

  lemma {:induction false} InsertKeepsFirst(s: string)
    requires |s| > 0
    ensures InsertUnderscores(s)[0] == s[0]
    decreases |s|
  {
    var n := |s| - 1;
    if n > 0 {
      InsertKeepsFirst(s[..n]);
      assert s[..n][0] == s[0];
    } else {
      assert !Splits(s, 0);
    }
  }

  /** A name already in lower case is its own entity name. */
  lemma {:induction false} LowerCaseNameUnchanged(s: string)
    requires forall i :: 0 <= i < |s| ==> !IsUpper(s[i])
    ensures EntityName(s) == s
    decreases |s|
  {
    if |s| > 0 {
      var n := |s| - 1;
      LowerCaseNameUnchanged(s[..n]);
      assert !Splits(s, n);
      ToLowerAppend(InsertUnderscores(s[..n]), [s[n]]);
    }
  }

  /** A name whose only capital, if any, is its first character is left as it is by the replacement. */
  lemma {:induction false} NoInnerCapitalUnchanged(s: string)
    requires forall i :: 0 < i < |s| ==> !IsUpper(s[i])
    ensures InsertUnderscores(s) == s
    decreases |s|
  {
    if |s| > 0 {
      var n := |s| - 1;
      NoInnerCapitalUnchanged(s[..n]);
      assert s[..n] + [s[n]] == s;
    }
  }

  /** Appending a word that has no inner capitals adds at most the one underscore
      in front of it. */
  lemma {:induction false} InsertWord(a: string, b: string)
    requires |b| > 0
    requires forall i :: 0 < i < |b| ==> !IsUpper(b[i])
    ensures InsertUnderscores(a + b) ==
              InsertUnderscores(a) + (if Splits(a + b, |a|) then "_" else "") + b
    decreases |b|
  {
    var s := a + b;
    var n := |s| - 1;
    if |b| == 1 {
      assert s[..n] == a;
    } else {
      var b' := b[..|b| - 1];
      assert s[..n] == a + b';
      InsertWord(a, b');
      assert Splits(a + b', |a|) == Splits(s, |a|);
      assert !Splits(s, n);
      assert b' + [b[|b| - 1]] == b;
    }
  }

  /** The entity name of the transaction service. */
  lemma TransactionEntityName()
    ensures EntityName("Transaction") == "transaction"
  {
    NoInnerCapitalUnchanged("Transaction");
    assert ToLower("Transaction") == "transaction";
  }

  /** The replacement splits the ledger entry name in two. */
  lemma LedgerEntrySplit()
    ensures InsertUnderscores("LedgerEntry") == "Ledger_Entry"
  {
    var a, b := "Ledger", "Entry";
    assert a + b == "LedgerEntry";
    InsertWord(a, b);
    NoInnerCapitalUnchanged(a);
    assert Splits(a + b, |a|);
    assert a + "_" + b == "Ledger_Entry";
  }

  /** The entity name of the ledger service. */
  lemma LedgerEntryEntityName()
    ensures EntityName("LedgerEntry") == "ledger_entry"
  {
    LedgerEntrySplit();
    assert ToLower("Ledger_Entry") == "ledger_entry";
  }
}
